=== FILE: README.md ===
# Maze, search and soldier rules of a turn-based tactics game

This project models the core of a small turn-based game in Dafny, and proves properties of the model. In the game, teams of soldiers roam a generated maze of rooms joined by corridors. The model covers three parts:

- **The search engine** (`Astar` in `src/graph/graph.py`). It keeps nodes coloured START, TARGET, GRAY, BLACK or WHITE. Each node has an accumulated cost and a parent link. The frontier is an unsorted list that is sorted at every pop. There are two step functions, explicit resets, and start/target setters.
- **The maze builder** (`Maze` in `src/maze/maze.py`):
  - the SPACE grid and its border walls;
  - the room acceptance loop and floor marking;
  - the orthogonal edges;
  - the search run for each unordered pair of rooms;
  - carving PATH and ENTRANCE cells along the parent chain.
- **The soldier rules** (`src/soldier/soldier.py`):
  - damage and health packages;
  - ammunition packages and single-cell moves;
  - the defensive and offensive state policies;
  - target picking;
  - the ray scans that decide whether to shoot or throw a grenade.

Also covered: the cell, room and team records and the factories of `src/api_1_3_0.py`.

Every piece of state is an immutable record: the grid, the rooms, the search and the soldier. Operations are pure functions from one record to the next. Points are `Point(x, y)`, where x is the row index. Cells and nodes are keyed by their coordinates, because the source compares nodes by point. Costs are `real`. The heuristic is a parameter `dist` of type `(Point, Point) -> real`, and maze edges cost `1.0`. Randomness arrives as sequences of draws. `exit(1)` and the crashes the source would hit become `Err` values, except the crashes excluded by a `requires` and the two divisions of the room-drawing formulas (all listed under "Left out").

Files, in dependency order:

- `base.dfy`, `geometry.dfy`, `items.dfy`, `cell.dfy`, `room.dfy`: vocabulary and records;
- `graph.dfy`: the search engine;
- `graph_proofs.dfy`: its invariant, relaxation rules, termination measure and parent chains;
- `maze.dfy`: grid, walls, rooms and edges;
- `maze_connect.dfy`: running searches, carving, connecting rooms and the constructor;
- `soldier.dfy`: the soldier record and its rules;
- `scans.dfy`: the shooting and grenade scans;
- `team.dfy`, `api.dfy`: teams and factories.

The source as written does not run: it uses names that no file defines. The model follows the evidently intended program. These are the repairs it makes:

- `src/api_1_3_0.py:10` imports `BulletPackage` and `GrenadePackage`, but `src/package/package.py` defines only `Package`, `AmmunitionPackage` and `HealthPackage`. The model has one package kind for bullets and one for grenades.
- `src/api_1_3_0.py:75` passes a restore value to `HealthPackage`, whose constructor takes no argument. `src/soldier/soldier.py:623` reads a `restore` field that nothing sets. The model's health package carries its `restore` value.
- `src/maze/maze.py:112-116` calls `updateStateOf`, `updateManhattanOf`, `emplaceBy` and `nodeByCoordinate`, but the engine defines only the underscored versions. The same lines assign `target`, a property without a setter (`src/graph/graph.py:184-186`). The model seeds each search with the underscored operations and sets the engine's `_target`.
- `src/cell/cell.py` has no `point`, `obj`, `removeObj`, `isEmpty` or `isTraversable`, and its kind field is `id`. `src/point/point.py` has no `__eq__` and no `distance`. Yet `src/maze/maze.py:62`, `src/maze/maze.py:260`, `src/maze/maze.py:280`, `src/graph/graph.py:86`, `src/graph/graph.py:209`, `src/graph/graph.py:332`, `src/graph/graph.py:346` and `src/soldier/soldier.py:436-440` use them. In the model a cell has coordinates, a kind and an optional occupant, points compare by value, and the distance is the parameter `dist`.
- `src/cell/cell.py` also lacks `containsSoldier`, `containsBulletPackage`, `containsGrenadePackage`, `containsHealthPackage` and `samePosition`. `src/soldier/soldier.py` uses them at lines 251, 259, 279, 343, 372-397, 404, 499 and in every scan loop. The model reads the cell's occupant directly and compares positions by value.
- `src/grenade/grenade.py:10-13` declares `damage` as a property that takes an extra `distance` argument, so every read of `grenade.damage` (`src/soldier/soldier.py:104`, `src/soldier/soldier.py:106`) raises `TypeError`, and as written a grenade never lowers health. The model reads the grenade's maximum damage, as the property's body returns.
- `AmmunitionPackage` (`src/package/package.py:8-14`) keeps its units in `_units` and has no `units` attribute, which `src/soldier/soldier.py:585` and `src/soldier/soldier.py:604` read. The model's ammunition packages expose their units in order.
- `src/maze/maze.py` writes `cell.kind` and `CellType.ENTRANCE`, which `src/cell/cell.py` does not declare. The model uses one `kind` field with an `Entrance` kind, which renders like floor.

Further readings of the code:

- `_initRooms` never appends cells to a room's floor, so `Room.floor` stays empty at run time. Every floor-based query works on whatever floor the caller supplies.
- `_connectRooms` points the engine's `_target` at the far center's node but, unlike `updateNodeToStateTargetBy`, does not colour it TARGET. That node stays WHITE until it is first relaxed.
- The search graph includes wall cells. Nodes in row 0 and column 0 get no neighbours of their own.
- `Room` is built with four arguments, (height, width, cx, cy). The center is `Point(cx, cy)`.
- `room.cellBy` is read as "the point is on the room's floor and the map has a cell there". `cell.isEmpty` is read as "no occupant". `cell.isTraversable` is a caller-supplied predicate.

## Model

| member | source | states |
|---|---|---|
| Cells.NewCell | src/cell/cell.py:11-15 | a new cell stands at (x, y), has the given kind and holds nothing |
| Cells.WithKind | src/cell/cell.py:21-25 | setting the kind leaves the coordinates and the occupant unchanged |
| Cells.Token | src/cell/cell.py:35-42 | the one-character rendering of a cell: `_` for SPACE, `W` for WALL, `P` for PATH and `F` for every other kind (its read-back is `TokenRoundTrip`) |
| Cells.TokenRoundTrip | src/cell/cell.py:35-42 | every token is one character; each of the four declared kinds reads back from its token; an entrance renders as floor |
| Cells.TokensDistinct | src/cell/cell.py:35-42 | two declared kinds with the same token are the same kind |
| Rooms.NewRoom | src/room/room.py:11-15 | a new room has the given size and center and an empty floor |
| Rooms.AppendCell | src/room/room.py:33-34 | exactly one cell is appended at the end; earlier cells and the size are kept |
| Rooms.PartOfRoom | src/room/room.py:36-37 | a point belongs to the room iff it is on the room's floor list |
| Rooms.AppendThenPartOf | src/room/room.py:33-37 | after appending p, p is part of the room and membership of every other point is unchanged |
| Graph.IsNeighbour | src/graph/graph.py:72-73 | q is a neighbour of p iff p is a node whose adjacency list holds q |
| Graph.AddNeighbour | src/graph/graph.py:67-70 | membership is the old list plus `other`; no duplicates are introduced; the old list is a prefix |
| Graph.AddNeighbourIdempotent | src/graph/graph.py:67-70 | adding the same neighbour twice equals adding it once |
| Graph.AddNeighbours | src/graph/graph.py:67-70 | after a series of additions, membership is the union and the list stays duplicate-free |
| Graph.EdgeBy | src/graph/graph.py:330-338 | an edge is found iff some edge joins the two nodes in either direction, and the one found does join them |
| Graph.EdgeByIsFirst | src/graph/graph.py:330-338 | the edge found is the first in the list that joins the two nodes, in either direction |
| Graph.InsertDesc | src/graph/graph.py:142-145 | the insertion adds exactly one occurrence of the entry (multiset) |
| Graph.InsertDescSorted | src/graph/graph.py:142-145 | inserting into a cost-descending list keeps it cost-descending |
| Graph.SortDesc | src/graph/graph.py:142-145 | the sort permutes the frontier (multiset equality) |
| Graph.SortDescSorted | src/graph/graph.py:142-145 | the sorted frontier is ordered by descending cost |
| Graph.LastIsMinimal | src/graph/graph.py:142-145 | the last entry of a descending list has minimal cost |
| Graph.Pop | src/graph/graph.py:142-145 | the popped node is a frontier entry of minimal cost; exactly one occurrence leaves the frontier; nothing else in the search changes |
| Graph.NoOptionsLeft | src/graph/graph.py:275-278 | no options are left iff a target is set and the frontier is empty |
| Graph.NoSolution | src/graph/graph.py:280-281 | there is no solution iff the frontier is empty |
| Graph.NoOptionsLeftNeedsTarget | src/graph/graph.py:275-281 | with no target, `noOptionsLeft` is false; it holds iff a target is set and the frontier is empty |
| Graph.Visit | src/graph/graph.py:212-221 | one neighbour's update: a WHITE or TARGET node becomes GRAY with the new cost and parent and joins the frontier; a GRAY node with a higher cost takes the new cost and parent; anything else is unchanged; the node set is kept |
| Graph.Relax | src/graph/graph.py:199-225 | the relaxation loop keeps the node set and the frontier within it; it succeeds whenever a target is set and every neighbour has an edge; it fails only with no target, or on a neighbour of `cur` with no edge (the `exit(1)` of line 207) |
| Graph.Expand | src/graph/graph.py:196-225 | the post-pop work keeps the node set and the frontier within it; it succeeds on a popped TARGET, and whenever a target is set and every neighbour of the popped node has an edge; it fails only with no target or on an adjacency without an edge |
| Graph.NextIteration | src/graph/graph.py:188-225 | a best-first step keeps the node set and the frontier within it; with a target set and an edge for every adjacency it always succeeds; it fails only with no target or on an adjacency without an edge |
| Graph.NextIterationNeighbourPriority | src/graph/graph.py:227-273 | the neighbour-priority step keeps the node set and the frontier within it; with a target set and an edge for every adjacency it always succeeds; it fails only with no target or on an adjacency without an edge |
| Graph.ResetNodes | src/graph/graph.py:75-82 | every node becomes WHITE with cost 100000 and no parent |
| Graph.ResetAlgorithm | src/graph/graph.py:310-318 | all nodes fresh, frontier empty, not solved, no start, target or last analysed node |
| Graph.ResetKeepingStart | src/maze/maze.py:105-110 | the partial reset: nodes fresh, frontier empty, not solved, no target; start and last analysed node kept |
| Graph.NewSearch | src/graph/graph.py:160-171 | the constructed engine covers exactly the graph's nodes with an empty frontier; it is well formed iff the graph is closed |
| Graph.SetStart | src/graph/graph.py:320-324 | the node becomes START with cost 0 and is appended to the frontier, and the engine's start is set; nothing else changes |
| Graph.SetTarget | src/graph/graph.py:326-328 | the node becomes TARGET and the engine's target is set; nothing else changes |
| SearchProofs.RelaxKeepsReferences | src/graph/graph.py:200-225 | relaxation never changes start, target or last analysed node |
| SearchProofs.RelaxChangesOnlyByImproving | src/graph/graph.py:200-221 | a node changes only if it is a neighbour that was WHITE or TARGET (becoming GRAY with cost cur+h+edge and parent cur) or GRAY with a strictly larger cost; BLACK and START nodes never change |
| SearchProofs.RelaxAppendsUnsettled | src/graph/graph.py:209-216 | the frontier only grows at its end, and only by neighbours that were WHITE or TARGET |
| SearchProofs.RelaxEnqueuesUnsettled | src/graph/graph.py:209-216 | conversely, every WHITE or TARGET neighbour reached is appended to the frontier (all of them when the target is not among them, else the target itself) |
| SearchProofs.RelaxSolvesAtTarget | src/graph/graph.py:223-225 | `solved` is set iff the loop meets the target among non-black neighbours; otherwise every white or target neighbour ends GRAY with parent cur |
| SearchProofs.ParentLinkKept | src/graph/graph.py:209-221 | with h >= 0 and positive edge costs, a parent link after relaxation points at a settled node of strictly lower cost |
| SearchProofs.RelaxKeepsInv | src/graph/graph.py:200-225 | relaxing the neighbours of a settled node keeps the invariant (parents settled and cheaper) |
| SearchProofs.ExpandKeepsInv | src/graph/graph.py:192-225 | blackening the popped node and relaxing keeps the invariant |
| SearchProofs.NextIterationKeepsInv | src/graph/graph.py:188-225 | `nextIteration` keeps the invariant |
| SearchProofs.NeighbourPriorityKeepsInv | src/graph/graph.py:227-273 | `nextIterationNeighbourPriority` keeps the invariant |
| SearchProofs.PoppedTargetSolves | src/graph/graph.py:189-194 | popping a TARGET node sets `solved` and the last analysed node and changes nothing else |
| SearchProofs.NeighbourPriorityOnlyPops | src/graph/graph.py:228-232 | when the popped node and the last analysed node are not mutually adjacent, the step only pops |
| SearchProofs.ExpandRelaxes | src/graph/graph.py:196-221 | a non-START popped node becomes BLACK keeping its cost and parent; every other node changes only by the relaxation rules |
| SearchProofs.ExpandReachesNeighbours | src/graph/graph.py:209-216 | when the target is not met, every WHITE or TARGET neighbour becomes GRAY with the popped node as parent and is enqueued at the end of the frontier |
| SearchProofs.StepRelaxes | src/graph/graph.py:188-225 | a full step records the popped node as last analysed, blackens it and changes other nodes only by the relaxation rules |
| SearchProofs.ResetEstablishesInv | src/graph/graph.py:310-318 | after a full reset the invariant holds, no options are reported and the frontier is empty |
| SearchProofs.StartThenTargetInv | src/graph/graph.py:310-328 | reset, then start, then target yields an invariant-satisfying search whose frontier is just the start |
| SearchProofs.VisitKeepsMeasure | src/graph/graph.py:209-216 | relaxing one neighbour leaves frontier length plus the number of unreached (WHITE or TARGET) nodes unchanged |
| SearchProofs.RelaxKeepsMeasure | src/graph/graph.py:200-225 | the relaxation loop keeps frontier size plus unseen nodes constant |
| SearchProofs.ExpandLowersMeasure | src/graph/graph.py:192-225 | blackening and relaxing never raises the measure |
| SearchProofs.StepLowersMeasure | src/graph/graph.py:188-273 | both step kinds strictly lower frontier size plus unseen nodes, so the search loop terminates |
| SearchProofs.ChainFacts | src/maze/maze.py:257-273 | the walk `_markPathAndEntrances` takes visits exactly the nodes that have a parent: it starts at the node, each element's parent is the next one, the last one's parent has no parent, and costs strictly decrease along it |
| SearchProofs.ChainHasNoRepeats | src/maze/maze.py:257-273 | under the invariant the parent chain never revisits a node |
| Maze.InitMap | src/maze/maze.py:165-177 | height x width cells, the cell at (i, j) has coordinates (i, j), all SPACE and empty; non-positive sizes give no cells |
| Maze.InitWalls | src/maze/maze.py:244-255 | border cells (row 0, row h-1, column 0, column w-1) become WALL; all other cells are unchanged |
| Maze.InitWallsIdempotent | src/maze/maze.py:244-255 | walling twice is walling once |
| Maze.CellByCoordinate | src/maze/maze.py:59-64 | a cell is found iff the point lies in the grid, and it has that point |
| Maze.RoomSizeIllegal | src/maze/maze.py:303-312 | a room is illegal iff, doubled to stay in integers, `cx ± width/2` leaves the range [2, W - 3] or `cy ± height/2` leaves [2, H - 3] (the source compares the center row with the grid width and the column with its height) |
| Maze.RoomsOverlap | src/maze/maze.py:294-301 | doubled to stay in integers: two rooms overlap iff half their heights exceed the column distance minus 4 and half their widths exceed the row distance minus 4 |
| Maze.RoomsOverlapSymmetric | src/maze/maze.py:294-301 | the padded per-axis overlap test is symmetric |
| Maze.LegalBoxBounds | src/maze/maze.py:303-312 | every cell of an accepted room's floor box lies in rows [2, W-3) and columns [2, H-3) |
| Maze.LegalBoxInside | src/maze/maze.py:303-312 | on grids with height and width within 2 of each other, an accepted room's box is inside the grid and off the border |
| Maze.SeparateRoomsDisjoint | src/maze/maze.py:294-301 | two rooms that do not overlap have disjoint floor boxes |
| Maze.MarkFloor | src/maze/maze.py:232-240 | marking floor keeps every cell's coordinates and occupant |
| Maze.PlaceRooms | src/maze/maze.py:206-242 | on success, exactly `need` rooms are added after the accepted prefix; grid size and cell set unchanged |
| Maze.InitRooms | src/maze/maze.py:198-242 | on success exactly `count` rooms are accepted |
| Maze.PlaceRoomsFacts | src/maze/maze.py:206-242 | accepted rooms pass the size check, pairwise do not overlap, and exactly the cells of their boxes become FLOOR |
| Maze.InitRoomsFacts | src/maze/maze.py:198-242 | the rooms of `_initRooms` are legal, pairwise non-overlapping, and only their boxes become FLOOR |
| Maze.RoomsKeepBorder | src/maze/maze.py:232-240 | on grids with height and width within 2 of each other, room placement never touches a border cell |
| Maze.PlaceRoomsFits | src/maze/maze.py:232-240 | on such grids floor marking never leaves the grid |
| Maze.PlaceRoomsErrors | src/maze/maze.py:206-242 | room placement fails only by leaving the grid or running out of drawn candidates |
| Maze.ConsistentKeys | src/maze/maze.py:165-177 | the map's cells are exactly the grid points |
| Maze.NeighbourListFacts | src/maze/maze.py:146-153 | the registered neighbours are duplicate-free orthogonal grid points, and every orthogonal grid point with both indices >= 1 is among them |
| Maze.EdgesTo | src/maze/maze.py:275-281 | one edge per registered neighbour, of cost 1 |
| Maze.RegisterAll | src/maze/maze.py:275-281 | registering adds the neighbours to the node's list and appends one edge per neighbour |
| Maze.GridPointsIn | src/maze/maze.py:165-177 | the grid point set is exactly the in-grid points |
| Maze.RegisterKeepsSound | src/maze/maze.py:275-281 | after registering, every edge still matches an adjacency and the node's list is exactly its neighbours |
| Maze.RegisterKeepsComplete | src/maze/maze.py:275-281 | after registering, every adjacency has an edge from its node |
| Maze.RegisterStep | src/maze/maze.py:142-156 | one inner-loop pass extends the handled region by one node |
| Maze.InitEdges | src/maze/maze.py:137-158 | nodes with both indices >= 1 get exactly their orthogonal neighbours, the others none; every edge matches an adjacency and every adjacency has an edge |
| Maze.InitRowEdges | src/maze/maze.py:143-154 | one pass of the column loop over row i registers exactly that row's inner nodes with their orthogonal neighbours and keeps edges and adjacency in step |
| Maze.EdgesClosed | src/maze/maze.py:137-158 | every neighbour is a node, lists are duplicate-free and every adjacency is orthogonal |
| Maze.EdgesMutual | src/maze/maze.py:137-158 | between nodes with both indices >= 1, adjacency holds iff they are orthogonal neighbours, and it is mutual |
| Maze.EdgesForAdjacency | src/maze/maze.py:275-281 | every adjacency has an edge and every edge cost is positive |
| MazeConnect.Seed | src/maze/maze.py:105-116 | before each search: nodes fresh except the START center of cost 0, frontier is just that center, target is the other center |
| MazeConnect.SeedInv | src/maze/maze.py:105-116 | the prepared search satisfies the search invariant |
| MazeConnect.StepKeepsTarget | src/graph/graph.py:188-225 | a plain step keeps the engine's target |
| MazeConnect.RunToSolved | src/maze/maze.py:118-130 | the solve loop ends solved with the invariant and the same target, or fails with "no path" or a step that met an adjacency without an edge; on a graph with an edge for every adjacency, "no path" is the only failure |
| MazeConnect.MarkStep | src/maze/maze.py:259-272 | one pass of the carving loop: a SPACE cell becomes PATH, and a FLOOR cell next to the PATH cell just before or after it becomes ENTRANCE; the cell set is kept |
| MazeConnect.MarkFrom | src/maze/maze.py:257-273 | the carving loop as a recursion over the rest of the chain, remembering the previous cell; the cell set is kept |
| MazeConnect.MarkPathAndEntrances | src/maze/maze.py:257-273 | carving keeps the cell set (what it writes is stated by `MarkMatchesReference` and `MarkFromEvolves`) |
| MazeConnect.MarkStepAdvances | src/maze/maze.py:259-272 | one pass extends the handled prefix of the chain by one cell |
| MazeConnect.MarkFromFinishes | src/maze/maze.py:257-273 | the loop finishes the whole chain as the reference describes |
| MazeConnect.MarkMatchesReference | src/maze/maze.py:257-273 | along a repeat-free chain, SPACE becomes PATH and FLOOR becomes ENTRANCE next to a PATH step; cells off the chain are unchanged |
| MazeConnect.EvolvesTransitive | src/maze/maze.py:257-273 | the allowed carving changes compose |
| MazeConnect.MarkFromEvolves | src/maze/maze.py:257-273 | carving changes only SPACE to PATH and FLOOR to ENTRANCE, never a WALL |
| MazeConnect.ConnectPair | src/maze/maze.py:103-135 | connecting two centers leaves a solved search in which the far center has a parent, and a map that only evolved by carving; centers off the grid fail; on a graph with an edge for every adjacency no search step fails |
| MazeConnect.ConnectPairChain | src/maze/maze.py:126-132 | the chain carved starts at the far center, has no repeats and follows parent links |
| MazeConnect.ConnectPairCarvesChain | src/maze/maze.py:126-132 | the map after connecting is the reference carving of that chain |
| MazeConnect.RowPairsFacts | src/maze/maze.py:97-100 | one row of the pair loop lists exactly the pairs (i, k) for lo <= k < hi, once each |
| MazeConnect.PairsExactlyOnce | src/maze/maze.py:97-100 | the pair loop searches every unordered pair of distinct rooms exactly once, as (a, b) with a < b |
| MazeConnect.NoneConnected | src/maze/maze.py:87-89 | the `connected` table starts with an empty list per room |
| MazeConnect.ListEachOther | src/maze/maze.py:134-135 | after pair (i, j) is connected, each room lists the other, and the table covers every pair up to (i, j) |
| MazeConnect.ConnectOne | src/maze/maze.py:100-135 | one connection of a pair not yet connected solves its search, changes the map by carving only, and lists the pair in both rooms' entries; on a graph with an edge for every adjacency no search step fails |
| MazeConnect.ConnectRow | src/maze/maze.py:97-135 | one pass of the outer pair loop: room i is connected to every later room; the rows searched are exactly (i, k) for k > i, the table then covers every pair of rows up to i, and the map only evolves by carving; on a graph with an edge for every adjacency no search step fails |
| MazeConnect.ConnectRooms | src/maze/maze.py:84-135 | `_connectRooms` runs one search per unordered pair, `connected` relates each room to every other and is symmetric, and the map only evolves by carving; on a graph with an edge for every adjacency no search step fails |
| MazeConnect.InitGraph | src/maze/maze.py:160-163 | the graph covers the grid, is closed, has positive edge costs and an edge for every orthogonal adjacency |
| MazeConnect.PlaceAllRooms | src/maze/maze.py:198-242 | exactly `count` legal, pairwise separate rooms; the board is the input board with exactly the rooms' boxes marked FLOOR; on near-square grids the border stays wall and placement never leaves the grid |
| MazeConnect.BuildMaze | src/maze/maze.py:14-22 | the constructor yields a map of the given size with `roomsCount` legal separate rooms, walls on the border of near-square grids; the final map is the walled SPACE map with the room boxes marked FLOOR, changed only by carving; the search graph covers the grid, is closed, costs are positive and every adjacency is an orthogonal edge, so no search step fails; every unordered pair of rooms is searched once and every room is connected to every other, symmetrically |
| Soldiers.NewSoldier | src/soldier/soldier.py:52-70 | full health, nothing carried, not placed, state DISCOVERING; the id is the counter, which increments |
| Soldiers.InitAstar | src/soldier/soldier.py:114-117 | the soldier's search covers exactly the map's nodes and nothing else changes |
| Soldiers.AfterDamage | src/soldier/soldier.py:106-110 | health after damage is never negative; it is 0 iff the damage reaches the health, else health minus damage |
| Soldiers.ShotWith | src/soldier/soldier.py:211-221 | health becomes max(0, health - damage), the visual state is SHOT_AT and nothing else changes |
| Soldiers.BlownWithGrenade | src/soldier/soldier.py:101-112 | health becomes max(0, health - damage), the visual state is BLOWN_WITH_GRENADE and nothing else changes |
| Soldiers.ShotsAccumulate | src/soldier/soldier.py:211-221 | with non-negative damages, a series of shots leaves the health one shot of the summed damage would leave |
| Soldiers.Vacate | src/soldier/soldier.py:595 | removing an occupant empties that cell, keeps its kind and position, and leaves all other cells alone |
| Soldiers.SpottedHealthPackageFlow | src/soldier/soldier.py:620-634 | health becomes min(max_health, health + restore); the package leaves the board; state DISCOVERING; the search is reset |
| Soldiers.HealthPackageCaps | src/soldier/soldier.py:623-628 | a package never lowers health nor lifts it above the maximum, and a soldier at the maximum stays there |
| Soldiers.SpottedBulletPackageFlow | src/soldier/soldier.py:582-599 | the package's bullets are appended in order; the program exits iff the soldier still has none; otherwise the package is removed, the search reset, state DISCOVERING |
| Soldiers.SpottedGrenadePackageFlow | src/soldier/soldier.py:601-618 | the same for grenades |
| Soldiers.MapTo | src/soldier/soldier.py:168-182 | the move happens iff the destination is adjacent in either direction and traversable; then the old cell is vacated and the new one holds the soldier; otherwise nothing changes |
| Soldiers.MapToAndBack | src/soldier/soldier.py:168-182 | a move from the soldier's own cell to an empty cell can be reversed, restoring board and position |
| Soldiers.IsLowHealth | src/soldier/soldier.py:766-767 | a defensive soldier is low below half its maximum health, an offensive one (lines 790-791) below a tenth, compared in integers |
| Soldiers.LowHealthIsRatio | src/soldier/soldier.py:766-767 | the integer low-health test equals the source's ratio `(max/100)*k > health` read over the rationals (k = 50 or 10) |
| Soldiers.DecideOnState | src/soldier/soldier.py:756-791 | an offensive soldier never looks for bullets; looking for health implies low health; discovering implies it is not low |
| Soldiers.DefensivePolicy | src/soldier/soldier.py:756-767 | health below half → HEALTH; else fewer than 3 bullets → BULLETS; else fewer than 2 grenades → GRENADES; else DISCOVERING, each as an iff |
| Soldiers.OffensivePolicy | src/soldier/soldier.py:780-791 | no ammunition at all → GRENADES; never BULLETS; otherwise health below a tenth → HEALTH, else DISCOVERING, each as an iff |
| Soldiers.LookingForHealthPersists | src/soldier/soldier.py:756-791 | losing health never takes a soldier out of LOOKING_FOR_HEALTH |
| Soldiers.CurrentRoom | src/soldier/soldier.py:319-327 | the first room whose floor holds the soldier's cell; none iff no room holds it (or the soldier is not placed) |
| Soldiers.FindOnFloor | src/soldier/soldier.py:249-254 | the first floor cell holding the wanted package; none iff no floor cell holds one |
| Soldiers.SupplyInCurrentRoom | src/soldier/soldier.py:244-254 | bullet and grenade packages are searched only in the current room, and the result is the first floor cell of that room holding one; none iff there is no room or the room has none |
| Soldiers.FindInRooms | src/soldier/soldier.py:401-406 | health packages are searched in every room in order; the result is the first matching floor cell of the first room that has one; none iff no room has one |
| Soldiers.RandomRoomCenter | src/soldier/soldier.py:457-469 | the result is the center of a room not containing the previous cell, from the first acceptable draw; none iff no draw is acceptable |
| Soldiers.ChooseTarget | src/soldier/soldier.py:408-433 | a LOOKING state is kept only when its package was found, and the target is that package; the state falls back to DISCOVERING exactly when the wanted supply is absent, and then a room center is drawn |
| Soldiers.PickTarget | src/soldier/soldier.py:408-441 | on success the state is the chosen one, the previous cell becomes the current cell, the search starts at the current cell and aims at the chosen target, now in state TARGET, over the same nodes; nothing else changes; it succeeds exactly when a target was chosen, the soldier has a search, and its cell and the target are nodes of it; it fails with "no room drawn" exactly when no target was chosen, and with "no search" exactly when a target was chosen but there is no search |
| Soldiers.PickTargetFallsBack | src/soldier/soldier.py:420-433 | needing bullets or grenades with none in the room leads to DISCOVERING and a room-center target from a room not just left |
| Scans.Scan | src/soldier/soldier.py:490-507 | a scan loop returns an admitted, occupied room cell on its line, no earlier than its start |
| Scans.ScanFindsFirstOccupied | src/soldier/soldier.py:490-507 | a scan returns the cell k steps away iff the k cells before it are admitted, in the room and empty and that cell is admitted, in the room and occupied |
| Scans.EnemyOn | src/soldier/soldier.py:496-505 | a loop finds a target iff its first occupied cell holds a soldier of another team; any other occupant ends it |
| Scans.FirstEnemy | src/soldier/soldier.py:490-563 | the loops run in order and the first that finds an enemy acts; none iff no loop finds one |
| Scans.ShootSightsAsWritten | src/soldier/soldier.py:490-563 | as written, the fourth shooting loop starts at y-1 and counts y upwards, unbounded |
| Scans.ShootSights | src/soldier/soldier.py:490-563 | the intended loops start next to the shooter and walk away from it in the four directions |
| Scans.ShootIfPossible | src/soldier/soldier.py:481-563 | a shot is fired iff some loop finds an enemy; the victim is the enemy found by the first loop that finds one; it uses the last bullet, which alone leaves the inventory; otherwise nothing changes |
| Scans.ShootsIffEnemyInSight | src/soldier/soldier.py:490-563 | with the intended loops a soldier shoots iff the first occupied room cell in one of the four directions holds an enemy |
| Scans.ShootMissesEnemyBelow | src/soldier/soldier.py:545-561 | the loops as written miss an enemy two cells below behind an empty cell; the intended ones shoot it |
| Scans.LookAtCellsAndShoot | src/soldier/soldier.py:284-299 | no bullets or no current room means no shot; otherwise the intended scans of the current room decide |
| Scans.PickupThenShoot | src/soldier/soldier.py:582-599 | after picking up bullets, the next shot fires the package's last bullet and keeps the rest |
| Scans.GrenadeSightsAsWritten | src/soldier/soldier.py:663-736 | as written, the +x and +y grenade loops are the intended ones, and the -x and -y loops fail their condition on their first cell, so they never run |
| Scans.GrenadeSights | src/soldier/soldier.py:663-736 | the intended grenade loops start next to the thrower in each direction |
| Scans.ThrowGrenadeIfPossible | src/soldier/soldier.py:654-736 | a grenade is thrown iff some loop finds an enemy; the victim is the enemy found by the first loop that finds one; it uses the last grenade, which alone leaves the inventory; otherwise nothing changes |
| Scans.GrenadeAsWrittenReach | src/soldier/soldier.py:663-736 | as written, a grenade can only hit an enemy at +1 or +2 along +x or +y |
| Scans.GrenadeIffEnemyNearby | src/soldier/soldier.py:663-736 | with the intended loops a grenade is thrown iff, in some direction, the next room cell holds an enemy, or it is empty and the cell after it holds an enemy |
| Scans.GrenadeSightFindsWithinTwo | src/soldier/soldier.py:663-734 | each intended grenade loop finds an enemy iff one stands within two cells in its direction with nothing in between |
| Scans.GrenadeSightsSpanTwo | src/soldier/soldier.py:665-683 | every intended grenade loop admits exactly the first two cells it steps onto |
| Scans.GrenadeMissesEnemyBelow | src/soldier/soldier.py:700-734 | as written, an enemy right below the thrower is not hit; the intended loops hit it |
| Scans.LookNearbyAndThrowGrenade | src/soldier/soldier.py:301-317 | no grenades or no current room means no throw; otherwise the intended grenade scans decide |
| Teams.NewTeam | src/team/team.py:11-14 | the new team's id is the counter, which increments; no soldiers |
| Teams.AddSoldier | src/team/team.py:24-25 | exactly one soldier is appended at the end; the id is unchanged |
| Teams.NewTeamsIds | src/team/team.py:11-14 | teams built in a row take consecutive, hence distinct and increasing, ids |
| Api.GetBoxes | src/api_1_3_0.py:17-24 | `amount` boxes, none for a non-positive amount |
| Api.GetHealthPackages | src/api_1_3_0.py:68-77 | `units` packages each restoring the given value; none for a non-positive count |
| Api.MakeBullets | src/api_1_3_0.py:34-37 | `per_package` bullets, each with the given damage |
| Api.GetBulletPackages | src/api_1_3_0.py:26-40 | `packages` bullet packages of `per_package` bullets of the given damage |
| Api.MakeGrenades | src/api_1_3_0.py:60-63 | `per_package` grenades, each with the given damage |
| Api.GetGrenadePackages | src/api_1_3_0.py:52-66 | `packages` grenade packages of `per_package` grenades of the given damage |
| Api.GetTeams | src/api_1_3_0.py:83-103 | exactly `amount` soldiers in ceil(amount/2) teams; each team offensive first then defensive; only the last team may have one soldier; team ids are consecutive; every soldier's team id is its team's |

## Left out

- Logging is a no-op. File and argv I/O, `sleep`, rendering and `main.py` are left out. So are `getConfigurations`, `setLogger`, `delay` and `nextMove` in `src/api_1_3_0.py`.
- The `place*` methods of the maze are stubs, and `team.removeSoldier` is referenced but not defined. Neither is modelled.
- `src/api_1_0_0.py` is superseded by `src/api_1_3_0.py` and is not modelled.
- Randomness: `_roomHeight`, `_roomCenterCoord` and `_randomRoomCenter` are driven by sequences of draws. The unbounded rejection loops end with an error when the draws run out; their termination is not modelled. `_randomCellAtRoom` is not modelled.
- `Point.distance` (a square root) is the heuristic parameter `dist`; maze edges cost 1. Floating point is left out.
- Soldiers.IsLowHealth: stated as exact comparisons (`max*50 > health*100`, `max*10 > health*100`). Python's float division could round differently at extreme values.
- `Soldier.nextMove`, `_noOptionsLeftFlow`, `_reverseTarget`, `shareTargetWith`, `_spottedEnemyFlow`, `_spottedFriendFlow`, `_haveSpotted*` and the soldier finders `_enemySoldierAt`/`_friendlySoldierAt` are left out. They compose the modelled steps, and the outer loop need not terminate. Single steps are modelled instead.
- Scans.ShootIfPossible and Scans.ThrowGrenadeIfPossible report the victim's id and the ammunition used, not the victim's new record. The victim's update is `ShotWith` or `BlownWithGrenade` applied to that ammunition.
- Scans.LookAtCellsAndShoot and Scans.LookNearbyAndThrowGrenade use the corrected loops (see Findings). The as-written loops are kept beside them.
- The `teams_count` computation in `getTeams` is only logged, so it is not modelled.
- The two class-wide counters (`Soldier.count`, `Team.count`) are threaded explicitly through parameters and results.
- `_initNodes` is folded into the graph's node set, one node per grid point.
- MazeConnect.Seed: models the seeding that `src/maze/maze.py:112-116` evidently intends, with `_updateStateOf`, `_updateManhattanOf`, `_emplace`, `_nodeByCoordinate` and an assignment to `_target`. As written those lines raise `AttributeError`, so the source never reaches a search.
- Graph.Pop: requires a non-empty frontier. The source's `pop` raises `IndexError` on an empty list; callers check `noSolution` first.
- Graph.NextIteration: requires a non-empty frontier, for the same reason as `Pop`.
- Graph.NextIterationNeighbourPriority: requires a non-empty frontier, for the same reason as `Pop`.
- Graph.SetStart: requires the point to be a node. Otherwise `_nodeByCoordinate` returns `None` and `_updateStateOf` raises.
- Graph.SetTarget: requires the point to be a node, for the same reason as `SetStart`.
- Soldiers.MapTo: requires a placed soldier whose cell and destination are on the board. For an unplaced soldier, `_nodeBy(self._at)` finds no node and the source dereferences `None`.
- Soldiers.Vacate: requires the point to be on the board. The source calls `removeObj` on a cell object it already holds, so it has no missing-cell case.
- Soldiers.SpottedHealthPackageFlow: requires the soldier to have a search (set by `initAstar`). Without one, the reset raises.
- Soldiers.SpottedBulletPackageFlow: requires a search, as `SpottedHealthPackageFlow` does.
- Soldiers.SpottedGrenadePackageFlow: requires a search, as `SpottedHealthPackageFlow` does.
- Maze.PlaceRooms: each draw is taken as a room size and center already computed. The formulas that produce them are left out, and so are their two crashes. `_roomHeight` (`src/maze/maze.py:287-289`) computes `randint(0, size) % (size / 5)`, which raises `ZeroDivisionError` on a grid of one row. `_roomCenterCoord` (`src/maze/maze.py:283-285`) computes `randint(0, max_size) % (max_size - size - 2)`, which raises when the drawn size is `max_size - 2`, for example a size of 7 on a grid of ten rows. Neither crash is an `Err` of the model.
- MazeConnect.BuildMaze: requires at least one row and one column. With none, `_initWalls` indexes an empty map and raises, so this case has no result to model.
- Soldiers.RandomRoomCenter: each draw must be a valid room index, as `randint(0, len - 1)` yields. With no rooms the source raises, and the model then has no draws and no center.
- MazeConnect.MarkPathAndEntrances: its own contract states only that the cell set is kept. What it writes along the chain is stated by `MarkMatchesReference` and `MarkFromEvolves`.

## Findings

| source | as written | input that shows it | evidently intended | confidence | as-written member | corrected member |
|---|---|---|---|---|---|---|
| src/soldier/soldier.py:545-561 | the -y shooting loop starts at y-1 and then does `decrement_y += 1`, walking back onto the shooter's own cell | shooter of team 1 at (5, 5); (5, 4) empty; enemy of team 2 at (5, 3); room floor (5, 3), (5, 4), (5, 5): no shot | `decrement_y -= 1`: walk y-1, y-2, … and shoot the enemy at (5, 3) | high, not executed | Scans.ShootSightsAsWritten, Scans.ShootMissesEnemyBelow | Scans.ShootSights, Scans.ShootsIffEnemyInSight |
| src/soldier/soldier.py:700-734 | the -x and -y grenade loops run `while decrement < x - 3` from x - 1, so they never run | thrower of team 1 at (5, 5), enemy of team 2 at (5, 4), same room floor: no grenade | `while decrement > x - 3` with a decrementing counter: two cells each way, as for +x and +y | high, not executed | Scans.GrenadeSightsAsWritten, Scans.GrenadeMissesEnemyBelow, Scans.GrenadeAsWrittenReach | Scans.GrenadeSights, Scans.GrenadeIffEnemyNearby, Scans.GrenadeSightsSpanTwo |

=== FILE: api.dfy ===
/** The factories the game's entry point uses to populate a map: teams of
    soldiers, ammunition and health packages, and boxes. */
module Api {
  import opened Base
  import opened Items
  import opened Soldiers
  import opened Teams

  /** `getBoxes`: one box per count of a `while amount > 0` loop. */
  method GetBoxes(amount: int) returns (result: seq<Box>)
    ensures |result| == Count(amount)
    ensures amount <= 0 ==> |result| == 0
  {
    result := [];
    var left := amount;
    while left > 0
      invariant |result| + Count(left) == Count(amount)
    {
      result := result + [Box];
      left := left - 1;
    }
  }

  /** `getHealthPackages`: `units` packages restoring `restore` each. */
  method GetHealthPackages(units: int, restore: int) returns (result: seq<Package>)
    ensures |result| == Count(units)
    ensures forall i :: 0 <= i < |result| ==> result[i] == HealthPackage(restore)
  {
    result := [];
    var left := units;
    while left > 0
      invariant |result| + Count(left) == Count(units)
      invariant forall i :: 0 <= i < |result| ==> result[i] == HealthPackage(restore)
    {
      result := result + [HealthPackage(restore)];
      left := left - 1;
    }
  }

  /** The bullets of one package: `count` bullets of the given damage. */
  method MakeBullets(count: int, damage: int) returns (units: seq<Bullet>)
    ensures |units| == Count(count)
    ensures forall k :: 0 <= k < |units| ==> units[k] == Bullet(damage)
  {
    units := [];
    var left := count;
    while left > 0
      invariant |units| + Count(left) == Count(count)
      invariant forall k :: 0 <= k < |units| ==> units[k] == Bullet(damage)
    {
      units := units + [Bullet(damage)];
      left := left - 1;
    }
  }

  /** `getBulletPackages`: `packages` packages of `perPackage` bullets each,
      every bullet doing `damage`. */
  method GetBulletPackages(packages: int, perPackage: int, damage: int) returns (result: seq<Package>)
    ensures |result| == Count(packages)
    ensures forall i :: 0 <= i < |result| ==>
      result[i].BulletPackage? && |result[i].bullets| == Count(perPackage)
      && forall k :: 0 <= k < |result[i].bullets| ==> result[i].bullets[k] == Bullet(damage)
  {
    result := [];
    var left := packages;
    while left > 0
      invariant |result| + Count(left) == Count(packages)
      invariant forall i :: 0 <= i < |result| ==>
        result[i].BulletPackage? && |result[i].bullets| == Count(perPackage)
        && forall k :: 0 <= k < |result[i].bullets| ==> result[i].bullets[k] == Bullet(damage)
    {
      var units := MakeBullets(perPackage, damage);
      result := result + [BulletPackage(units)];
      left := left - 1;
    }
  }

  /** The grenades of one package. */
  method MakeGrenades(count: int, damage: int) returns (units: seq<Grenade>)
    ensures |units| == Count(count)
    ensures forall k :: 0 <= k < |units| ==> units[k] == Grenade(damage)
  {
    units := [];
    var left := count;
    while left > 0
      invariant |units| + Count(left) == Count(count)
      invariant forall k :: 0 <= k < |units| ==> units[k] == Grenade(damage)
    {
      units := units + [Grenade(damage)];
      left := left - 1;
    }
  }

  /** `getGrenadePackages`: the grenade counterpart. */
  method GetGrenadePackages(packages: int, perPackage: int, damage: int) returns (result: seq<Package>)
    ensures |result| == Count(packages)
    ensures forall i :: 0 <= i < |result| ==>
      result[i].GrenadePackage? && |result[i].grenades| == Count(perPackage)
      && forall k :: 0 <= k < |result[i].grenades| ==> result[i].grenades[k] == Grenade(damage)
  {
    result := [];
    var left := packages;
    while left > 0
      invariant |result| + Count(left) == Count(packages)
      invariant forall i :: 0 <= i < |result| ==>
        result[i].GrenadePackage? && |result[i].grenades| == Count(perPackage)
        && forall k :: 0 <= k < |result[i].grenades| ==> result[i].grenades[k] == Grenade(damage)
    {
      var units := MakeGrenades(perPackage, damage);
      result := result + [GrenadePackage(units)];
      left := left - 1;
    }
  }

  /** The number of soldiers over all teams. */
  function Total(teams: seq<Team>): nat
  {
    if |teams| == 0 then 0 else Total(teams[..|teams| - 1]) + |teams[|teams| - 1].soldiers|
  }

  lemma TotalAppend(teams: seq<Team>, t: Team)
    ensures Total(teams + [t]) == Total(teams) + |t.soldiers|
  {
    assert (teams + [t])[..|teams|] == teams;
  }

  /** A team as `getTeams` builds it: an offensive soldier, then possibly a
      defensive one, both of the team and at full health. */
  predicate Staffed(t: Team, health: int)
  {
    1 <= |t.soldiers| <= 2
    && t.soldiers[0].role == Offensive
    && (|t.soldiers| == 2 ==> t.soldiers[1].role == Defensive)
    && forall k :: 0 <= k < |t.soldiers| ==>
      t.soldiers[k].teamId == t.id && t.soldiers[k].health == health && t.soldiers[k].maxHealth == health
  }

  /** Team number `i` of a `getTeams` call: staffed, with the `i`-th team
      id and soldier ids that continue two per earlier team. */
  predicate TeamAt(t: Team, i: nat, health: int, teamCounter: nat, soldierCounter: nat)
  {
    Staffed(t, health) && t.id == teamCounter + i
    && forall k :: 0 <= k < |t.soldiers| ==> t.soldiers[k].id == soldierCounter + 2 * i + k
  }

  /** Appending the next team keeps every team at its place, and the
      earlier teams keep their two soldiers. */
  lemma AppendTeamAt(teams: seq<Team>, t: Team, health: int, teamCounter: nat, soldierCounter: nat)
    requires forall i :: 0 <= i < |teams| ==> TeamAt(teams[i], i, health, teamCounter, soldierCounter) && |teams[i].soldiers| == 2
    requires TeamAt(t, |teams|, health, teamCounter, soldierCounter)
    ensures forall i :: 0 <= i < |teams| + 1 ==> TeamAt((teams + [t])[i], i, health, teamCounter, soldierCounter)
    ensures forall i :: 0 <= i < |teams| ==> |(teams + [t])[i].soldiers| == 2
  {
    forall i | 0 <= i < |teams| + 1
      ensures TeamAt((teams + [t])[i], i, health, teamCounter, soldierCounter)
      ensures i < |teams| ==> |(teams + [t])[i].soldiers| == 2
    {
      if i < |teams| {
        assert (teams + [t])[i] == teams[i];
      }
    }
  }

  /** Teams at their places are staffed, numbered in order, and their
      soldiers are numbered two per earlier team. */
  lemma TeamsAtFacts(teams: seq<Team>, health: int, teamCounter: nat, soldierCounter: nat)
    requires forall i :: 0 <= i < |teams| ==> TeamAt(teams[i], i, health, teamCounter, soldierCounter)
    ensures forall i :: 0 <= i < |teams| ==> Staffed(teams[i], health) && teams[i].id == teamCounter + i
    ensures forall i, k :: 0 <= i < |teams| && 0 <= k < |teams[i].soldiers| ==>
      teams[i].soldiers[k].id == soldierCounter + 2 * i + k
  {
    forall i, k | 0 <= i < |teams| && 0 <= k < |teams[i].soldiers|
      ensures teams[i].soldiers[k].id == soldierCounter + 2 * i + k
    {
      assert TeamAt(teams[i], i, health, teamCounter, soldierCounter);
    }
  }

  /** `getTeams`: soldiers are handed out two per team, the last team
      taking one when the amount is odd. Team and soldier ids come from
      the two class-wide counters, passed in and handed back. */
  method GetTeams(amount: int, health: int, teamCounter: nat, soldierCounter: nat)
    returns (teams: seq<Team>, nextTeam: nat, nextSoldier: nat)
    ensures |teams| == (Count(amount) + 1) / 2
    ensures Total(teams) == Count(amount)
    ensures nextTeam == teamCounter + |teams| && nextSoldier == soldierCounter + Count(amount)
    ensures forall i :: 0 <= i < |teams| ==> Staffed(teams[i], health) && teams[i].id == teamCounter + i
    ensures forall i :: 0 <= i < |teams| - 1 ==> |teams[i].soldiers| == 2
    ensures forall i, k :: 0 <= i < |teams| && 0 <= k < |teams[i].soldiers| ==>
      teams[i].soldiers[k].id == soldierCounter + 2 * i + k
  {
    teams := [];
    nextTeam := teamCounter;
    nextSoldier := soldierCounter;
    var left := amount;
    while left > 0
      invariant Count(amount) == 2 * |teams| + Count(left)
      invariant Total(teams) == 2 * |teams|
      invariant nextTeam == teamCounter + |teams| && nextSoldier == soldierCounter + 2 * |teams|
      invariant forall i :: 0 <= i < |teams| ==>
        TeamAt(teams[i], i, health, teamCounter, soldierCounter) && |teams[i].soldiers| == 2
    {
      var (team, afterTeam) := NewTeam(nextTeam);
      nextTeam := afterTeam;
      var (offensive, afterFirst) := NewSoldier(nextSoldier, Offensive, health, team.id);
      nextSoldier := afterFirst;
      team := AddSoldier(team, offensive);
      left := left - 1;
      if left == 0 {
        assert TeamAt(team, |teams|, health, teamCounter, soldierCounter);
        TotalAppend(teams, team);
        AppendTeamAt(teams, team, health, teamCounter, soldierCounter);
        teams := teams + [team];
        break;
      }
      var (defensive, afterSecond) := NewSoldier(nextSoldier, Defensive, health, team.id);
      nextSoldier := afterSecond;
      team := AddSoldier(team, defensive);
      assert TeamAt(team, |teams|, health, teamCounter, soldierCounter);
      TotalAppend(teams, team);
      AppendTeamAt(teams, team, health, teamCounter, soldierCounter);
      teams := teams + [team];
      left := left - 1;
    }
    TeamsAtFacts(teams, health, teamCounter, soldierCounter);
  }
}

=== FILE: base.dfy ===
/** Small shared vocabulary: optional values, results with an error, and
    duplicate-free sequences. */
module Base {

  datatype Option<+T> = None | Some(value: T)

  /** Outcome of an operation whose source version aborts the process
      (`exit(1)`) or raises on some inputs. */
  datatype Result<+T, +E> = Ok(value: T) | Err(error: E)

  /** No element occurs twice. */
  predicate NoDup<T(==)>(s: seq<T>)
  {
    forall i, j :: 0 <= i < j < |s| ==> s[i] != s[j]
  }

  /** The number of items a `while n > 0: ...; n -= 1` loop produces. */
  function Count(n: int): nat
  {
    if n > 0 then n else 0
  }
}

=== FILE: cell.dfy ===
/** One square of the map: its kind, its coordinates and what stands on it. */
module Cells {
  import opened Base
  import opened Geometry
  import opened Items

  /** `Entrance` is the kind the map builder assigns to room cells next to a
      carved path; the cell module itself declares only the other four. */
  datatype Kind = Space | Wall | Path | Floor | Entrance

  /** What a cell can hold. A soldier is recorded by its id and team id. */
  datatype Occupant =
    | SoldierHere(soldierId: nat, teamId: nat)
    | PackageHere(package: Package)
    | BoxHere

  datatype Cell = Cell(kind: Kind, x: int, y: int, obj: Option<Occupant>)
  {
    function Pos(): Point { Point(x, y) }
  }

  /** All cells of a map, keyed by their coordinates. */
  type Board = map<Point, Cell>

  predicate IsEmpty(c: Cell)
  {
    c.obj.None?
  }

  predicate ContainsSoldier(c: Cell)
  {
    c.obj.Some? && c.obj.value.SoldierHere?
  }

  /** A freshly built cell stands at (x, y), has the given kind and holds
      nothing. */
  function NewCell(kind: Kind, x: int, y: int): (c: Cell)
    ensures c.Pos() == Point(x, y) && c.kind == kind && IsEmpty(c)
  {
    Cell(kind, x, y, None)
  }

  /** The kind setter: only the kind changes. */
  function WithKind(c: Cell, kind: Kind): (r: Cell)
    ensures r.kind == kind
    ensures r.Pos() == c.Pos() && r.obj == c.obj
  {
    c.(kind := kind)
  }

  /** The single-character rendering of a cell; any kind other than
      Space, Wall and Path renders as "F". */
  function Token(c: Cell): string
  {
    if c.kind == Space then "_"
    else if c.kind == Wall then "W"
    else if c.kind == Path then "P"
    else "F"
  }

  /** Reads a token back as one of the four kinds the cell module declares. */
  function KindOfToken(t: string): Option<Kind>
  {
    if t == "_" then Some(Space)
    else if t == "W" then Some(Wall)
    else if t == "P" then Some(Path)
    else if t == "F" then Some(Floor)
    else None
  }

  /** Every token is one character; the four declared kinds read back from
      their tokens, so their tokens are pairwise distinct; an entrance renders
      like floor. */
  lemma TokenRoundTrip(c: Cell)
    ensures |Token(c)| == 1
    ensures c.kind != Entrance ==> KindOfToken(Token(c)) == Some(c.kind)
    ensures c.kind == Entrance ==> Token(c) == Token(WithKind(c, Floor))
  {
  }

  /** The tokens of the four declared kinds are pairwise distinct. */
  lemma TokensDistinct(a: Cell, b: Cell)
    requires a.kind != Entrance && b.kind != Entrance
    requires Token(a) == Token(b)
    ensures a.kind == b.kind
  {
    TokenRoundTrip(a);
    TokenRoundTrip(b);
  }
}

=== FILE: geometry.dfy ===
/** Integer grid coordinates. `x` is the row index and `y` the column index
    of a cell, as the map builder stores them. */
module Geometry {

  datatype Point = Point(x: int, y: int)

  function Abs(n: int): nat
  {
    if n < 0 then -n else n
  }

  /** Two points are orthogonal neighbours: they differ by exactly one in
      exactly one coordinate. */
  predicate Orthogonal(a: Point, b: Point)
  {
    (a.x == b.x && Abs(a.y - b.y) == 1) || (a.y == b.y && Abs(a.x - b.x) == 1)
  }

  /** The four cardinal directions a soldier looks along. */
  datatype Dir = PlusX | PlusY | MinusX | MinusY

  /** The point one step from `p` in direction `d`. */
  function Next(p: Point, d: Dir): Point
  {
    match d
    case PlusX => Point(p.x + 1, p.y)
    case PlusY => Point(p.x, p.y + 1)
    case MinusX => Point(p.x - 1, p.y)
    case MinusY => Point(p.x, p.y - 1)
  }

  /** The point `k` steps from `p` in direction `d`. */
  function Offset(p: Point, d: Dir, k: int): Point
  {
    match d
    case PlusX => Point(p.x + k, p.y)
    case PlusY => Point(p.x, p.y + k)
    case MinusX => Point(p.x - k, p.y)
    case MinusY => Point(p.x, p.y - k)
  }

  /** How far `p` has progressed in direction `d`. */
  function Progress(p: Point, d: Dir): int
  {
    match d
    case PlusX => p.x
    case PlusY => p.y
    case MinusX => -p.x
    case MinusY => -p.y
  }
}

=== FILE: graph.dfy ===
/** The incremental best-first search engine of the game.

    Nodes are identified by the coordinates of their cell (two nodes are
    equal when their cells' points are). The topology (adjacency lists and
    the edge list) is fixed; the per-node search data, the frontier and the
    engine's flags form an immutable `Search` record that every step
    function maps to a new one. */
module Graph {
  import opened Base
  import opened Geometry

  datatype NodeState = Start | Target | Gray | Black | White

  /** Search data of one node. `cost` is the value the source calls
      `manhattan`: an accumulated sum, not a Manhattan distance. */
  datatype NodeInfo = NodeInfo(state: NodeState, cost: real, parent: Option<Point>)

  /** The cost every node is reset to. */
  const InfiniteCost: real := 100000.0

  const FreshInfo: NodeInfo := NodeInfo(White, InfiniteCost, None)

  datatype Edge = Edge(src: Point, dst: Point, cost: real)

  /** `adj[p]` is the neighbour list of node `p`; its keys are the nodes. */
  datatype Graph = Graph(adj: map<Point, seq<Point>>, edges: seq<Edge>)

  datatype Search = Search(
    nodes: map<Point, NodeInfo>,
    frontier: seq<Point>,
    solved: bool,
    start: Option<Point>,
    target: Option<Point>,
    lastAnalyzed: Option<Point>)

  /** Why a step stops the program: an adjacency without an edge (the source
      exits), or a relaxation with no target set (the source dereferences
      the missing target). */
  datatype StepError = MissingEdge(from: Point, to: Point) | NoTarget

  // ---------------------------------------------------------------- nodes

  /** Adds `other` to an adjacency list unless it is already there. */
  function AddNeighbour(adj: seq<Point>, other: Point): (r: seq<Point>)
    ensures forall q :: q in r <==> q in adj || q == other
    ensures NoDup(adj) ==> NoDup(r)
    ensures |adj| <= |r| <= |adj| + 1 && r[..|adj|] == adj
  {
    if other in adj then adj else adj + [other]
  }

  /** Adding the same neighbour twice is the same as adding it once. */
  lemma AddNeighbourIdempotent(adj: seq<Point>, other: Point)
    ensures AddNeighbour(AddNeighbour(adj, other), other) == AddNeighbour(adj, other)
  {
  }

  /** Adds every point of `others`, in order, through `AddNeighbour`. */
  function AddNeighbours(adj: seq<Point>, others: seq<Point>): (r: seq<Point>)
    ensures forall q :: q in r <==> q in adj || q in others
    ensures NoDup(adj) ==> NoDup(r)
    decreases |others|
  {
    if |others| == 0 then adj
    else AddNeighbours(AddNeighbour(adj, others[0]), others[1..])
  }

  predicate IsNeighbour(g: Graph, p: Point, q: Point)
  {
    p in g.adj && q in g.adj[p]
  }

  /** `e` joins `a` and `b`, in either direction. */
  predicate Joins(e: Edge, a: Point, b: Point)
  {
    (e.src == a && e.dst == b) || (e.dst == a && e.src == b)
  }

  /** The first edge of the list that joins `a` and `b`. */
  function EdgeBy(edges: seq<Edge>, a: Point, b: Point): (r: Option<Edge>)
    ensures r.Some? <==> exists i :: 0 <= i < |edges| && Joins(edges[i], a, b)
    ensures r.Some? ==> r.value in edges && Joins(r.value, a, b)
    decreases |edges|
  {
    if |edges| == 0 then None
    else if Joins(edges[0], a, b) then Some(edges[0])
    else
      var r := EdgeBy(edges[1..], a, b);
      assert forall i :: 1 <= i < |edges| ==> edges[i] == edges[1..][i - 1];
      r
  }

  /** Edge `i` is the first in the list that joins `a` and `b`. */
  predicate FirstJoining(edges: seq<Edge>, a: Point, b: Point, i: int)
    requires 0 <= i < |edges|
  {
    Joins(edges[i], a, b) && forall j :: 0 <= j < i ==> !Joins(edges[j], a, b)
  }

  /** `_edgeBy` scans the list in order and returns the first joining
      edge: the edge found is that one, and that one is the edge found. */
  lemma {:induction false} EdgeByIsFirst(edges: seq<Edge>, a: Point, b: Point)
    ensures EdgeBy(edges, a, b).Some? ==>
      exists i :: 0 <= i < |edges| && FirstJoining(edges, a, b, i) && EdgeBy(edges, a, b).value == edges[i]
    ensures forall i :: 0 <= i < |edges| && FirstJoining(edges, a, b, i) ==> EdgeBy(edges, a, b) == Some(edges[i])
    decreases |edges|
  {
    if |edges| > 0 && !Joins(edges[0], a, b) {
      var rest := edges[1..];
      EdgeByIsFirst(rest, a, b);
      assert forall i :: 1 <= i < |edges| ==> edges[i] == rest[i - 1];
      if EdgeBy(edges, a, b).Some? {
        var i :| 0 <= i < |rest| && FirstJoining(rest, a, b, i) && EdgeBy(rest, a, b).value == rest[i];
        assert FirstJoining(edges, a, b, i + 1);
      }
      forall i | 0 <= i < |edges| && FirstJoining(edges, a, b, i)
        ensures EdgeBy(edges, a, b) == Some(edges[i])
      {
        assert i != 0;
        assert FirstJoining(rest, a, b, i - 1);
      }
    }
  }

  // ------------------------------------------------------------- frontier

  predicate AllIn(s: seq<Point>, nodes: map<Point, NodeInfo>)
  {
    forall i :: 0 <= i < |s| ==> s[i] in nodes
  }

  /** Non-increasing cost from front to back. */
  predicate SortedDesc(s: seq<Point>, nodes: map<Point, NodeInfo>)
    requires AllIn(s, nodes)
  {
    forall i, j :: 0 <= i < j < |s| ==> nodes[s[i]].cost >= nodes[s[j]].cost
  }

  /** Inserts `x` into a list sorted by descending cost, after every entry
      whose cost is at least `x`'s (so equal entries keep their order). */
  function InsertDesc(sorted: seq<Point>, x: Point, nodes: map<Point, NodeInfo>): (r: seq<Point>)
    requires AllIn(sorted, nodes) && x in nodes
    ensures multiset(r) == multiset(sorted) + multiset{x}
    ensures AllIn(r, nodes)
    decreases |sorted|
  {
    if |sorted| == 0 then [x]
    else if nodes[sorted[0]].cost >= nodes[x].cost then
      assert sorted == [sorted[0]] + sorted[1..];
      [sorted[0]] + InsertDesc(sorted[1..], x, nodes)
    else
      [x] + sorted
  }

  lemma {:induction false} InsertDescSorted(sorted: seq<Point>, x: Point, nodes: map<Point, NodeInfo>)
    requires AllIn(sorted, nodes) && x in nodes && SortedDesc(sorted, nodes)
    ensures SortedDesc(InsertDesc(sorted, x, nodes), nodes)
    decreases |sorted|
  {
    if |sorted| > 0 && nodes[sorted[0]].cost >= nodes[x].cost {
      var tail := sorted[1..];
      var rest := InsertDesc(tail, x, nodes);
      InsertDescSorted(tail, x, nodes);
      HeadDominates(sorted, x, nodes);
      var r := [sorted[0]] + rest;
      forall i, j | 0 <= i < j < |r|
        ensures nodes[r[i]].cost >= nodes[r[j]].cost
      {
        if i > 0 {
          assert r[i] == rest[i - 1] && r[j] == rest[j - 1];
        } else {
          assert r[j] == rest[j - 1];
        }
      }
    }
  }

  /** The head of a descending list whose cost is at least `x`'s bounds
      every entry of the rest with `x` inserted. */
  lemma HeadDominates(sorted: seq<Point>, x: Point, nodes: map<Point, NodeInfo>)
    requires AllIn(sorted, nodes) && x in nodes && SortedDesc(sorted, nodes)
    requires |sorted| > 0 && nodes[sorted[0]].cost >= nodes[x].cost
    ensures forall k :: 0 <= k < |InsertDesc(sorted[1..], x, nodes)| ==>
      nodes[sorted[0]].cost >= nodes[InsertDesc(sorted[1..], x, nodes)[k]].cost
  {
    var tail := sorted[1..];
    var rest := InsertDesc(tail, x, nodes);
    forall k | 0 <= k < |rest|
      ensures nodes[sorted[0]].cost >= nodes[rest[k]].cost
    {
      assert rest[k] in multiset(rest);
      if rest[k] != x {
        assert rest[k] in multiset(tail);
        var i :| 0 <= i < |tail| && tail[i] == rest[k];
        assert tail[i] == sorted[i + 1];
      }
    }
  }

  /** The stable sort by descending cost that `PriorityNodes.pop` performs
      (Python's `sort(reverse=True)` keeps equal entries in their order). */
  function SortDesc(s: seq<Point>, nodes: map<Point, NodeInfo>): (r: seq<Point>)
    requires AllIn(s, nodes)
    ensures multiset(r) == multiset(s)
    ensures AllIn(r, nodes)
    decreases |s|
  {
    if |s| == 0 then []
    else
      assert s == s[..|s| - 1] + [s[|s| - 1]];
      InsertDesc(SortDesc(s[..|s| - 1], nodes), s[|s| - 1], nodes)
  }

  lemma {:induction false} SortDescSorted(s: seq<Point>, nodes: map<Point, NodeInfo>)
    requires AllIn(s, nodes)
    ensures SortedDesc(SortDesc(s, nodes), nodes)
    decreases |s|
  {
    if |s| > 0 {
      SortDescSorted(s[..|s| - 1], nodes);
      InsertDescSorted(SortDesc(s[..|s| - 1], nodes), s[|s| - 1], nodes);
    }
  }

  /** The last entry of a list sorted by descending cost has the minimal
      cost of the list. */
  lemma LastIsMinimal(sorted: seq<Point>, nodes: map<Point, NodeInfo>, q: Point)
    requires AllIn(sorted, nodes) && SortedDesc(sorted, nodes) && |sorted| > 0 && q in sorted
    ensures nodes[sorted[|sorted| - 1]].cost <= nodes[q].cost
  {
    var i :| 0 <= i < |sorted| && sorted[i] == q;
    if i < |sorted| - 1 {
      assert nodes[sorted[i]].cost >= nodes[sorted[|sorted| - 1]].cost;
    }
  }

  /** `PriorityNodes.pop`: sorts the frontier by descending cost and takes
      the last entry. The popped entry has minimal cost; exactly one of its
      occurrences leaves the frontier and nothing else changes. */
  function Pop(s: Search): (r: (Point, Search))
    requires |s.frontier| > 0 && AllIn(s.frontier, s.nodes)
    ensures r.0 in s.frontier && r.0 in s.nodes
    ensures forall q :: q in s.frontier ==> s.nodes[r.0].cost <= s.nodes[q].cost
    ensures multiset(r.1.frontier) + multiset{r.0} == multiset(s.frontier)
    ensures AllIn(r.1.frontier, s.nodes)
    ensures r.1 == s.(frontier := r.1.frontier)
  {
    var sorted := SortDesc(s.frontier, s.nodes);
    LastOfSorted(s.frontier, s.nodes);
    (sorted[|sorted| - 1], s.(frontier := sorted[..|sorted| - 1]))
  }

  /** The facts `Pop` rests on, stated over the frontier alone. */
  lemma LastOfSorted(frontier: seq<Point>, nodes: map<Point, NodeInfo>)
    requires |frontier| > 0 && AllIn(frontier, nodes)
    ensures var sorted := SortDesc(frontier, nodes);
      && |sorted| == |frontier|
      && sorted[|sorted| - 1] in frontier
      && (forall q :: q in frontier ==> nodes[sorted[|sorted| - 1]].cost <= nodes[q].cost)
      && multiset(sorted[..|sorted| - 1]) + multiset{sorted[|sorted| - 1]} == multiset(frontier)
      && AllIn(sorted[..|sorted| - 1], nodes)
  {
    var sorted := SortDesc(frontier, nodes);
    var n := |sorted|;
    assert |multiset(sorted)| == |multiset(frontier)|;
    SortDescSorted(frontier, nodes);
    assert sorted == sorted[..n - 1] + [sorted[n - 1]];
    assert sorted[n - 1] in multiset(frontier);
    forall q | q in frontier
      ensures nodes[sorted[n - 1]].cost <= nodes[q].cost
    {
      assert q in multiset(sorted);
      LastIsMinimal(sorted, nodes, q);
    }
  }

  predicate Empty(s: Search)
  {
    |s.frontier| == 0
  }

  /** `noOptionsLeft`: a target is set and the frontier is exhausted. */
  predicate NoOptionsLeft(s: Search)
  {
    s.target.Some? && |s.frontier| == 0
  }

  /** `noSolution`: the frontier is exhausted. */
  predicate NoSolution(s: Search)
  {
    |s.frontier| == 0
  }

  /** Without a target the engine never reports that no options are left;
      with one, running out of options is running out of frontier. */
  lemma NoOptionsLeftNeedsTarget(s: Search)
    ensures s.target.None? ==> !NoOptionsLeft(s)
    ensures NoOptionsLeft(s) <==> s.target.Some? && NoSolution(s)
  {
  }

  // ---------------------------------------------------------- relaxation

  predicate Unsettled(st: NodeState)
  {
    st == White || st == Target
  }

  /** The value a relaxation of neighbour `nb` of `cur` computes: the current
      cost plus the heuristic from the target to `nb` plus the edge cost. The
      heuristic is added again at every level, as in the source. */
  function Candidate(s: Search, dist: (Point, Point) -> real, cur: Point, nb: Point, e: Edge): real
    requires cur in s.nodes && s.target.Some?
  {
    s.nodes[cur].cost + dist(s.target.value, nb) + e.cost
  }

  /** One relaxation of neighbour `nb` with candidate cost `value`: a white
      or target node turns gray, takes `cur` as parent and joins the
      frontier; a gray node is updated only on a strict improvement; any
      other node is left alone. */
  function Visit(s: Search, cur: Point, nb: Point, value: real): (r: Search)
    requires nb in s.nodes && AllIn(s.frontier, s.nodes)
    ensures r.nodes.Keys == s.nodes.Keys && AllIn(r.frontier, r.nodes)
  {
    var info := s.nodes[nb];
    if Unsettled(info.state) then
      s.(nodes := s.nodes[nb := NodeInfo(Gray, value, Some(cur))], frontier := s.frontier + [nb])
    else if info.state == Gray && info.cost > value then
      s.(nodes := s.nodes[nb := NodeInfo(Gray, value, Some(cur))])
    else s
  }

  /** The relaxation loop over the neighbour list `nbs` of `cur`. It stops
      early, with `solved` set, as soon as it has handled the target. */
  function Relax(g: Graph, dist: (Point, Point) -> real, s: Search, cur: Point, nbs: seq<Point>): (r: Result<Search, StepError>)
    requires cur in s.nodes && AllIn(nbs, s.nodes) && AllIn(s.frontier, s.nodes)
    ensures r.Ok? ==> r.value.nodes.Keys == s.nodes.Keys && AllIn(r.value.frontier, r.value.nodes)
    ensures s.target.Some? && (forall nb :: nb in nbs ==> EdgeBy(g.edges, cur, nb).Some?) ==> r.Ok?
    ensures r.Err? ==>
      || (r.error == NoTarget && s.target.None?)
      || (r.error.MissingEdge? && r.error.from == cur && r.error.to in nbs && EdgeBy(g.edges, cur, r.error.to).None?)
    decreases |nbs|
  {
    if |nbs| == 0 then Ok(s)
    else
      var nb := nbs[0];
      if s.nodes[nb].state == Black then Relax(g, dist, s, cur, nbs[1..])
      else
        match EdgeBy(g.edges, cur, nb)
        case None => Err(MissingEdge(cur, nb))
        case Some(e) =>
          if s.target.None? then Err(NoTarget)
          else
            var s1 := Visit(s, cur, nb, Candidate(s, dist, cur, nb, e));
            if s.target.value == nb then Ok(s1.(solved := true))
            else Relax(g, dist, s1, cur, nbs[1..])
  }

  /** The work a step does with the node it popped: a popped target ends the
      search; otherwise the node is settled (a start node keeps its state)
      and its neighbours are relaxed. */
  function Expand(g: Graph, dist: (Point, Point) -> real, s: Search, cur: Point): (r: Result<Search, StepError>)
    requires cur in s.nodes && cur in g.adj && AllIn(g.adj[cur], s.nodes) && AllIn(s.frontier, s.nodes)
    ensures r.Ok? ==> r.value.nodes.Keys == s.nodes.Keys && AllIn(r.value.frontier, r.value.nodes)
    ensures s.nodes[cur].state == Target ==> r.Ok?
    ensures s.target.Some? && (forall nb :: nb in g.adj[cur] ==> EdgeBy(g.edges, cur, nb).Some?) ==> r.Ok?
    ensures r.Err? ==> StepFailure(g, s, r.error)
  {
    var info := s.nodes[cur];
    if info.state == Target then Ok(s.(solved := true))
    else
      var s1 := if info.state != Start then s.(nodes := s.nodes[cur := info.(state := Black)]) else s;
      Relax(g, dist, s1, cur, g.adj[cur])
  }

  /** The topology is closed: every neighbour is itself a node. */
  predicate Closed(g: Graph)
  {
    forall p, q :: p in g.adj && q in g.adj[p] ==> q in g.adj
  }

  /** Every adjacency has an edge, so `_edgeBy` never returns `None` for a
      neighbour. */
  predicate EdgePerAdjacency(g: Graph)
  {
    forall p, q :: p in g.adj && q in g.adj[p] ==> EdgeBy(g.edges, p, q).Some?
  }

  /** The two ways a step fails: a relaxed neighbour of `from` without an
      edge (the source's `exit(1)`), or no target to measure against (the
      source dereferences `None`). */
  predicate StepFailure(g: Graph, s: Search, e: StepError)
  {
    match e
    case NoTarget => s.target.None?
    case MissingEdge(from, to) => IsNeighbour(g, from, to) && EdgeBy(g.edges, from, to).None?
  }

  /** The search data covers exactly the graph's nodes and every reference
      the engine keeps points at one of them. */
  predicate WellFormed(g: Graph, s: Search)
  {
    && Closed(g)
    && s.nodes.Keys == g.adj.Keys
    && AllIn(s.frontier, s.nodes)
    && (forall p :: p in s.nodes && s.nodes[p].parent.Some? ==> s.nodes[p].parent.value in s.nodes)
    && (s.start.Some? ==> s.start.value in s.nodes)
    && (s.target.Some? ==> s.target.value in s.nodes)
    && (s.lastAnalyzed.Some? ==> s.lastAnalyzed.value in s.nodes)
  }

  /** `nextIteration`: plain best-first step. */
  function NextIteration(g: Graph, dist: (Point, Point) -> real, s: Search): (r: Result<Search, StepError>)
    requires WellFormed(g, s) && |s.frontier| > 0
    ensures r.Ok? ==> r.value.nodes.Keys == s.nodes.Keys && AllIn(r.value.frontier, r.value.nodes)
    ensures s.target.Some? && EdgePerAdjacency(g) ==> r.Ok?
    ensures r.Err? ==> StepFailure(g, s, r.error)
  {
    var (cur, s1) := Pop(s);
    Expand(g, dist, s1.(lastAnalyzed := Some(cur)), cur)
  }

  /** The popped node and the last analysed one are neighbours of each other
      (both adjacency lists must hold the other). */
  predicate MutuallyAdjacent(g: Graph, a: Point, b: Point)
  {
    IsNeighbour(g, a, b) && IsNeighbour(g, b, a)
  }

  /** `nextIterationNeighbourPriority`: pops, and does nothing more unless
      there is no last analysed node or it is mutually adjacent to the
      popped one. */
  function NextIterationNeighbourPriority(g: Graph, dist: (Point, Point) -> real, s: Search): (r: Result<Search, StepError>)
    requires WellFormed(g, s) && |s.frontier| > 0
    ensures r.Ok? ==> r.value.nodes.Keys == s.nodes.Keys && AllIn(r.value.frontier, r.value.nodes)
    ensures s.target.Some? && EdgePerAdjacency(g) ==> r.Ok?
    ensures r.Err? ==> StepFailure(g, s, r.error)
  {
    var (cur, s1) := Pop(s);
    if s.lastAnalyzed.Some? && !MutuallyAdjacent(g, cur, s.lastAnalyzed.value) then Ok(s1)
    else Expand(g, dist, s1.(lastAnalyzed := Some(cur)), cur)
  }

  // --------------------------------------------------------------- resets

  /** Every node back to white, infinite cost and no parent. */
  function ResetNodes(nodes: map<Point, NodeInfo>): (r: map<Point, NodeInfo>)
    ensures r.Keys == nodes.Keys
    ensures forall p :: p in r ==> r[p].state == White && r[p].cost == InfiniteCost && r[p].parent.None?
  {
    map p | p in nodes :: FreshInfo
  }

  /** `resetAlgorithm`: every flag, reference and node back to its initial
      value. */
  function ResetAlgorithm(s: Search): (r: Search)
    ensures r.nodes.Keys == s.nodes.Keys
    ensures forall p :: p in r.nodes ==> r.nodes[p] == FreshInfo
    ensures |r.frontier| == 0 && !r.solved
    ensures r.start.None? && r.target.None? && r.lastAnalyzed.None?
  {
    Search(ResetNodes(s.nodes), [], false, None, None, None)
  }

  /** The partial reset the map builder and `Soldier.resetAstar` perform
      (resetSolved, resetStates, resetManhattan, resetPriorityQueue,
      resetParents, resetTarget): the start and the last analysed node are
      kept. */
  function ResetKeepingStart(s: Search): (r: Search)
    ensures r.nodes.Keys == s.nodes.Keys
    ensures forall p :: p in r.nodes ==> r.nodes[p] == FreshInfo
    ensures |r.frontier| == 0 && !r.solved && r.target.None?
    ensures r.start == s.start && r.lastAnalyzed == s.lastAnalyzed
  {
    s.(nodes := ResetNodes(s.nodes), frontier := [], solved := false, target := None)
  }

  /** The engine right after construction over the given nodes. */
  function NewSearch(g: Graph): (r: Search)
    ensures WellFormed(g, r) <==> Closed(g)
    ensures r.nodes.Keys == g.adj.Keys && |r.frontier| == 0
  {
    ResetAlgorithm(Search(map p | p in g.adj :: FreshInfo, [], false, None, None, None))
  }

  /** `updateNodeToStateStartBy`: the node becomes START with cost 0 and
      joins the frontier; the engine's start is set. */
  function SetStart(s: Search, c: Point): (r: Search)
    requires c in s.nodes
    ensures r.nodes == s.nodes[c := s.nodes[c].(state := Start, cost := 0.0)]
    ensures r.frontier == s.frontier + [c] && r.start == Some(c)
    ensures r.target == s.target && r.solved == s.solved && r.lastAnalyzed == s.lastAnalyzed
  {
    var info := s.nodes[c];
    s.(nodes := s.nodes[c := info.(state := Start, cost := 0.0)], frontier := s.frontier + [c], start := Some(c))
  }

  /** `updateNodeToStateTargetBy`: the node becomes TARGET and the engine's
      target is set; nothing else changes. */
  function SetTarget(s: Search, c: Point): (r: Search)
    requires c in s.nodes
    ensures r.nodes == s.nodes[c := s.nodes[c].(state := Target)]
    ensures r.target == Some(c)
    ensures r.frontier == s.frontier && r.start == s.start && r.solved == s.solved && r.lastAnalyzed == s.lastAnalyzed
  {
    s.(nodes := s.nodes[c := s.nodes[c].(state := Target)], target := Some(c))
  }
  /** The nodes `_markPathAndEntrances` visits when it walks parent links
      from `p`: every node that has a parent, stopping at the first one that
      has none. `visited` cuts the walk should it ever return to a node; the
      search invariant rules that out (see `SearchProofs.ChainFacts`). */
  function ParentChain(nodes: map<Point, NodeInfo>, p: Point, visited: set<Point>): seq<Point>
    requires p in nodes
    decreases nodes.Keys - visited
  {
    if p in visited then []
    else
      match nodes[p].parent
      case None => []
      case Some(q) => if q in nodes then [p] + ParentChain(nodes, q, visited + {p}) else [p]
  }
}

=== FILE: graph_proofs.dfy ===
/** What the search steps guarantee: the relaxation rules, the reference
    invariant that makes parent chains acyclic, and a measure that bounds
    how many steps a search can take. */
module SearchProofs {
  import opened Base
  import opened Geometry
  import opened Graph

  /** The heuristic never goes negative. */
  ghost predicate NonNegative(dist: (Point, Point) -> real)
  {
    forall a, b :: dist(a, b) >= 0.0
  }

  /** Every edge has positive cost (the distance between distinct cells). */
  predicate PositiveEdges(g: Graph)
  {
    forall i :: 0 <= i < |g.edges| ==> g.edges[i].cost > 0.0
  }

  predicate Settled(st: NodeState)
  {
    st == Black || st == Start
  }

  /** The change a relaxation loop over `nbs` may make to node `q`: none, or
      `q` is a white, target or gray neighbour that turns gray with `cur` as
      parent and cost `base + dist(t, q) + edge cost`, a gray one only when
      that is a strict improvement. */
  predicate Improved(g: Graph, dist: (Point, Point) -> real, cur: Point, base: real, t: Point,
                     nbs: seq<Point>, q: Point, before: NodeInfo, after: NodeInfo)
  {
    after == before ||
    (&& q in nbs
     && (Unsettled(before.state) || before.state == Gray)
     && EdgeBy(g.edges, cur, q).Some?
     && after == NodeInfo(Gray, base + dist(t, q) + EdgeBy(g.edges, cur, q).value.cost, Some(cur))
     && (before.state == Gray ==> after.cost < before.cost))
  }

  /** The relaxation loop stops early exactly when it meets a non-black
      target among the neighbours. */
  predicate MeetsTarget(s: Search, nbs: seq<Point>)
  {
    s.target.Some? && s.target.value in nbs && s.target.value in s.nodes
    && s.nodes[s.target.value].state != Black
  }

  /** The relaxation loop leaves the engine's references alone. */
  lemma {:induction false} RelaxKeepsReferences(g: Graph, dist: (Point, Point) -> real, s: Search, cur: Point, nbs: seq<Point>)
    requires cur in s.nodes && AllIn(nbs, s.nodes) && AllIn(s.frontier, s.nodes)
    requires Relax(g, dist, s, cur, nbs).Ok?
    ensures var r := Relax(g, dist, s, cur, nbs).value;
      r.start == s.start && r.target == s.target && r.lastAnalyzed == s.lastAnalyzed
    decreases |nbs|
  {
    if |nbs| > 0 {
      var nb := nbs[0];
      if s.nodes[nb].state == Black {
        RelaxKeepsReferences(g, dist, s, cur, nbs[1..]);
      } else if s.target.value != nb {
        var e := EdgeBy(g.edges, cur, nb).value;
        RelaxKeepsReferences(g, dist, Visit(s, cur, nb, Candidate(s, dist, cur, nb, e)), cur, nbs[1..]);
      }
    }
  }

  /** The relaxation rules for nodes: only neighbours change, only by
      `Improved`, so black and start nodes are never touched. */
  lemma {:induction false} RelaxChangesOnlyByImproving(g: Graph, dist: (Point, Point) -> real, s: Search, cur: Point, nbs: seq<Point>)
    requires cur in s.nodes && AllIn(nbs, s.nodes) && AllIn(s.frontier, s.nodes)
    requires Settled(s.nodes[cur].state) && s.target.Some?
    requires Relax(g, dist, s, cur, nbs).Ok?
    ensures var r := Relax(g, dist, s, cur, nbs).value;
      forall q :: q in s.nodes ==>
        Improved(g, dist, cur, s.nodes[cur].cost, s.target.value, nbs, q, s.nodes[q], r.nodes[q])
    decreases |nbs|
  {
    if |nbs| > 0 {
      var nb := nbs[0];
      var t := s.target.value;
      var base := s.nodes[cur].cost;
      var r := Relax(g, dist, s, cur, nbs).value;
      assert forall q :: q in nbs[1..] ==> q in nbs;
      if s.nodes[nb].state == Black {
        RelaxChangesOnlyByImproving(g, dist, s, cur, nbs[1..]);
      } else {
        var e := EdgeBy(g.edges, cur, nb).value;
        var s1 := Visit(s, cur, nb, Candidate(s, dist, cur, nb, e));
        assert s1.nodes[cur] == s.nodes[cur];
        assert forall q :: q in s.nodes ==> Improved(g, dist, cur, base, t, nbs, q, s.nodes[q], s1.nodes[q]);
        if t != nb {
          RelaxChangesOnlyByImproving(g, dist, s1, cur, nbs[1..]);
          forall q | q in s.nodes
            ensures Improved(g, dist, cur, base, t, nbs, q, s.nodes[q], r.nodes[q])
          {
            ImprovedCompose(g, dist, cur, base, t, nbs, q, s.nodes[q], s1.nodes[q], r.nodes[q]);
          }
        }
      }
    }
  }

  /** A change by the first visit followed by one by the rest of the loop
      is still a single relaxation: the later one cannot beat the equal
      candidate the first one wrote. */
  lemma ImprovedCompose(g: Graph, dist: (Point, Point) -> real, cur: Point, base: real, t: Point,
                        nbs: seq<Point>, q: Point, before: NodeInfo, mid: NodeInfo, after: NodeInfo)
    requires |nbs| > 0
    requires Improved(g, dist, cur, base, t, nbs, q, before, mid)
    requires Improved(g, dist, cur, base, t, nbs[1..], q, mid, after)
    ensures Improved(g, dist, cur, base, t, nbs, q, before, after)
  {
    if after != mid {
      assert q in nbs;
    }
  }

  /** The frontier only grows, at its end, by neighbours that were white or
      target. */
  lemma {:induction false} RelaxAppendsUnsettled(g: Graph, dist: (Point, Point) -> real, s: Search, cur: Point, nbs: seq<Point>)
    requires cur in s.nodes && AllIn(nbs, s.nodes) && AllIn(s.frontier, s.nodes)
    requires Relax(g, dist, s, cur, nbs).Ok?
    ensures var r := Relax(g, dist, s, cur, nbs).value;
      && |s.frontier| <= |r.frontier| && r.frontier[..|s.frontier|] == s.frontier
      && (forall i :: |s.frontier| <= i < |r.frontier| ==>
            r.frontier[i] in nbs && Unsettled(s.nodes[r.frontier[i]].state))
    decreases |nbs|
  {
    if |nbs| > 0 {
      var nb := nbs[0];
      var r := Relax(g, dist, s, cur, nbs).value;
      assert forall q :: q in nbs[1..] ==> q in nbs;
      if s.nodes[nb].state == Black {
        RelaxAppendsUnsettled(g, dist, s, cur, nbs[1..]);
      } else {
        var e := EdgeBy(g.edges, cur, nb).value;
        var s1 := Visit(s, cur, nb, Candidate(s, dist, cur, nb, e));
        if s.target.value != nb {
          RelaxAppendsUnsettled(g, dist, s1, cur, nbs[1..]);
          AppendedThroughVisit(s.frontier, s1.frontier, r.frontier, s.nodes, s1.nodes, nbs);
        }
      }
    }
  }

  /** The converse of `RelaxAppendsUnsettled`: every white or target
      neighbour the loop reaches is appended. When the loop stops early at
      the target, that is the target itself; otherwise it is every white or
      target neighbour. */
  lemma {:induction false} RelaxEnqueuesUnsettled(g: Graph, dist: (Point, Point) -> real, s: Search, cur: Point, nbs: seq<Point>)
    requires cur in s.nodes && AllIn(nbs, s.nodes) && AllIn(s.frontier, s.nodes) && s.target.Some?
    requires Relax(g, dist, s, cur, nbs).Ok?
    ensures var r := Relax(g, dist, s, cur, nbs).value;
      && |s.frontier| <= |r.frontier|
      && forall q :: q in nbs && Unsettled(s.nodes[q].state) && (!MeetsTarget(s, nbs) || q == s.target.value) ==>
           q in r.frontier[|s.frontier|..]
    decreases |nbs|
  {
    RelaxAppendsUnsettled(g, dist, s, cur, nbs);
    if |nbs| > 0 {
      var nb := nbs[0];
      var t := s.target.value;
      var r := Relax(g, dist, s, cur, nbs).value;
      if s.nodes[nb].state == Black {
        RelaxEnqueuesUnsettled(g, dist, s, cur, nbs[1..]);
        assert MeetsTarget(s, nbs) <==> MeetsTarget(s, nbs[1..]);
        forall q | q in nbs && Unsettled(s.nodes[q].state)
          ensures q in nbs[1..]
        {
        }
      } else {
        var e := EdgeBy(g.edges, cur, nb).value;
        var s1 := Visit(s, cur, nb, Candidate(s, dist, cur, nb, e));
        assert Unsettled(s.nodes[nb].state) ==> s1.frontier == s.frontier + [nb];
        if t == nb {
          assert MeetsTarget(s, nbs);
          assert r.frontier == s1.frontier;
        } else {
          RelaxEnqueuesUnsettled(g, dist, s1, cur, nbs[1..]);
          RelaxAppendsUnsettled(g, dist, s1, cur, nbs[1..]);
          assert s1.target == s.target;
          assert MeetsTarget(s, nbs) <==> MeetsTarget(s1, nbs[1..]);
          EnqueuedThroughVisit(s.frontier, s1.frontier, r.frontier, s.nodes, s1.nodes, nbs,
                               !MeetsTarget(s, nbs), t);
        }
      }
    }
  }

  /** One visited neighbour followed by the rest of the loop: a white or
      target neighbour is appended by the visit or by the rest. */
  lemma EnqueuedThroughVisit(before: seq<Point>, mid: seq<Point>, after: seq<Point>,
                             nodes: map<Point, NodeInfo>, nodes1: map<Point, NodeInfo>, nbs: seq<Point>,
                             all: bool, t: Point)
    requires |nbs| > 0 && AllIn(nbs, nodes) && nodes1.Keys == nodes.Keys && nbs[0] != t
    requires Unsettled(nodes[nbs[0]].state) ==> mid == before + [nbs[0]]
    requires |before| <= |mid| <= |after| && after[..|mid|] == mid
    requires forall q :: q in nodes && q != nbs[0] ==> nodes1[q] == nodes[q]
    requires forall q :: q in nbs[1..] && Unsettled(nodes1[q].state) && (all || q == t) ==> q in after[|mid|..]
    ensures forall q :: q in nbs && Unsettled(nodes[q].state) && (all || q == t) ==> q in after[|before|..]
  {
    forall q | q in nbs && Unsettled(nodes[q].state) && (all || q == t)
      ensures q in after[|before|..]
    {
      if q == nbs[0] {
        assert after[|before|] == mid[|before|] == q;
      } else {
        assert q in nbs[1..];
        var k :| 0 <= k < |after[|mid|..]| && after[|mid|..][k] == q;
        assert after[|before|..][|mid| - |before| + k] == q;
      }
    }
  }

  /** One visited neighbour followed by the rest of the loop: the frontier
      keeps its old prefix and gains only neighbours that were white or
      target before the visit. */
  lemma AppendedThroughVisit(before: seq<Point>, mid: seq<Point>, after: seq<Point>,
                             nodes: map<Point, NodeInfo>, nodes1: map<Point, NodeInfo>, nbs: seq<Point>)
    requires |nbs| > 0 && nbs[0] in nodes && nodes1.Keys == nodes.Keys && AllIn(after, nodes)
    requires mid == before || (mid == before + [nbs[0]] && Unsettled(nodes[nbs[0]].state))
    requires !Unsettled(nodes1[nbs[0]].state)
    requires forall q :: q in nodes && q != nbs[0] ==> nodes1[q] == nodes[q]
    requires |mid| <= |after| && after[..|mid|] == mid
    requires forall i :: |mid| <= i < |after| ==> after[i] in nbs[1..] && Unsettled(nodes1[after[i]].state)
    ensures |before| <= |after| && after[..|before|] == before
    ensures forall i :: |before| <= i < |after| ==> after[i] in nbs && Unsettled(nodes[after[i]].state)
  {
    assert after[..|before|] == mid[..|before|];
    forall i | |before| <= i < |after|
      ensures after[i] in nbs && Unsettled(nodes[after[i]].state)
    {
      if i >= |mid| {
        assert after[i] in nodes;
        assert after[i] != nbs[0];
      } else {
        assert after[i] == mid[i];
      }
    }
  }

  /** `solved` is set exactly when the target was among the non-black
      neighbours; when it was not, every white or target neighbour has turned
      gray with `cur` as its parent. */
  lemma RelaxSolvesAtTarget(g: Graph, dist: (Point, Point) -> real, s: Search, cur: Point, nbs: seq<Point>)
    requires cur in s.nodes && AllIn(nbs, s.nodes) && AllIn(s.frontier, s.nodes)
    requires Settled(s.nodes[cur].state) && s.target.Some?
    requires Relax(g, dist, s, cur, nbs).Ok?
    ensures var r := Relax(g, dist, s, cur, nbs).value;
      && r.solved == (s.solved || MeetsTarget(s, nbs))
      && (!MeetsTarget(s, nbs) ==> forall q :: q in nbs && Unsettled(s.nodes[q].state) ==>
            r.nodes[q].state == Gray && r.nodes[q].parent == Some(cur))
  {
    RelaxSolvedFlag(g, dist, s, cur, nbs);
    if !MeetsTarget(s, nbs) {
      RelaxGraysUnsettled(g, dist, s, cur, nbs);
    }
  }

  /** The `solved` half of `RelaxSolvesAtTarget`. */
  lemma {:induction false} RelaxSolvedFlag(g: Graph, dist: (Point, Point) -> real, s: Search, cur: Point, nbs: seq<Point>)
    requires cur in s.nodes && AllIn(nbs, s.nodes) && AllIn(s.frontier, s.nodes)
    requires s.target.Some?
    requires Relax(g, dist, s, cur, nbs).Ok?
    ensures Relax(g, dist, s, cur, nbs).value.solved == (s.solved || MeetsTarget(s, nbs))
    decreases |nbs|
  {
    if |nbs| > 0 {
      var nb := nbs[0];
      var t := s.target.value;
      if s.nodes[nb].state == Black {
        RelaxSolvedFlag(g, dist, s, cur, nbs[1..]);
        assert MeetsTarget(s, nbs) <==> MeetsTarget(s, nbs[1..]);
      } else if t == nb {
        assert MeetsTarget(s, nbs);
      } else {
        var e := EdgeBy(g.edges, cur, nb).value;
        var s1 := Visit(s, cur, nb, Candidate(s, dist, cur, nb, e));
        RelaxSolvedFlag(g, dist, s1, cur, nbs[1..]);
        assert s1.target == s.target && s1.solved == s.solved;
        assert MeetsTarget(s, nbs) <==> MeetsTarget(s1, nbs[1..]);
      }
    }
  }

  /** The gray half of `RelaxSolvesAtTarget`. */
  lemma {:induction false} RelaxGraysUnsettled(g: Graph, dist: (Point, Point) -> real, s: Search, cur: Point, nbs: seq<Point>)
    requires cur in s.nodes && AllIn(nbs, s.nodes) && AllIn(s.frontier, s.nodes)
    requires Settled(s.nodes[cur].state) && s.target.Some?
    requires Relax(g, dist, s, cur, nbs).Ok? && !MeetsTarget(s, nbs)
    ensures var r := Relax(g, dist, s, cur, nbs).value;
      forall q :: q in nbs && Unsettled(s.nodes[q].state) ==> r.nodes[q].state == Gray && r.nodes[q].parent == Some(cur)
    decreases |nbs|
  {
    if |nbs| > 0 {
      var nb := nbs[0];
      var t := s.target.value;
      var r := Relax(g, dist, s, cur, nbs).value;
      if s.nodes[nb].state == Black {
        assert !MeetsTarget(s, nbs[1..]);
        RelaxGraysUnsettled(g, dist, s, cur, nbs[1..]);
        forall q | q in nbs && Unsettled(s.nodes[q].state)
          ensures r.nodes[q].state == Gray && r.nodes[q].parent == Some(cur)
        {
          assert q in nbs[1..];
        }
      } else {
        var e := EdgeBy(g.edges, cur, nb).value;
        var s1 := Visit(s, cur, nb, Candidate(s, dist, cur, nb, e));
        assert s1.nodes[cur] == s.nodes[cur] && s1.target == s.target;
        assert !MeetsTarget(s1, nbs[1..]);
        RelaxGraysUnsettled(g, dist, s1, cur, nbs[1..]);
        RelaxChangesOnlyByImproving(g, dist, s1, cur, nbs[1..]);
        assert Improved(g, dist, cur, s1.nodes[cur].cost, t, nbs[1..], nb, s1.nodes[nb], r.nodes[nb]);
        GrayThroughVisit(s.nodes, s1.nodes, r.nodes, cur, nbs);
      }
    }
  }

  /** One visited neighbour followed by the rest of the loop: a white or
      target neighbour ends gray under `cur` whether it was the visited one
      or a later one. */
  lemma GrayThroughVisit(before: map<Point, NodeInfo>, mid: map<Point, NodeInfo>, after: map<Point, NodeInfo>,
                         cur: Point, nbs: seq<Point>)
    requires |nbs| > 0 && AllIn(nbs, before) && mid.Keys == before.Keys && after.Keys == before.Keys
    requires Unsettled(before[nbs[0]].state) ==> mid[nbs[0]].state == Gray && mid[nbs[0]].parent == Some(cur)
    requires forall q :: q in before && q != nbs[0] ==> mid[q] == before[q]
    requires after[nbs[0]] == mid[nbs[0]] || (after[nbs[0]].state == Gray && after[nbs[0]].parent == Some(cur))
    requires forall q :: q in nbs[1..] && Unsettled(mid[q].state) ==> after[q].state == Gray && after[q].parent == Some(cur)
    ensures forall q :: q in nbs && Unsettled(before[q].state) ==> after[q].state == Gray && after[q].parent == Some(cur)
  {
    forall q | q in nbs && Unsettled(before[q].state)
      ensures after[q].state == Gray && after[q].parent == Some(cur)
    {
      if q != nbs[0] {
        assert q in nbs[1..];
      }
    }
  }

  // ---------------------------------------------------------------- invariant

  /** Every parent link points at a settled (black or start) node of
      strictly smaller cost. */
  predicate ParentsSettled(s: Search)
  {
    forall p :: p in s.nodes && s.nodes[p].parent.Some? ==>
      && s.nodes[p].parent.value in s.nodes
      && Settled(s.nodes[s.nodes[p].parent.value].state)
      && s.nodes[s.nodes[p].parent.value].cost < s.nodes[p].cost
  }

  predicate Inv(g: Graph, s: Search)
  {
    WellFormed(g, s) && ParentsSettled(s)
  }

  /** One parent link after a relaxation loop, given that the loop changed
      every node only by `Improved`. */
  lemma ParentLinkKept(g: Graph, dist: (Point, Point) -> real, s: Search, r: Search, cur: Point, nbs: seq<Point>, p: Point)
    requires ParentsSettled(s) && NonNegative(dist) && PositiveEdges(g)
    requires cur in s.nodes && Settled(s.nodes[cur].state) && s.target.Some?
    requires r.nodes.Keys == s.nodes.Keys
    requires forall q :: q in s.nodes ==>
      Improved(g, dist, cur, s.nodes[cur].cost, s.target.value, nbs, q, s.nodes[q], r.nodes[q])
    requires p in r.nodes && r.nodes[p].parent.Some?
    ensures r.nodes[p].parent.value in r.nodes
    ensures Settled(r.nodes[r.nodes[p].parent.value].state)
    ensures r.nodes[r.nodes[p].parent.value].cost < r.nodes[p].cost
  {
    var base := s.nodes[cur].cost;
    var t := s.target.value;
    assert Improved(g, dist, cur, base, t, nbs, cur, s.nodes[cur], r.nodes[cur]);
    assert r.nodes[cur] == s.nodes[cur];
    assert Improved(g, dist, cur, base, t, nbs, p, s.nodes[p], r.nodes[p]);
    if r.nodes[p] == s.nodes[p] {
      var q := s.nodes[p].parent.value;
      assert Improved(g, dist, cur, base, t, nbs, q, s.nodes[q], r.nodes[q]);
      assert r.nodes[q] == s.nodes[q];
    } else {
      var e := EdgeBy(g.edges, cur, p).value;
      var i :| 0 <= i < |g.edges| && g.edges[i] == e;
      assert e.cost > 0.0;
      assert dist(t, p) >= 0.0;
      assert r.nodes[p].cost == base + dist(t, p) + e.cost;
    }
  }

  /** A relaxation loop over the neighbours of a settled node keeps the
      invariant. */
  lemma RelaxKeepsInv(g: Graph, dist: (Point, Point) -> real, s: Search, cur: Point, nbs: seq<Point>)
    requires Inv(g, s) && NonNegative(dist) && PositiveEdges(g)
    requires cur in s.nodes && AllIn(nbs, s.nodes) && Settled(s.nodes[cur].state) && s.target.Some?
    requires Relax(g, dist, s, cur, nbs).Ok?
    ensures Inv(g, Relax(g, dist, s, cur, nbs).value)
  {
    var r := Relax(g, dist, s, cur, nbs).value;
    RelaxChangesOnlyByImproving(g, dist, s, cur, nbs);
    RelaxKeepsReferences(g, dist, s, cur, nbs);
    forall p | p in r.nodes && r.nodes[p].parent.Some?
      ensures r.nodes[p].parent.value in r.nodes
      ensures Settled(r.nodes[r.nodes[p].parent.value].state)
      ensures r.nodes[r.nodes[p].parent.value].cost < r.nodes[p].cost
    {
      ParentLinkKept(g, dist, s, r, cur, nbs, p);
    }
  }

  /** Both step functions keep the invariant. */
  lemma ExpandKeepsInv(g: Graph, dist: (Point, Point) -> real, s: Search, cur: Point)
    requires Inv(g, s) && NonNegative(dist) && PositiveEdges(g) && s.target.Some?
    requires cur in s.nodes && s.lastAnalyzed == Some(cur)
    requires Expand(g, dist, s, cur).Ok?
    ensures Inv(g, Expand(g, dist, s, cur).value)
  {
    var info := s.nodes[cur];
    if info.state != Target {
      var s1 := if info.state != Start then s.(nodes := s.nodes[cur := info.(state := Black)]) else s;
      assert Inv(g, s1) by {
        forall p | p in s1.nodes && s1.nodes[p].parent.Some?
          ensures Settled(s1.nodes[s1.nodes[p].parent.value].state)
          ensures s1.nodes[s1.nodes[p].parent.value].cost < s1.nodes[p].cost
        {
          assert s.nodes[p].parent == s1.nodes[p].parent;
        }
      }
      RelaxKeepsInv(g, dist, s1, cur, g.adj[cur]);
    }
  }

  lemma NextIterationKeepsInv(g: Graph, dist: (Point, Point) -> real, s: Search)
    requires Inv(g, s) && NonNegative(dist) && PositiveEdges(g) && s.target.Some? && |s.frontier| > 0
    requires NextIteration(g, dist, s).Ok?
    ensures Inv(g, NextIteration(g, dist, s).value)
  {
    var (cur, s1) := Pop(s);
    ExpandKeepsInv(g, dist, s1.(lastAnalyzed := Some(cur)), cur);
  }

  lemma NeighbourPriorityKeepsInv(g: Graph, dist: (Point, Point) -> real, s: Search)
    requires Inv(g, s) && NonNegative(dist) && PositiveEdges(g) && s.target.Some? && |s.frontier| > 0
    requires NextIterationNeighbourPriority(g, dist, s).Ok?
    ensures Inv(g, NextIterationNeighbourPriority(g, dist, s).value)
  {
    var (cur, s1) := Pop(s);
    if !(s.lastAnalyzed.Some? && !MutuallyAdjacent(g, cur, s.lastAnalyzed.value)) {
      ExpandKeepsInv(g, dist, s1.(lastAnalyzed := Some(cur)), cur);
    }
  }
  // ------------------------------------------------------------ step rules

  /** A popped node in state TARGET ends the search: `solved` is set, the
      popped node is recorded as last analysed and no node changes. */
  lemma PoppedTargetSolves(g: Graph, dist: (Point, Point) -> real, s: Search)
    requires WellFormed(g, s) && |s.frontier| > 0
    requires s.nodes[Pop(s).0].state == Target
    ensures NextIteration(g, dist, s) == Ok(Pop(s).1.(lastAnalyzed := Some(Pop(s).0), solved := true))
  {
  }

  /** With a last analysed node that is not mutually adjacent to the popped
      one, the neighbour-priority step only pops. */
  lemma NeighbourPriorityOnlyPops(g: Graph, dist: (Point, Point) -> real, s: Search)
    requires WellFormed(g, s) && |s.frontier| > 0
    requires s.lastAnalyzed.Some? && !MutuallyAdjacent(g, Pop(s).0, s.lastAnalyzed.value)
    ensures NextIterationNeighbourPriority(g, dist, s) == Ok(Pop(s).1)
    ensures Pop(s).1.nodes == s.nodes && Pop(s).1.lastAnalyzed == s.lastAnalyzed && Pop(s).1.solved == s.solved
  {
  }

  /** The relaxation rules of expanding a node `cur` not in state TARGET:
      a non-start `cur` turns black, every other node changes only by
      `Improved` from `cur`, so settled nodes other than `cur` never change,
      and when the target was not among its non-black neighbours every white
      or target neighbour has turned gray with parent `cur`. */
  lemma ExpandRelaxes(g: Graph, dist: (Point, Point) -> real, s: Search, cur: Point)
    requires cur in s.nodes && cur in g.adj && AllIn(g.adj[cur], s.nodes) && AllIn(s.frontier, s.nodes)
    requires s.target.Some? && s.nodes[cur].state != Target
    requires Expand(g, dist, s, cur).Ok?
    ensures var r := Expand(g, dist, s, cur).value;
      && r.lastAnalyzed == s.lastAnalyzed
      && (s.nodes[cur].state != Start ==> r.nodes[cur].state == Black)
      && r.nodes[cur].cost == s.nodes[cur].cost && r.nodes[cur].parent == s.nodes[cur].parent
      && (forall q :: q in s.nodes && q != cur ==>
            Improved(g, dist, cur, s.nodes[cur].cost, s.target.value, g.adj[cur], q, s.nodes[q], r.nodes[q]))
  {
    var info := s.nodes[cur];
    var s2 := if info.state != Start then s.(nodes := s.nodes[cur := info.(state := Black)]) else s;
    var r := Expand(g, dist, s, cur).value;
    RelaxChangesOnlyByImproving(g, dist, s2, cur, g.adj[cur]);
    RelaxKeepsReferences(g, dist, s2, cur, g.adj[cur]);
    assert Improved(g, dist, cur, info.cost, s.target.value, g.adj[cur], cur, s2.nodes[cur], r.nodes[cur]);
    forall q | q in s.nodes && q != cur
      ensures Improved(g, dist, cur, info.cost, s.target.value, g.adj[cur], q, s.nodes[q], r.nodes[q])
    {
      assert s2.nodes[q] == s.nodes[q];
    }
  }

  /** When the target is not among the non-black neighbours of the expanded
      node, every white or target neighbour ends up gray with parent `cur`
      and enqueued behind the old frontier. */
  lemma ExpandReachesNeighbours(g: Graph, dist: (Point, Point) -> real, s: Search, cur: Point)
    requires cur in s.nodes && cur in g.adj && AllIn(g.adj[cur], s.nodes) && AllIn(s.frontier, s.nodes)
    requires s.target.Some? && s.nodes[cur].state != Target
    requires Expand(g, dist, s, cur).Ok? && !MeetsTarget(s, g.adj[cur])
    ensures var r := Expand(g, dist, s, cur).value;
      forall q :: q in g.adj[cur] && q != cur && Unsettled(s.nodes[q].state) ==>
        r.nodes[q].state == Gray && r.nodes[q].parent == Some(cur)
        && |s.frontier| <= |r.frontier| && q in r.frontier[|s.frontier|..]
  {
    var info := s.nodes[cur];
    var s2 := if info.state != Start then s.(nodes := s.nodes[cur := info.(state := Black)]) else s;
    RelaxSolvesAtTarget(g, dist, s2, cur, g.adj[cur]);
    RelaxEnqueuesUnsettled(g, dist, s2, cur, g.adj[cur]);
    assert MeetsTarget(s2, g.adj[cur]) ==> MeetsTarget(s, g.adj[cur]);
  }

  /** One best-first step that pops a node not in state TARGET records it
      as last analysed and relaxes it by the rules of `ExpandRelaxes`. */
  lemma StepRelaxes(g: Graph, dist: (Point, Point) -> real, s: Search)
    requires WellFormed(g, s) && |s.frontier| > 0 && s.target.Some?
    requires s.nodes[Pop(s).0].state != Target
    requires NextIteration(g, dist, s).Ok?
    ensures var cur := Pop(s).0;
      var r := NextIteration(g, dist, s).value;
      && r.lastAnalyzed == Some(cur)
      && (s.nodes[cur].state != Start ==> r.nodes[cur].state == Black)
      && (forall q :: q in s.nodes && q != cur ==>
            Improved(g, dist, cur, s.nodes[cur].cost, s.target.value, g.adj[cur], q, s.nodes[q], r.nodes[q]))
  {
    var (cur, s1) := Pop(s);
    ExpandRelaxes(g, dist, s1.(lastAnalyzed := Some(cur)), cur);
  }

  // ---------------------------------------------------------------- resets

  /** After `resetAlgorithm` the invariant holds, no option is missing and
      the engine is ready for a new start and target. */
  lemma ResetEstablishesInv(g: Graph, s: Search)
    requires WellFormed(g, s)
    ensures Inv(g, ResetAlgorithm(s))
    ensures !NoOptionsLeft(ResetAlgorithm(s)) && NoSolution(ResetAlgorithm(s))
  {
  }

  /** Setting a start and then a target on a freshly reset engine gives a
      state satisfying the invariant whose frontier holds just the start. */
  lemma StartThenTargetInv(g: Graph, s: Search, a: Point, b: Point)
    requires WellFormed(g, s) && a in s.nodes && b in s.nodes
    ensures var r := SetTarget(SetStart(ResetAlgorithm(s), a), b);
      Inv(g, r) && r.frontier == [a] && r.start == Some(a) && r.target == Some(b) && !r.solved
  {
  }

  // --------------------------------------------------------------- measure

  /** Nodes not yet reached: white or target. */
  function UnseenSet(s: Search): set<Point>
  {
    set p | p in s.nodes && Unsettled(s.nodes[p].state)
  }

  /** Frontier entries plus unreached nodes: every step lowers it, since a
      node joins the frontier only when it stops being unreached. */
  function Measure(s: Search): nat
  {
    |s.frontier| + |UnseenSet(s)|
  }

  lemma VisitKeepsMeasure(s: Search, cur: Point, nb: Point, value: real)
    requires nb in s.nodes && AllIn(s.frontier, s.nodes)
    ensures Measure(Visit(s, cur, nb, value)) == Measure(s)
  {
    var s1 := Visit(s, cur, nb, value);
    if Unsettled(s.nodes[nb].state) {
      assert UnseenSet(s1) == UnseenSet(s) - {nb};
    } else {
      assert UnseenSet(s1) == UnseenSet(s);
    }
  }

  lemma {:induction false} RelaxKeepsMeasure(g: Graph, dist: (Point, Point) -> real, s: Search, cur: Point, nbs: seq<Point>)
    requires cur in s.nodes && AllIn(nbs, s.nodes) && AllIn(s.frontier, s.nodes)
    requires Relax(g, dist, s, cur, nbs).Ok?
    ensures Measure(Relax(g, dist, s, cur, nbs).value) == Measure(s)
    decreases |nbs|
  {
    if |nbs| > 0 {
      var nb := nbs[0];
      if s.nodes[nb].state == Black {
        RelaxKeepsMeasure(g, dist, s, cur, nbs[1..]);
      } else {
        var e := EdgeBy(g.edges, cur, nb).value;
        var s1 := Visit(s, cur, nb, Candidate(s, dist, cur, nb, e));
        VisitKeepsMeasure(s, cur, nb, Candidate(s, dist, cur, nb, e));
        assert UnseenSet(s1.(solved := true)) == UnseenSet(s1);
        if s.target.value != nb {
          RelaxKeepsMeasure(g, dist, s1, cur, nbs[1..]);
        }
      }
    }
  }

  lemma ExpandLowersMeasure(g: Graph, dist: (Point, Point) -> real, s: Search, cur: Point)
    requires cur in s.nodes && cur in g.adj && AllIn(g.adj[cur], s.nodes) && AllIn(s.frontier, s.nodes)
    requires Expand(g, dist, s, cur).Ok?
    ensures Measure(Expand(g, dist, s, cur).value) <= Measure(s)
  {
    var info := s.nodes[cur];
    if info.state == Target {
      assert UnseenSet(s.(solved := true)) == UnseenSet(s);
    } else {
      var s1 := if info.state != Start then s.(nodes := s.nodes[cur := info.(state := Black)]) else s;
      if Unsettled(info.state) {
        assert UnseenSet(s1) == UnseenSet(s) - {cur};
      } else {
        assert UnseenSet(s1) == UnseenSet(s);
      }
      RelaxKeepsMeasure(g, dist, s1, cur, g.adj[cur]);
    }
  }

  /** Every successful step of either kind lowers the measure, so a search
      run step by step ends. */
  lemma StepLowersMeasure(g: Graph, dist: (Point, Point) -> real, s: Search)
    requires WellFormed(g, s) && |s.frontier| > 0
    ensures NextIteration(g, dist, s).Ok? ==> Measure(NextIteration(g, dist, s).value) < Measure(s)
    ensures NextIterationNeighbourPriority(g, dist, s).Ok? ==>
      Measure(NextIterationNeighbourPriority(g, dist, s).value) < Measure(s)
  {
    var (cur, s1) := Pop(s);
    assert |s1.frontier| + 1 == |s.frontier| by {
      assert |multiset(s1.frontier) + multiset{cur}| == |multiset(s.frontier)|;
    }
    assert UnseenSet(s1) == UnseenSet(s);
    var s2 := s1.(lastAnalyzed := Some(cur));
    assert UnseenSet(s2) == UnseenSet(s);
    if NextIteration(g, dist, s).Ok? {
      ExpandLowersMeasure(g, dist, s2, cur);
    }
    if NextIterationNeighbourPriority(g, dist, s).Ok? {
      if !(s.lastAnalyzed.Some? && !MutuallyAdjacent(g, cur, s.lastAnalyzed.value)) {
        ExpandLowersMeasure(g, dist, s2, cur);
      }
    }
  }

  // ----------------------------------------------------------------- chains

  /** Under the invariant, the walk along parent links from `p` is a real
      chain: it starts at `p` (when `p` has a parent), each element's parent
      is the next one, it ends at a node whose parent has no parent, and
      costs strictly decrease along it, so it never revisits a node. */
  lemma {:induction false} ChainFacts(s: Search, p: Point, visited: set<Point>)
    requires ParentsSettled(s) && p in s.nodes
    requires forall v :: v in visited ==> v in s.nodes && s.nodes[v].cost > s.nodes[p].cost
    ensures var c := ParentChain(s.nodes, p, visited);
      && (s.nodes[p].parent.None? <==> c == [])
      && (s.nodes[p].parent.Some? ==> c[0] == p)
      && (forall i :: 0 <= i < |c| ==> c[i] in s.nodes && s.nodes[c[i]].parent.Some?)
      && (forall i :: 0 <= i < |c| - 1 ==> s.nodes[c[i]].parent == Some(c[i + 1]))
      && (|c| > 0 ==> s.nodes[s.nodes[c[|c| - 1]].parent.value].parent.None?)
      && (forall i :: 0 <= i < |c| ==> s.nodes[c[i]].cost <= s.nodes[p].cost)
      && (forall i, j :: 0 <= i < j < |c| ==> s.nodes[c[i]].cost > s.nodes[c[j]].cost)
    decreases s.nodes.Keys - visited
  {
    assert p !in visited;
    if s.nodes[p].parent.Some? {
      var q := s.nodes[p].parent.value;
      ChainFacts(s, q, visited + {p});
      var rest := ParentChain(s.nodes, q, visited + {p});
      var c := ParentChain(s.nodes, p, visited);
      assert c == [p] + rest;
      forall i, j | 0 <= i < j < |c|
        ensures s.nodes[c[i]].cost > s.nodes[c[j]].cost
      {
        assert c[j] == rest[j - 1];
        if i > 0 {
          assert c[i] == rest[i - 1];
        }
      }
    }
  }

  /** Parent chains are acyclic: the walk from any node visits no node
      twice. */
  lemma ChainHasNoRepeats(s: Search, p: Point)
    requires ParentsSettled(s) && p in s.nodes
    ensures NoDup(ParentChain(s.nodes, p, {}))
  {
    ChainFacts(s, p, {});
  }
}

=== FILE: items.dfy ===
/** Ammunition, health packages and boxes: the source keeps these in
    behaviourless holder classes, modelled here as plain records. */
module Items {

  datatype Bullet = Bullet(damage: int)

  datatype Grenade = Grenade(damage: int)

  /** A package a soldier can pick up. */
  datatype Package =
    | BulletPackage(bullets: seq<Bullet>)
    | GrenadePackage(grenades: seq<Grenade>)
    | HealthPackage(restore: int)

  /** An obstacle on the floor. */
  datatype Box = Box
}

=== FILE: maze.dfy ===
/** The map builder: a rectangular board of cells with a wall border,
    rectangular rooms accepted from a stream of candidates, and the
    orthogonal graph the room connector searches. */
module Maze {
  import opened Base
  import opened Geometry
  import opened Cells
  import opened Rooms
  import opened Graph

  /** The map: `height` rows (x from 0) of `width` cells (y from 0), keyed
      by coordinates. */
  datatype Grid = Grid(height: nat, width: nat, board: Board)

  /** Why building the map stops the program. */
  datatype BuildError =
    | RoomOutsideGrid       // marking a room's floor indexes past the map
    | OutOfCandidates       // the candidate stream ran dry before enough rooms were accepted
    | CenterOutsideGrid     // a room center is not a node of the graph
    | NoPath                // the search exhausted its frontier
    | NoPathReturned        // the search ended with a target that has no parent
    | SearchFailed(e: StepError)

  predicate InGrid(height: int, width: int, p: Point)
  {
    0 <= p.x < height && 0 <= p.y < width
  }

  /** Every cell is stored under its own coordinates, and the board covers
      exactly the rectangle. */
  ghost predicate Consistent(g: Grid)
  {
    && (forall p :: p in g.board <==> InGrid(g.height, g.width, p))
    && (forall p :: p in g.board ==> g.board[p].Pos() == p)
  }

  // ------------------------------------------------------------ the map

  /** `_initMap`: `height` rows of `width` fresh SPACE cells; the cell in
      row i, column j sits at (i, j). A non-positive count gives no rows or
      empty rows. */
  function InitMap(height: int, width: int): (g: Grid)
    ensures g.height == Count(height) && g.width == Count(width)
    ensures Consistent(g)
    ensures forall p :: p in g.board ==> g.board[p].kind == Space && IsEmpty(g.board[p])
  {
    var h := Count(height);
    var w := Count(width);
    Grid(h, w, map i, j | 0 <= i < h && 0 <= j < w :: Point(i, j) := NewCell(Space, i, j))
  }

  predicate OnBorder(g: Grid, p: Point)
  {
    p.x == 0 || p.x == g.height - 1 || p.y == 0 || p.y == g.width - 1
  }

  /** `_initWalls`: the first and last cell of every row, and every cell of
      the first and last row, become WALL. The source indexes `map[0]` and
      `row[0]`, so it needs at least one row and one column. */
  function InitWalls(g: Grid): (r: Grid)
    requires Consistent(g) && g.height >= 1 && g.width >= 1
    ensures Consistent(r) && r.height == g.height && r.width == g.width
    ensures forall p :: p in r.board && OnBorder(g, p) ==> r.board[p] == WithKind(g.board[p], Wall)
    ensures forall p :: p in r.board && !OnBorder(g, p) ==> r.board[p] == g.board[p]
  {
    g.(board := map p | p in g.board :: if OnBorder(g, p) then WithKind(g.board[p], Wall) else g.board[p])
  }

  /** Building the walls a second time changes nothing. */
  lemma InitWallsIdempotent(g: Grid)
    requires Consistent(g) && g.height >= 1 && g.width >= 1
    ensures InitWalls(InitWalls(g)) == InitWalls(g)
  {
    var r := InitWalls(g);
    var rr := InitWalls(r);
    assert rr.board == r.board by {
      forall p | p in r.board
        ensures rr.board[p] == r.board[p]
      {
      }
    }
  }

  /** `cellByCoordinate`: the cell whose point is `p`, if any. */
  function CellByCoordinate(g: Grid, p: Point): (r: Option<Cell>)
    requires Consistent(g)
    ensures r.Some? <==> InGrid(g.height, g.width, p)
    ensures r.Some? ==> r.value.Pos() == p
  {
    if p in g.board then Some(g.board[p]) else None
  }

  // ------------------------------------------------------------- rooms

  /** Python's `int(n / 2)`: halving that truncates toward zero. */
  function TruncHalf(n: int): int
  {
    if n >= 0 then n / 2 else -((-n) / 2)
  }

  /** `_roomSizeIllegal`, with `cx ± width / 2` compared as doubled
      integers: the room must keep its horizontal extent within
      [2, map width - 3] and its vertical one within [2, map height - 3].
      The source measures the row coordinate against the map's width. */
  predicate RoomSizeIllegal(g: Grid, r: Room)
  {
    || 2 * r.center.x + r.width > 2 * (g.width - 3)
    || 2 * r.center.x - r.width < 4
    || 2 * r.center.y + r.height > 2 * (g.height - 3)
    || 2 * r.center.y - r.height < 4
  }

  /** `_roomsOverlap`, doubled: the rooms overlap when both padded
      per-axis tests hold (heights against the column distance, widths
      against the row distance, padding 4). */
  predicate RoomsOverlap(a: Room, b: Room)
  {
    && a.height + b.height > 2 * (Abs(a.center.y - b.center.y) - 4)
    && a.width + b.width > 2 * (Abs(a.center.x - b.center.x) - 4)
  }

  /** The overlap test does not depend on the order of its arguments. */
  lemma RoomsOverlapSymmetric(a: Room, b: Room)
    ensures RoomsOverlap(a, b) <==> RoomsOverlap(b, a)
  {
    assert Abs(a.center.y - b.center.y) == Abs(b.center.y - a.center.y);
    assert Abs(a.center.x - b.center.x) == Abs(b.center.x - a.center.x);
  }

  /** The cells the floor-marking loops of `_initRooms` visit: the
      half-open box [int(cx - width/2), int(cx + width/2)) of rows times
      [int(cy - height/2), int(cy + height/2)) of columns. */
  predicate InBox(r: Room, p: Point)
  {
    && TruncHalf(2 * r.center.x - r.width) <= p.x < TruncHalf(2 * r.center.x + r.width)
    && TruncHalf(2 * r.center.y - r.height) <= p.y < TruncHalf(2 * r.center.y + r.height)
  }

  /** The marking loops index only existing cells. */
  predicate BoxInGrid(g: Grid, r: Room)
  {
    var x0 := TruncHalf(2 * r.center.x - r.width);
    var x1 := TruncHalf(2 * r.center.x + r.width);
    var y0 := TruncHalf(2 * r.center.y - r.height);
    var y1 := TruncHalf(2 * r.center.y + r.height);
    x1 <= x0 || y1 <= y0 || (0 <= x0 && x1 <= g.height && 0 <= y0 && y1 <= g.width)
  }

  /** A legal room's box keeps two cells away from the low edges and stays
      below `width - 3` in rows and `height - 3` in columns. */
  lemma LegalBoxBounds(g: Grid, r: Room, p: Point)
    requires !RoomSizeIllegal(g, r) && InBox(r, p)
    ensures 2 <= p.x < g.width - 3 && 2 <= p.y < g.height - 3
  {
  }

  /** On a map whose sides differ by at most two, a legal room's box lies
      inside the map and off its border. */
  lemma LegalBoxInside(g: Grid, r: Room)
    requires Consistent(g) && !RoomSizeIllegal(g, r)
    requires g.width <= g.height + 2 && g.height <= g.width + 2
    ensures BoxInGrid(g, r)
    ensures forall p :: InBox(r, p) ==> p in g.board && !OnBorder(g, p)
  {
    forall p | InBox(r, p)
      ensures p in g.board && !OnBorder(g, p)
    {
      LegalBoxBounds(g, r, p);
    }
  }

  /** Two legal rooms that do not overlap have disjoint boxes: the padding
      keeps their floors apart. */
  lemma SeparateRoomsDisjoint(g: Grid, a: Room, b: Room, p: Point)
    requires !RoomSizeIllegal(g, a) && !RoomSizeIllegal(g, b) && !RoomsOverlap(a, b)
    ensures !(InBox(a, p) && InBox(b, p))
  {
  }

  /** Marks every cell of the room's box as FLOOR. */
  function MarkFloor(board: Board, r: Room): (b: Board)
    ensures b.Keys == board.Keys
    ensures forall p :: p in b ==> b[p].Pos() == board[p].Pos() && b[p].obj == board[p].obj
  {
    map p | p in board :: if InBox(r, p) then WithKind(board[p], Floor) else board[p]
  }

  predicate OverlapsAny(accepted: seq<Room>, c: Room)
  {
    exists i :: 0 <= i < |accepted| && RoomsOverlap(accepted[i], c)
  }

  /** One draw of the random room generator: the two sizes and the two
      center coordinates. */
  datatype Draw = Draw(height: int, width: int, cx: int, cy: int)

  /** The acceptance loop of `_initRooms` over a stream of draws. A
      candidate that is illegal or overlaps an accepted room is skipped;
      otherwise it is accepted and its box marked as FLOOR. The accepted
      rooms keep an empty floor list, as in the source. */
  function PlaceRooms(g: Grid, need: nat, draws: seq<Draw>, accepted: seq<Room>): (r: Result<(Grid, seq<Room>), BuildError>)
    ensures r.Ok? ==> |r.value.1| == |accepted| + need && r.value.1[..|accepted|] == accepted
    ensures r.Ok? ==> r.value.0.height == g.height && r.value.0.width == g.width
    ensures r.Ok? ==> r.value.0.board.Keys == g.board.Keys
    decreases |draws|
  {
    if need == 0 then Ok((g, accepted))
    else if |draws| == 0 then Err(OutOfCandidates)
    else
      var d := draws[0];
      var c := NewRoom(d.height, d.width, Point(d.cx, d.cy));
      if RoomSizeIllegal(g, c) || OverlapsAny(accepted, c) then PlaceRooms(g, need, draws[1..], accepted)
      else if !BoxInGrid(g, c) then Err(RoomOutsideGrid)
      else
        var r := PlaceRooms(g.(board := MarkFloor(g.board, c)), need - 1, draws[1..], accepted + [c]);
        assert r.Ok? ==> r.value.1[..|accepted|] == (r.value.1[..|accepted| + 1])[..|accepted|];
        r
  }

  /** `_initRooms(count)`. */
  function InitRooms(g: Grid, count: int, draws: seq<Draw>): (r: Result<(Grid, seq<Room>), BuildError>)
    ensures r.Ok? ==> |r.value.1| == Count(count)
  {
    PlaceRooms(g, Count(count), draws, [])
  }

  predicate InAnyBox(rooms: seq<Room>, p: Point)
  {
    exists i :: 0 <= i < |rooms| && InBox(rooms[i], p)
  }

  /** The board with every cell of the rooms' boxes marked FLOOR. */
  function RoomsMarked(board: Board, rooms: seq<Room>): (r: Board)
    ensures r.Keys == board.Keys
  {
    map p | p in board :: if InAnyBox(rooms, p) then WithKind(board[p], Floor) else board[p]
  }

  /** Accepted rooms pairwise pass the overlap test in both orders. */
  predicate Separate(rooms: seq<Room>)
  {
    forall i, j :: 0 <= i < |rooms| && 0 <= j < |rooms| && i != j ==> !RoomsOverlap(rooms[i], rooms[j])
  }

  /** What the acceptance loop guarantees: every newly accepted room is
      legal, lies in the map and is separate from every earlier one; exactly
      the cells of the new rooms' boxes became FLOOR; nothing else changed. */
  lemma {:induction false} PlaceRoomsFacts(g: Grid, need: nat, draws: seq<Draw>, accepted: seq<Room>)
    requires Separate(accepted)
    requires PlaceRooms(g, need, draws, accepted).Ok?
    ensures var (g', rooms) := PlaceRooms(g, need, draws, accepted).value;
      && Separate(rooms)
      && (forall i :: |accepted| <= i < |rooms| ==>
            !RoomSizeIllegal(g, rooms[i]) && BoxInGrid(g, rooms[i]) && |rooms[i].floor| == 0)
      && (forall p :: p in g.board && InAnyBox(rooms[|accepted|..], p) ==> g'.board[p] == WithKind(g.board[p], Floor))
      && (forall p :: p in g.board && !InAnyBox(rooms[|accepted|..], p) ==> g'.board[p] == g.board[p])
    decreases |draws|
  {
    if need > 0 {
      var d := draws[0];
      var c := NewRoom(d.height, d.width, Point(d.cx, d.cy));
      if RoomSizeIllegal(g, c) || OverlapsAny(accepted, c) {
        PlaceRoomsFacts(g, need, draws[1..], accepted);
      } else {
        var acc' := accepted + [c];
        SeparateAppend(accepted, c);
        var g1 := g.(board := MarkFloor(g.board, c));
        PlaceRoomsFacts(g1, need - 1, draws[1..], acc');
        var (g', rooms) := PlaceRooms(g1, need - 1, draws[1..], acc').value;
        assert PlaceRooms(g, need, draws, accepted).value == (g', rooms);
        assert rooms[|accepted|] == c;
        var newer := rooms[|acc'|..];
        var all := rooms[|accepted|..];
        assert all == [c] + newer;
        MarkThenBoxes(g.board, g1.board, g'.board, c, newer, all);
      }
    }
  }

  /** Accepting a room that overlaps none of the accepted ones keeps them
      separate. */
  lemma SeparateAppend(accepted: seq<Room>, c: Room)
    requires Separate(accepted) && !OverlapsAny(accepted, c)
    ensures Separate(accepted + [c])
  {
    var acc' := accepted + [c];
    forall i, j | 0 <= i < |acc'| && 0 <= j < |acc'| && i != j
      ensures !RoomsOverlap(acc'[i], acc'[j])
    {
      if j == |accepted| {
        assert !RoomsOverlap(accepted[i], c);
      } else if i == |accepted| {
        assert !RoomsOverlap(accepted[j], c);
        RoomsOverlapSymmetric(accepted[j], c);
      }
    }
  }

  /** Marking one box and then the boxes of later rooms marks exactly the
      union of all of them. */
  lemma MarkThenBoxes(board: Board, b1: Board, b': Board, c: Room, newer: seq<Room>, all: seq<Room>)
    requires b1 == MarkFloor(board, c) && b'.Keys == board.Keys
    requires forall p :: p in b1 && InAnyBox(newer, p) ==> b'[p] == WithKind(b1[p], Floor)
    requires forall p :: p in b1 && !InAnyBox(newer, p) ==> b'[p] == b1[p]
    requires all == [c] + newer
    ensures forall p :: p in board && InAnyBox(all, p) ==> b'[p] == WithKind(board[p], Floor)
    ensures forall p :: p in board && !InAnyBox(all, p) ==> b'[p] == board[p]
  {
    forall p | p in board
      ensures InAnyBox(all, p) ==> b'[p] == WithKind(board[p], Floor)
      ensures !InAnyBox(all, p) ==> b'[p] == board[p]
    {
      if InAnyBox(newer, p) {
        var k :| 0 <= k < |newer| && InBox(newer[k], p);
        assert all[k + 1] == newer[k];
      }
      if InAnyBox(all, p) && !InAnyBox(newer, p) {
        var k :| 0 <= k < |all| && InBox(all[k], p);
        assert forall m :: 0 < m < |all| ==> all[m] == newer[m - 1];
        assert InBox(c, p);
      }
      if !InAnyBox(all, p) {
        assert !InBox(all[0], p);
        forall k | 0 <= k < |newer|
          ensures !InBox(newer[k], p)
        {
          assert all[k + 1] == newer[k];
        }
      }
    }
  }

  /** `_initRooms` as a whole: `count` legal, pairwise separate rooms whose
      boxes are exactly the FLOOR cells it added. */
  lemma InitRoomsFacts(g: Grid, count: int, draws: seq<Draw>)
    requires InitRooms(g, count, draws).Ok?
    ensures var (g', rooms) := InitRooms(g, count, draws).value;
      && |rooms| == Count(count) && Separate(rooms)
      && (forall i :: 0 <= i < |rooms| ==> !RoomSizeIllegal(g, rooms[i]) && BoxInGrid(g, rooms[i]))
      && (forall p :: p in g.board && InAnyBox(rooms, p) ==> g'.board[p] == WithKind(g.board[p], Floor))
      && (forall p :: p in g.board && !InAnyBox(rooms, p) ==> g'.board[p] == g.board[p])
  {
    PlaceRoomsFacts(g, Count(count), draws, []);
    var rooms := InitRooms(g, count, draws).value.1;
    assert rooms[0..] == rooms;
  }

  /** On a map whose sides differ by at most two, floor marking never fails
      for lack of draws other than running out, and never touches the
      border. */
  lemma RoomsKeepBorder(g: Grid, count: int, draws: seq<Draw>, p: Point)
    requires Consistent(g) && g.width <= g.height + 2 && g.height <= g.width + 2
    requires InitRooms(g, count, draws).Ok? && p in g.board && OnBorder(g, p)
    ensures InitRooms(g, count, draws).value.0.board[p] == g.board[p]
  {
    InitRoomsFacts(g, count, draws);
    var rooms := InitRooms(g, count, draws).value.1;
    if InAnyBox(rooms, p) {
      var k :| 0 <= k < |rooms| && InBox(rooms[k], p);
      LegalBoxBounds(g, rooms[k], p);
    }
  }

  /** On a map whose sides differ by at most two, `_initRooms` can fail
      only by running out of draws: every accepted box fits. */
  lemma {:induction false} PlaceRoomsFits(g: Grid, need: nat, draws: seq<Draw>, accepted: seq<Room>)
    requires Consistent(g) && g.width <= g.height + 2 && g.height <= g.width + 2
    ensures PlaceRooms(g, need, draws, accepted) != Err(RoomOutsideGrid)
    decreases |draws|
  {
    if need > 0 && |draws| > 0 {
      var d := draws[0];
      var c := NewRoom(d.height, d.width, Point(d.cx, d.cy));
      if RoomSizeIllegal(g, c) || OverlapsAny(accepted, c) {
        PlaceRoomsFits(g, need, draws[1..], accepted);
      } else {
        LegalBoxInside(g, c);
        var g1 := g.(board := MarkFloor(g.board, c));
        PlaceRoomsFits(g1, need - 1, draws[1..], accepted + [c]);
      }
    }
  }

  /** The acceptance loop fails only for the two reasons it has. */
  lemma {:induction false} PlaceRoomsErrors(g: Grid, need: nat, draws: seq<Draw>, accepted: seq<Room>)
    requires PlaceRooms(g, need, draws, accepted).Err?
    ensures PlaceRooms(g, need, draws, accepted).error in {RoomOutsideGrid, OutOfCandidates}
    decreases |draws|
  {
    if need > 0 && |draws| > 0 {
      var d := draws[0];
      var c := NewRoom(d.height, d.width, Point(d.cx, d.cy));
      if RoomSizeIllegal(g, c) || OverlapsAny(accepted, c) {
        PlaceRoomsErrors(g, need, draws[1..], accepted);
      } else if BoxInGrid(g, c) {
        PlaceRoomsErrors(g.(board := MarkFloor(g.board, c)), need - 1, draws[1..], accepted + [c]);
      }
    }
  }

  /** A consistent board holds exactly the grid's points. */
  lemma ConsistentKeys(g: Grid)
    requires Consistent(g)
    ensures g.board.Keys == GridPoints(g.height, g.width)
  {
    forall p
      ensures p in g.board <==> p in GridPoints(g.height, g.width)
    {
      GridPointsIn(g.height, g.width, p);
    }
  }

  // ------------------------------------------------------------- edges

  /** The neighbours `_initEdges` registers for the node at `p` (with
      `p.x, p.y >= 1`), in the order it registers them: above, left, right
      (if inside the row), below (if inside the map). */
  function NeighbourList(height: int, width: int, p: Point): seq<Point>
  {
    [Point(p.x - 1, p.y), Point(p.x, p.y - 1)]
    + (if p.y + 1 < width then [Point(p.x, p.y + 1)] else [])
    + (if p.x + 1 < height then [Point(p.x + 1, p.y)] else [])
  }

  /** The nodes the loops of `_initEdges` visit: both indices at least 1. */
  predicate Inner(p: Point)
  {
    p.x >= 1 && p.y >= 1
  }

  lemma NeighbourListFacts(height: nat, width: nat, p: Point)
    requires Inner(p) && InGrid(height, width, p)
    ensures NoDup(NeighbourList(height, width, p))
    ensures forall q :: q in NeighbourList(height, width, p) ==> Orthogonal(p, q) && InGrid(height, width, q)
    ensures forall q :: Inner(q) && InGrid(height, width, q) && Orthogonal(p, q) ==> q in NeighbourList(height, width, p)
  {
  }

  /** The edges `_registerNeighbours` appends for `p` and `others`, each of
      cost 1 (the distance between orthogonal neighbours). */
  function EdgesTo(p: Point, others: seq<Point>): (r: seq<Edge>)
    ensures |r| == |others|
    ensures forall k :: 0 <= k < |r| ==> r[k] == Edge(p, others[k], 1.0)
    decreases |others|
  {
    if |others| == 0 then [] else [Edge(p, others[0], 1.0)] + EdgesTo(p, others[1..])
  }

  /** `_registerNeighbours` called once per neighbour in `others`, in order:
      each call adds one neighbour to the adjacency of `p` and appends its
      edge. */
  function Register(g: Graph, p: Point, others: seq<Point>): Graph
    requires p in g.adj
    decreases |others|
  {
    if |others| == 0 then g
    else Register(Graph(g.adj[p := AddNeighbour(g.adj[p], others[0])], g.edges + [Edge(p, others[0], 1.0)]), p, others[1..])
  }

  lemma {:induction false} RegisterAdjacency(g: Graph, p: Point, others: seq<Point>)
    requires p in g.adj
    ensures Register(g, p, others).adj == g.adj[p := AddNeighbours(g.adj[p], others)]
    decreases |others|
  {
    if |others| == 0 {
      assert g.adj[p := g.adj[p]] == g.adj;
    } else {
      var g1 := Graph(g.adj[p := AddNeighbour(g.adj[p], others[0])], g.edges + [Edge(p, others[0], 1.0)]);
      RegisterAdjacency(g1, p, others[1..]);
      var x := AddNeighbours(g1.adj[p], others[1..]);
      assert g1.adj[p := x] == g.adj[p := x];
    }
  }

  lemma {:induction false} RegisterEdges(g: Graph, p: Point, others: seq<Point>)
    requires p in g.adj
    ensures var r := Register(g, p, others);
      && |r.edges| == |g.edges| + |others|
      && (forall k :: 0 <= k < |g.edges| ==> r.edges[k] == g.edges[k])
      && (forall k :: 0 <= k < |others| ==> r.edges[|g.edges| + k] == Edge(p, others[k], 1.0))
    decreases |others|
  {
    if |others| > 0 {
      var g1 := Graph(g.adj[p := AddNeighbour(g.adj[p], others[0])], g.edges + [Edge(p, others[0], 1.0)]);
      RegisterEdges(g1, p, others[1..]);
      var r := Register(g, p, others);
      forall k | 1 <= k < |others|
        ensures r.edges[|g.edges| + k] == Edge(p, others[k], 1.0)
      {
        assert others[1..][k - 1] == others[k];
        assert |g1.edges| + (k - 1) == |g.edges| + k;
      }
    }
  }

  /** The combined effect of those calls: the neighbours are added to the
      adjacency of `p` and one edge per neighbour is appended. */
  function RegisterAll(g: Graph, p: Point, others: seq<Point>): (r: Graph)
    requires p in g.adj
    ensures r.adj == g.adj[p := AddNeighbours(g.adj[p], others)]
    ensures r.edges == g.edges + EdgesTo(p, others)
  {
    var r := Register(g, p, others);
    RegisterAdjacency(g, p, others);
    RegisterEdges(g, p, others);
    AppendedEdges(r.edges, g.edges, p, others);
    r
  }

  /** A sequence that starts with `before` and continues with one edge per
      neighbour is `before` followed by `EdgesTo`. */
  lemma AppendedEdges(after: seq<Edge>, before: seq<Edge>, p: Point, others: seq<Point>)
    requires |after| == |before| + |others|
    requires forall k :: 0 <= k < |before| ==> after[k] == before[k]
    requires forall k :: 0 <= k < |others| ==> after[|before| + k] == Edge(p, others[k], 1.0)
    ensures after == before + EdgesTo(p, others)
  {
    var e := EdgesTo(p, others);
    forall k | 0 <= k < |after|
      ensures after[k] == (before + e)[k]
    {
      if k >= |before| {
        assert after[|before| + (k - |before|)] == e[k - |before|];
      }
    }
  }

  function GridPoints(height: nat, width: nat): set<Point>
  {
    set i, j | 0 <= i < height && 0 <= j < width :: Point(i, j)
  }

  lemma GridPointsIn(height: nat, width: nat, p: Point)
    ensures p in GridPoints(height, width) <==> InGrid(height, width, p)
  {
    if InGrid(height, width, p) {
      assert p == Point(p.x, p.y);
    }
  }

  /** Row-major progress of the two nested loops: node `p` has been handled
      once the loops have passed its row, or its column within row `i`. */
  predicate Handled(p: Point, i: int, j: int)
  {
    Inner(p) && (p.x < i || (p.x == i && p.y < j))
  }

  /** The adjacency after the loops reached `(i, j)`: handled nodes hold
      their neighbour list, the others none. */
  predicate AdjacencyBuilt(height: nat, width: nat, g: Graph, i: int, j: int)
  {
    && g.adj.Keys == GridPoints(height, width)
    && (forall p :: p in g.adj ==> g.adj[p] == (if Handled(p, i, j) then NeighbourList(height, width, p) else []))
  }

  /** Every edge joins orthogonal neighbours, costs 1 and is recorded in the
      adjacency of its source. */
  predicate EdgesSound(g: Graph)
  {
    forall k :: 0 <= k < |g.edges| ==>
      && Orthogonal(g.edges[k].src, g.edges[k].dst) && g.edges[k].cost == 1.0
      && g.edges[k].src in g.adj && g.edges[k].dst in g.adj[g.edges[k].src]
  }

  /** Every registered adjacency has an edge from its node to the
      neighbour. */
  predicate EdgesComplete(g: Graph)
  {
    forall p, q :: p in g.adj && q in g.adj[p] ==> exists k :: 0 <= k < |g.edges| && g.edges[k].src == p && g.edges[k].dst == q
  }

  /** Registering fresh, distinct neighbours keeps them in order. */
  lemma {:induction false} AddNeighboursPrefix(adj: seq<Point>, nbs: seq<Point>)
    requires NoDup(adj + nbs)
    ensures AddNeighbours(adj, nbs) == adj + nbs
    decreases |nbs|
  {
    if |nbs| > 0 {
      assert nbs[0] !in adj by {
        forall k | 0 <= k < |adj|
          ensures adj[k] != nbs[0]
        {
          assert (adj + nbs)[k] == adj[k] && (adj + nbs)[|adj|] == nbs[0];
        }
      }
      assert adj + nbs == (adj + [nbs[0]]) + nbs[1..];
      AddNeighboursPrefix(adj + [nbs[0]], nbs[1..]);
    }
  }

  lemma RegisterKeepsSound(g: Graph, p: Point, nbs: seq<Point>)
    requires p in g.adj && g.adj[p] == [] && EdgesSound(g) && NoDup(nbs)
    requires forall q :: q in nbs ==> Orthogonal(p, q)
    ensures EdgesSound(RegisterAll(g, p, nbs)) && RegisterAll(g, p, nbs).adj[p] == nbs
  {
    var r := RegisterAll(g, p, nbs);
    AddNeighboursPrefix([], nbs);
    assert [] + nbs == nbs;
    forall k | 0 <= k < |r.edges|
      ensures Orthogonal(r.edges[k].src, r.edges[k].dst) && r.edges[k].cost == 1.0
      ensures r.edges[k].src in r.adj && r.edges[k].dst in r.adj[r.edges[k].src]
    {
      if k < |g.edges| {
        assert r.edges[k] == g.edges[k];
        assert g.edges[k].src != p;
      } else {
        assert r.edges[k] == EdgesTo(p, nbs)[k - |g.edges|];
      }
    }
  }

  lemma RegisterKeepsComplete(g: Graph, p: Point, nbs: seq<Point>)
    requires p in g.adj && g.adj[p] == [] && EdgesComplete(g) && NoDup(nbs)
    ensures EdgesComplete(RegisterAll(g, p, nbs))
  {
    AddNeighboursPrefix([], nbs);
    assert [] + nbs == nbs;
    var r := RegisterAll(g, p, nbs);
    CompleteAfterRegister(g, p, nbs, r);
  }

  /** `RegisterKeepsComplete` stated over the registered graph's parts. */
  lemma CompleteAfterRegister(g: Graph, p: Point, nbs: seq<Point>, r: Graph)
    requires p in g.adj && EdgesComplete(g)
    requires r.adj == g.adj[p := nbs] && r.edges == g.edges + EdgesTo(p, nbs)
    ensures EdgesComplete(r)
  {
    forall a, b | a in r.adj && b in r.adj[a]
      ensures exists k :: 0 <= k < |r.edges| && r.edges[k].src == a && r.edges[k].dst == b
    {
      if a == p {
        var m :| 0 <= m < |nbs| && nbs[m] == b;
        assert r.edges[|g.edges| + m] == EdgesTo(p, nbs)[m];
      } else {
        var k :| 0 <= k < |g.edges| && g.edges[k].src == a && g.edges[k].dst == b;
        assert r.edges[k] == g.edges[k];
      }
    }
  }

  /** One pass of the inner loop body: registers the neighbours of `(i, j)`. */
  lemma RegisterStep(height: nat, width: nat, g: Graph, i: int, j: int)
    requires 1 <= i < height && 1 <= j < width
    requires AdjacencyBuilt(height, width, g, i, j) && EdgesSound(g) && EdgesComplete(g)
    ensures var r := RegisterAll(g, Point(i, j), NeighbourList(height, width, Point(i, j)));
      AdjacencyBuilt(height, width, r, i, j + 1) && EdgesSound(r) && EdgesComplete(r)
  {
    var p := Point(i, j);
    var nbs := NeighbourList(height, width, p);
    NeighbourListFacts(height, width, p);
    GridPointsIn(height, width, p);
    assert !Handled(p, i, j);
    RegisterKeepsSound(g, p, nbs);
    RegisterKeepsComplete(g, p, nbs);
    RegisterStepBuilt(height, width, g, i, j);
  }

  /** The adjacency half of `RegisterStep`. */
  lemma RegisterStepBuilt(height: nat, width: nat, g: Graph, i: int, j: int)
    requires 1 <= i < height && 1 <= j < width
    requires AdjacencyBuilt(height, width, g, i, j)
    ensures AdjacencyBuilt(height, width, RegisterAll(g, Point(i, j), NeighbourList(height, width, Point(i, j))), i, j + 1)
  {
    var p := Point(i, j);
    var nbs := NeighbourList(height, width, p);
    assert NoDup([] + nbs) by {
      NeighbourListFacts(height, width, p);
      assert [] + nbs == nbs;
    }
    AddNeighboursPrefix([], nbs);
    assert [] + nbs == nbs;
    GridPointsIn(height, width, p);
    assert !Handled(p, i, j) && g.adj[p] == [];
    var r := RegisterAll(g, p, nbs);
    BuiltAfterRegister(height, width, g, i, j, r);
  }

  /** `RegisterStepBuilt` stated over the registered graph's adjacency. */
  lemma BuiltAfterRegister(height: nat, width: nat, g: Graph, i: int, j: int, r: Graph)
    requires 1 <= i < height && 1 <= j < width
    requires AdjacencyBuilt(height, width, g, i, j)
    requires r.adj == g.adj[Point(i, j) := NeighbourList(height, width, Point(i, j))]
    ensures AdjacencyBuilt(height, width, r, i, j + 1)
  {
    var p := Point(i, j);
    GridPointsIn(height, width, p);
    forall q | q in r.adj
      ensures r.adj[q] == (if Handled(q, i, j + 1) then NeighbourList(height, width, q) else [])
    {
      if q != p {
        assert Handled(q, i, j + 1) == Handled(q, i, j);
        assert r.adj[q] == g.adj[q];
      }
    }
  }

  /** `_initEdges` (with `_initNodes`): one node per cell, no neighbours
      yet, then the two nested loops over rows and columns from 1. */
  method InitEdges(height: nat, width: nat) returns (g: Graph)
    ensures g.adj.Keys == GridPoints(height, width)
    ensures forall p :: p in g.adj && Inner(p) ==> g.adj[p] == NeighbourList(height, width, p)
    ensures forall p :: p in g.adj && !Inner(p) ==> g.adj[p] == []
    ensures EdgesSound(g) && EdgesComplete(g)
  {
    g := Graph(map i, j | 0 <= i < height && 0 <= j < width :: Point(i, j) := [], []);
    var i := 1;
    while i < height
      invariant 1 <= i <= if height == 0 then 1 else height
      invariant AdjacencyBuilt(height, width, g, i, 1) && EdgesSound(g) && EdgesComplete(g)
    {
      g := InitRowEdges(height, width, g, i);
      i := i + 1;
    }
    BuiltAllRows(height, width, g, i);
  }

  /** The inner loop of `_initEdges`: row `i`, columns from 1. */
  method InitRowEdges(height: nat, width: nat, g0: Graph, i: int) returns (g: Graph)
    requires 1 <= i < height
    requires AdjacencyBuilt(height, width, g0, i, 1) && EdgesSound(g0) && EdgesComplete(g0)
    ensures AdjacencyBuilt(height, width, g, i + 1, 1) && EdgesSound(g) && EdgesComplete(g)
  {
    g := g0;
    var j := 1;
    while j < width
      invariant 1 <= j <= if width == 0 then 1 else width
      invariant AdjacencyBuilt(height, width, g, i, j) && EdgesSound(g) && EdgesComplete(g)
    {
      RegisterStep(height, width, g, i, j);
      g := RegisterAll(g, Point(i, j), NeighbourList(height, width, Point(i, j)));
      j := j + 1;
    }
    RowFinished(height, width, g, i, j);
  }

  /** Once the column loop has passed the last column of row `i`, the
      handled nodes are those of the rows before `i + 1`. */
  lemma RowFinished(height: nat, width: nat, g: Graph, i: int, j: int)
    requires 1 <= i < height && j == (if width == 0 then 1 else width)
    requires AdjacencyBuilt(height, width, g, i, j)
    ensures AdjacencyBuilt(height, width, g, i + 1, 1)
  {
    forall p | p in g.adj
      ensures Handled(p, i, j) <==> Handled(p, i + 1, 1)
    {
      GridPointsIn(height, width, p);
    }
  }

  /** Once the row loop has passed the last row, the handled nodes are
      exactly the inner ones. */
  lemma BuiltAllRows(height: nat, width: nat, g: Graph, i: int)
    requires AdjacencyBuilt(height, width, g, i, 1)
    requires (height == 0 && i == 1) || i == height
    ensures forall p :: p in g.adj && Inner(p) ==> g.adj[p] == NeighbourList(height, width, p)
    ensures forall p :: p in g.adj && !Inner(p) ==> g.adj[p] == []
  {
    forall p | p in g.adj
      ensures Handled(p, i, 1) <==> Inner(p)
    {
      GridPointsIn(height, width, p);
    }
  }

  /** The graph `_initEdges` builds: closed, repeat-free adjacency lists
      holding orthogonal neighbours only. */
  lemma EdgesClosed(height: nat, width: nat, g: Graph)
    requires g.adj.Keys == GridPoints(height, width)
    requires forall p :: p in g.adj && Inner(p) ==> g.adj[p] == NeighbourList(height, width, p)
    requires forall p :: p in g.adj && !Inner(p) ==> g.adj[p] == []
    ensures Closed(g)
    ensures forall p :: p in g.adj ==> NoDup(g.adj[p])
    ensures forall p, q :: IsNeighbour(g, p, q) ==> Orthogonal(p, q)
  {
    forall p | p in g.adj
      ensures NoDup(g.adj[p]) && forall q :: q in g.adj[p] ==> q in g.adj && Orthogonal(p, q)
    {
      if Inner(p) {
        GridPointsIn(height, width, p);
        NeighbourListFacts(height, width, p);
        forall q | q in g.adj[p]
          ensures q in g.adj
        {
          GridPointsIn(height, width, q);
        }
      }
    }
  }

  /** Adjacency between nodes with both indices at least 1 is mutual, and
      holds exactly between orthogonal neighbours. */
  lemma EdgesMutual(height: nat, width: nat, g: Graph, p: Point, q: Point)
    requires g.adj.Keys == GridPoints(height, width)
    requires forall p :: p in g.adj && Inner(p) ==> g.adj[p] == NeighbourList(height, width, p)
    requires p in g.adj && q in g.adj && Inner(p) && Inner(q)
    ensures IsNeighbour(g, p, q) <==> Orthogonal(p, q)
    ensures IsNeighbour(g, p, q) <==> IsNeighbour(g, q, p)
  {
    GridPointsIn(height, width, p);
    GridPointsIn(height, width, q);
    NeighbourListFacts(height, width, p);
    NeighbourListFacts(height, width, q);
  }

  /** Every adjacency has an edge and every edge costs 1, so the search
      over this graph never meets a missing edge. */
  lemma EdgesForAdjacency(g: Graph)
    requires EdgesSound(g) && EdgesComplete(g)
    ensures forall p, q :: IsNeighbour(g, p, q) ==> EdgeBy(g.edges, p, q).Some?
    ensures forall k :: 0 <= k < |g.edges| ==> g.edges[k].cost > 0.0
  {
    forall p, q | IsNeighbour(g, p, q)
      ensures EdgeBy(g.edges, p, q).Some?
    {
      var k :| 0 <= k < |g.edges| && g.edges[k].src == p && g.edges[k].dst == q;
      assert Joins(g.edges[k], p, q);
    }
  }
}

=== FILE: maze_connect.dfy ===
/** Connecting the rooms: one search per unordered pair of rooms, from one
    center to the other, whose parent chain is carved into the map as PATH
    cells with ENTRANCE cells where the path meets a room's floor. */
module MazeConnect {
  import opened Base
  import opened Geometry
  import opened Cells
  import opened Rooms
  import opened Graph
  import opened SearchProofs
  import opened Maze

  // ------------------------------------------------------------ searching

  /** The preparation `_connectRooms` makes before each search: the partial
      reset, then the first center becomes START with cost 0 and the only
      frontier entry, and the second center becomes the target reference.
      The target node keeps its (white) state: the source assigns the
      reference without calling `updateNodeToStateTargetBy`. */
  function Seed(s: Search, a: Point, b: Point): (r: Search)
    requires a in s.nodes
    ensures r.nodes.Keys == s.nodes.Keys && r.frontier == [a] && r.target == Some(b) && !r.solved
    ensures r.nodes[a] == NodeInfo(Start, 0.0, None)
    ensures forall p :: p in r.nodes && p != a ==> r.nodes[p] == FreshInfo
    ensures r.start == s.start && r.lastAnalyzed == s.lastAnalyzed
  {
    var s0 := ResetKeepingStart(s);
    s0.(nodes := s0.nodes[a := s0.nodes[a].(state := Start, cost := 0.0)], frontier := [a], target := Some(b))
  }

  /** The prepared search satisfies the search invariant. */
  lemma SeedInv(g: Graph, s: Search, a: Point, b: Point)
    requires WellFormed(g, s) && a in s.nodes && b in s.nodes
    ensures Inv(g, Seed(s, a, b))
  {
    var r := Seed(s, a, b);
    assert forall p :: p in r.nodes ==> r.nodes[p].parent.None?;
  }

  /** A plain step keeps the engine's target reference. */
  lemma StepKeepsTarget(g: Graph, dist: (Point, Point) -> real, s: Search)
    requires WellFormed(g, s) && |s.frontier| > 0 && NextIteration(g, dist, s).Ok?
    ensures NextIteration(g, dist, s).value.target == s.target
  {
    var (cur, s1) := Pop(s);
    var s2 := s1.(lastAnalyzed := Some(cur));
    var info := s2.nodes[cur];
    if info.state != Target {
      var s3 := if info.state != Start then s2.(nodes := s2.nodes[cur := info.(state := Black)]) else s2;
      RelaxKeepsReferences(g, dist, s3, cur, g.adj[cur]);
    }
  }

  /** The `while not astar.solved` loop of `_connectRooms`: stops the
      program when the frontier runs out, otherwise steps. Every step lowers
      `Measure`, so the loop ends. */
  function RunToSolved(g: Graph, dist: (Point, Point) -> real, s: Search): (r: Result<Search, BuildError>)
    requires Inv(g, s) && NonNegative(dist) && PositiveEdges(g) && s.target.Some?
    ensures r.Ok? ==> r.value.solved && Inv(g, r.value) && r.value.target == s.target
    ensures r.Err? ==> r.error == NoPath || r.error.SearchFailed?
    ensures r.Err? && r.error.SearchFailed? ==> r.error.e.MissingEdge? && StepFailure(g, s, r.error.e)
    ensures r.Err? && EdgePerAdjacency(g) ==> r.error == NoPath
    decreases Measure(s)
  {
    if s.solved then Ok(s)
    else if NoSolution(s) then Err(NoPath)
    else
      match NextIteration(g, dist, s)
      case Err(e) => Err(SearchFailed(e))
      case Ok(s1) =>
        NextIterationKeepsInv(g, dist, s);
        StepLowersMeasure(g, dist, s);
        StepKeepsTarget(g, dist, s);
        RunToSolved(g, dist, s1)
  }

  // ------------------------------------------------------------- carving

  /** A cell the carving turns into (or leaves as) PATH. */
  predicate Carved(k: Kind)
  {
    k == Space || k == Path
  }

  /** One pass of the loop of `_markPathAndEntrances`, reading the cells
      from the current board: a SPACE cell becomes PATH; then, against the
      previous cell, a FLOOR previous cell next to a PATH cell becomes
      ENTRANCE, or else a FLOOR cell next to a PATH previous cell does. */
  function MarkStep(board: Board, last: Option<Point>, p: Point): (b: Board)
    requires p in board && (last.Some? ==> last.value in board)
    ensures b.Keys == board.Keys
  {
    var c := board[p];
    var b1 := if c.kind == Space then board[p := WithKind(c, Path)] else board;
    if last.None? then b1
    else
      var k := b1[p].kind;
      var lk := b1[last.value].kind;
      if lk == Floor && k == Path then b1[last.value := WithKind(b1[last.value], Entrance)]
      else if k == Floor && lk == Path then b1[p := WithKind(b1[p], Entrance)]
      else b1
  }

  predicate ChainIn(chain: seq<Point>, board: Board)
  {
    forall i :: 0 <= i < |chain| ==> chain[i] in board
  }

  function MarkFrom(board: Board, last: Option<Point>, chain: seq<Point>): (b: Board)
    requires ChainIn(chain, board) && (last.Some? ==> last.value in board)
    ensures b.Keys == board.Keys
    decreases |chain|
  {
    if |chain| == 0 then board
    else MarkFrom(MarkStep(board, last, chain[0]), Some(chain[0]), chain[1..])
  }

  /** `_markPathAndEntrances` over the parent chain of the target. */
  function MarkPathAndEntrances(board: Board, chain: seq<Point>): (b: Board)
    requires ChainIn(chain, board)
    ensures b.Keys == board.Keys
  {
    MarkFrom(board, None, chain)
  }

  /** Reference for the carving: on the chain, SPACE becomes PATH and FLOOR
      becomes ENTRANCE when a chain neighbour was carved; every other cell
      keeps its value. */
  function Expected(board: Board, chain: seq<Point>, i: int): Cell
    requires ChainIn(chain, board) && 0 <= i < |chain|
  {
    var c := board[chain[i]];
    if c.kind == Space then WithKind(c, Path)
    else if c.kind == Floor
      && ((i > 0 && Carved(board[chain[i - 1]].kind)) || (i + 1 < |chain| && Carved(board[chain[i + 1]].kind)))
    then WithKind(c, Entrance)
    else c
  }

  /** The value of chain cell `i` once the loop has handled it but not yet
      its successor: like `Expected`, looking back only. */
  function Partial(board: Board, chain: seq<Point>, i: int): Cell
    requires ChainIn(chain, board) && 0 <= i < |chain|
  {
    var c := board[chain[i]];
    if c.kind == Space then WithKind(c, Path)
    else if c.kind == Floor && i > 0 && Carved(board[chain[i - 1]].kind) then WithKind(c, Entrance)
    else c
  }

  /** The board after the loop handled the first `k` chain cells. */
  predicate PrefixDone(orig: Board, chain: seq<Point>, k: int, b: Board)
    requires ChainIn(chain, orig) && 0 < k <= |chain|
  {
    && b.Keys == orig.Keys
    && (forall i :: 0 <= i < k - 1 ==> b[chain[i]] == Expected(orig, chain, i))
    && b[chain[k - 1]] == Partial(orig, chain, k - 1)
    && (forall i :: k <= i < |chain| ==> b[chain[i]] == orig[chain[i]])
    && (forall p :: p in orig && p !in chain ==> b[p] == orig[p])
  }

  lemma MarkStepAdvances(orig: Board, chain: seq<Point>, k: int, b: Board)
    requires ChainIn(chain, orig) && NoDup(chain) && 0 < k < |chain| && PrefixDone(orig, chain, k, b)
    ensures PrefixDone(orig, chain, k + 1, MarkStep(b, Some(chain[k - 1]), chain[k]))
  {
    var b' := MarkStep(b, Some(chain[k - 1]), chain[k]);
    var p := chain[k];
    var q := chain[k - 1];
    assert p != q;
    assert b[p] == orig[p];
    assert Carved(b[q].kind) <==> Carved(orig[q].kind);
    forall i | 0 <= i < k - 1
      ensures b'[chain[i]] == Expected(orig, chain, i)
    {
      assert chain[i] != p && chain[i] != q;
    }
    forall i | k + 1 <= i < |chain|
      ensures b'[chain[i]] == orig[chain[i]]
    {
      assert chain[i] != p && chain[i] != q;
    }
  }

  lemma {:induction false} MarkFromFinishes(orig: Board, chain: seq<Point>, k: int, b: Board)
    requires ChainIn(chain, orig) && NoDup(chain) && 0 < k <= |chain| && PrefixDone(orig, chain, k, b)
    ensures var r := MarkFrom(b, Some(chain[k - 1]), chain[k..]);
      && r.Keys == orig.Keys
      && (forall i :: 0 <= i < |chain| ==> r[chain[i]] == Expected(orig, chain, i))
      && (forall p :: p in orig && p !in chain ==> r[p] == orig[p])
    decreases |chain| - k
  {
    if k == |chain| {
      assert chain[k..] == [];
    } else {
      MarkStepAdvances(orig, chain, k, b);
      assert chain[k..][1..] == chain[k + 1..];
      MarkFromFinishes(orig, chain, k + 1, MarkStep(b, Some(chain[k - 1]), chain[k]));
    }
  }

  /** The carving loop does what the reference says: along a chain without
      repeats, exactly the chain's cells change, each as `Expected`
      prescribes. */
  lemma MarkMatchesReference(board: Board, chain: seq<Point>)
    requires ChainIn(chain, board) && NoDup(chain)
    ensures var r := MarkPathAndEntrances(board, chain);
      && (forall i :: 0 <= i < |chain| ==> r[chain[i]] == Expected(board, chain, i))
      && (forall p :: p in board && p !in chain ==> r[p] == board[p])
  {
    if |chain| > 0 {
      var b1 := MarkStep(board, None, chain[0]);
      assert PrefixDone(board, chain, 1, b1) by {
        forall i | 1 <= i < |chain|
          ensures b1[chain[i]] == board[chain[i]]
        {
          assert chain[i] != chain[0];
        }
      }
      MarkFromFinishes(board, chain, 1, b1);
      assert chain[1..] == chain[1..];
    }
  }

  /** The only changes carving ever makes to a cell. WALL, PATH and
      ENTRANCE cells never change. */
  predicate CellEvolves(c: Cell, c': Cell)
  {
    c' == c || (c.kind == Space && c' == WithKind(c, Path)) || (c.kind == Floor && c' == WithKind(c, Entrance))
  }

  predicate Evolves(b: Board, b': Board)
  {
    b'.Keys == b.Keys && forall p :: p in b ==> CellEvolves(b[p], b'[p])
  }

  lemma EvolvesTransitive(b: Board, b': Board, b'': Board)
    requires Evolves(b, b') && Evolves(b', b'')
    ensures Evolves(b, b'')
  {
  }

  /** Carving along any chain, repeats or not, changes cells only as
      `CellEvolves` allows. */
  lemma {:induction false} MarkFromEvolves(board: Board, last: Option<Point>, chain: seq<Point>)
    requires ChainIn(chain, board) && (last.Some? ==> last.value in board)
    ensures Evolves(board, MarkFrom(board, last, chain))
    decreases |chain|
  {
    if |chain| > 0 {
      var b1 := MarkStep(board, last, chain[0]);
      assert Evolves(board, b1);
      MarkFromEvolves(b1, Some(chain[0]), chain[1..]);
      EvolvesTransitive(board, b1, MarkFrom(board, last, chain));
    }
  }

  // ---------------------------------------------------- one pair of rooms

  /** One pass of the inner loop body of `_connectRooms` for centers `a`
      and `b`: prepare, search until solved, require a parent on the target
      and carve its parent chain. */
  function ConnectPair(g: Graph, dist: (Point, Point) -> real, s: Search, board: Board, a: Point, b: Point): (r: Result<(Search, Board), BuildError>)
    requires WellFormed(g, s) && NonNegative(dist) && PositiveEdges(g) && g.adj.Keys <= board.Keys
    ensures r.Ok? ==> WellFormed(g, r.value.0) && Evolves(board, r.value.1)
    ensures r.Ok? ==> r.value.0.solved && b in r.value.0.nodes && r.value.0.nodes[b].parent.Some?
    ensures (a !in g.adj || b !in g.adj) ==> r == Err(CenterOutsideGrid)
    ensures r.Err? ==> r.error != RoomOutsideGrid && r.error != OutOfCandidates
    ensures r.Err? && EdgePerAdjacency(g) ==> !r.error.SearchFailed?
  {
    if a !in g.adj || b !in g.adj then Err(CenterOutsideGrid)
    else
      SeedInv(g, s, a, b);
      match RunToSolved(g, dist, Seed(s, a, b))
      case Err(e) => Err(e)
      case Ok(s1) =>
        if s1.nodes[b].parent.None? then Err(NoPathReturned)
        else Ok((s1, CarveFrom(s1, board, b)))
  }

  /** `_markPathAndEntrances` on the parent chain of `b`. */
  function CarveFrom(s1: Search, board: Board, b: Point): (r: Board)
    requires ParentsSettled(s1) && b in s1.nodes && s1.nodes.Keys <= board.Keys
    ensures Evolves(board, r)
  {
    var chain := ParentChain(s1.nodes, b, {});
    ChainFacts(s1, b, {});
    MarkFromEvolves(board, None, chain);
    MarkPathAndEntrances(board, chain)
  }

  /** A successful connection is the search run from the prepared engine
      followed by the carving of the target's chain. */
  lemma ConnectPairUnfolds(g: Graph, dist: (Point, Point) -> real, s: Search, board: Board, a: Point, b: Point)
    requires WellFormed(g, s) && NonNegative(dist) && PositiveEdges(g) && g.adj.Keys <= board.Keys
    requires ConnectPair(g, dist, s, board, a, b).Ok?
    ensures a in s.nodes && b in s.nodes && Inv(g, Seed(s, a, b))
    ensures RunToSolved(g, dist, Seed(s, a, b)).Ok?
    ensures var s1 := RunToSolved(g, dist, Seed(s, a, b)).value;
      && b in s1.nodes && s1.nodes[b].parent.Some?
      && ConnectPair(g, dist, s, board, a, b).value == (s1, CarveFrom(s1, board, b))
  {
    SeedInv(g, s, a, b);
  }

  /** The shape of the parent chain of `b`: it starts at `b`, visits no
      node twice, follows parent links, and ends next to a node without a
      parent. */
  predicate ChainShape(nodes: map<Point, NodeInfo>, b: Point)
    requires b in nodes
  {
    var chain := ParentChain(nodes, b, {});
    && |chain| > 0 && chain[0] == b && NoDup(chain)
    && (forall i :: 0 <= i < |chain| ==> chain[i] in nodes && nodes[chain[i]].parent.Some?)
    && (forall i :: 0 <= i < |chain| - 1 ==> nodes[chain[i]].parent == Some(chain[i + 1]))
    && nodes[chain[|chain| - 1]].parent.value in nodes
    && nodes[nodes[chain[|chain| - 1]].parent.value].parent.None?
  }

  /** The parent chain a successful connection carves has that shape. */
  lemma ConnectPairChain(g: Graph, dist: (Point, Point) -> real, s: Search, board: Board, a: Point, b: Point)
    requires WellFormed(g, s) && NonNegative(dist) && PositiveEdges(g) && g.adj.Keys <= board.Keys
    requires ConnectPair(g, dist, s, board, a, b).Ok?
    ensures ChainShape(ConnectPair(g, dist, s, board, a, b).value.0.nodes, b)
  {
    ConnectPairUnfolds(g, dist, s, board, a, b);
    SettledChainShape(RunToSolved(g, dist, Seed(s, a, b)).value, b);
  }

  /** Under the search invariant, the parent chain of a node with a parent
      has the shape `ChainShape` describes. */
  lemma SettledChainShape(s: Search, b: Point)
    requires ParentsSettled(s) && b in s.nodes && s.nodes[b].parent.Some?
    ensures ChainShape(s.nodes, b)
  {
    ChainFacts(s, b, {});
    ChainHasNoRepeats(s, b);
  }

  /** What a successful connection does to the map: the cells of the
      target's parent chain change as `Expected` says and no other cell
      changes. */
  lemma ConnectPairCarvesChain(g: Graph, dist: (Point, Point) -> real, s: Search, board: Board, a: Point, b: Point)
    requires WellFormed(g, s) && NonNegative(dist) && PositiveEdges(g) && g.adj.Keys <= board.Keys
    requires ConnectPair(g, dist, s, board, a, b).Ok?
    ensures var (s1, board') := ConnectPair(g, dist, s, board, a, b).value;
      var chain := ParentChain(s1.nodes, b, {});
      && ChainIn(chain, board)
      && (forall i :: 0 <= i < |chain| ==> board'[chain[i]] == Expected(board, chain, i))
      && (forall p :: p in board && p !in chain ==> board'[p] == board[p])
  {
    ConnectPairUnfolds(g, dist, s, board, a, b);
    var s1 := RunToSolved(g, dist, Seed(s, a, b)).value;
    var chain := ParentChain(s1.nodes, b, {});
    ChainFacts(s1, b, {});
    ChainHasNoRepeats(s1, b);
    MarkMatchesReference(board, chain);
  }

  // --------------------------------------------------------- all the pairs

  /** The pairs `(i, k)` for `lo <= k < hi`, in order. */
  function RowPairs(i: nat, lo: nat, hi: nat): seq<(nat, nat)>
    decreases hi
  {
    if hi <= lo then [] else RowPairs(i, lo, hi - 1) + [(i, hi - 1)]
  }

  /** The pairs `(i, j)` with `i < rows` and `i < j < n`, row by row. */
  function PairsBelow(rows: nat, n: nat): seq<(nat, nat)>
  {
    if rows == 0 then [] else PairsBelow(rows - 1, n) + RowPairs(rows - 1, rows, n)
  }

  lemma {:induction false} RowPairsFacts(i: nat, lo: nat, hi: nat)
    ensures forall a, b :: (a, b) in RowPairs(i, lo, hi) <==> a == i && lo <= b < hi
    ensures NoDup(RowPairs(i, lo, hi))
    decreases hi
  {
    if hi > lo {
      RowPairsFacts(i, lo, hi - 1);
      var s: seq<(nat, nat)> := RowPairs(i, lo, hi - 1);
      var s' := s + [(i, hi - 1)];
      forall x: int, y: int | 0 <= x < y < |s'|
        ensures s'[x] != s'[y]
      {
        if y == |s| {
          assert s[x] in s;
        }
      }
    }
  }

  /** Every unordered pair of distinct rooms appears exactly once, as
      `(i, j)` with `i < j`. */
  lemma {:induction false} PairsExactlyOnce(rows: nat, n: nat)
    ensures forall a: nat, b: nat :: (a, b) in PairsBelow(rows, n) <==> a < rows && a < b < n
    ensures NoDup(PairsBelow(rows, n))
  {
    if rows > 0 {
      PairsExactlyOnce(rows - 1, n);
      RowPairsFacts(rows - 1, rows, n);
      var s: seq<(nat, nat)> := PairsBelow(rows - 1, n);
      var t: seq<(nat, nat)> := RowPairs(rows - 1, rows, n);
      var st := s + t;
      assert st == PairsBelow(rows, n);
      forall a: nat, b: nat
        ensures (a, b) in st <==> a < rows && a < b < n
      {
        assert (a, b) in st <==> (a, b) in s || (a, b) in t;
      }
      forall x: int, y: int | 0 <= x < y < |st|
        ensures st[x] != st[y]
      {
        if x < |s| && y >= |s| {
          assert st[x] == s[x] && st[y] == t[y - |s|];
          assert s[x] in s && t[y - |s|] in t;
        } else if x >= |s| {
          assert st[x] == t[x - |s|] && st[y] == t[y - |s|];
        } else {
          assert st[x] == s[x] && st[y] == s[y];
        }
      }
    }
  }

  /** No room listed yet: one empty list per room. */
  function NoneConnected(n: nat): (m: map<nat, seq<nat>>)
    ensures forall a: nat :: a in m <==> a < n
    ensures forall a :: a in m ==> m[a] == []
  {
    if n == 0 then map[] else NoneConnected(n - 1)[n - 1 := []]
  }

  /** The `connected` lists after the loops have reached room `i` and, for
      room `i`, the other room `j`: room `b` is listed for room `a` exactly
      when the pair has been connected. */
  ghost predicate ConnectedUpTo(connected: map<nat, seq<nat>>, n: nat, i: nat, j: nat)
  {
    && (forall a: nat :: a in connected <==> a < n)
    && (forall a: nat, b: nat :: a < n && b < n ==>
          (b in connected[a] <==> a != b && (a < i || b < i || (a == i && b < j) || (b == i && a < j))))
  }

  /** Skipping room `j` (room `i` itself, or a room already connected to
      it) moves the loops on. */
  lemma ConnectedSkip(connected: map<nat, seq<nat>>, n: nat, i: nat, j: nat)
    requires i < n && j < n && ConnectedUpTo(connected, n, i, j)
    requires i == j || j in connected[i]
    ensures ConnectedUpTo(connected, n, i, j + 1) && j <= i
  {
  }

  /** `connected[room].append(other)` and `connected[other].append(room)`. */
  function ListEachOther(connected: map<nat, seq<nat>>, n: nat, i: nat, j: nat): (c: map<nat, seq<nat>>)
    requires i < n && j < n && ConnectedUpTo(connected, n, i, j)
    requires i != j && j !in connected[i]
    ensures ConnectedUpTo(c, n, i, j + 1) && i < j
  {
    ConnectedAdd(connected, n, i, j);
    connected[i := connected[i] + [j]][j := connected[j] + [i]]
  }

  /** Connecting rooms `i` and `j` lists each in the other's list. */
  lemma ConnectedAdd(connected: map<nat, seq<nat>>, n: nat, i: nat, j: nat)
    requires i < n && j < n && ConnectedUpTo(connected, n, i, j)
    requires i != j && j !in connected[i]
    ensures ConnectedUpTo(connected[i := connected[i] + [j]][j := connected[j] + [i]], n, i, j + 1) && i < j
  {
    var c' := connected[i := connected[i] + [j]][j := connected[j] + [i]];
    forall a: nat, b: nat | a < n && b < n
      ensures b in c'[a] <==> a != b && (a < i || b < i || (a == i && b < j + 1) || (b == i && a < j + 1))
    {
      if a == i {
        assert c'[a] == connected[i] + [j];
      } else if a == j {
        assert c'[a] == connected[j] + [i];
      } else {
        assert c'[a] == connected[a];
      }
    }
  }

  /** The body of the inner loop of `_connectRooms` for a pair not yet
      connected: search from room `i`'s center to room `j`'s, carve the
      chain, then list each room in the other's list. Afterwards the lists
      record every pair the loops have passed, this one included. */
  method ConnectOne(g: Graph, dist: (Point, Point) -> real, s: Search, board: Board, b: Board,
                    rooms: seq<Room>, connected0: map<nat, seq<nat>>, i: nat, j: nat)
    returns (r: Result<(Search, Board), BuildError>, connected: map<nat, seq<nat>>)
    requires i < |rooms| && j < |rooms| && NonNegative(dist) && PositiveEdges(g) && g.adj.Keys <= board.Keys
    requires WellFormed(g, s) && Evolves(board, b) && ConnectedUpTo(connected0, |rooms|, i, j)
    requires i != j && j !in connected0[i]
    ensures r.Ok? ==> WellFormed(g, r.value.0) && Evolves(board, r.value.1)
    ensures r.Ok? ==> r.value.0.solved && ConnectedUpTo(connected, |rooms|, i, j + 1) && i < j
    ensures r.Err? ==> r.error != RoomOutsideGrid && r.error != OutOfCandidates
    ensures r.Err? && EdgePerAdjacency(g) ==> !r.error.SearchFailed?
  {
    connected := connected0;
    r := ConnectPair(g, dist, s, b, rooms[i].center, rooms[j].center);
    if r.Ok? {
      EvolvesTransitive(board, b, r.value.1);
      connected := ListEachOther(connected0, |rooms|, i, j);
    }
  }

  /** One pass of the outer loop of `_connectRooms`: room `i` against
      every room `j` in order, connecting the pairs not yet connected. */
  method ConnectRow(g: Graph, dist: (Point, Point) -> real, s0: Search, board: Board, b0: Board,
                    rooms: seq<Room>, connected0: map<nat, seq<nat>>, i: nat)
    returns (r: Result<(Search, Board), BuildError>, row: seq<(nat, nat)>, connected: map<nat, seq<nat>>)
    requires i < |rooms| && NonNegative(dist) && PositiveEdges(g) && g.adj.Keys <= board.Keys
    requires WellFormed(g, s0) && Evolves(board, b0) && ConnectedUpTo(connected0, |rooms|, i, 0)
    ensures r.Ok? ==> WellFormed(g, r.value.0) && Evolves(board, r.value.1)
    ensures r.Ok? ==> ConnectedUpTo(connected, |rooms|, i + 1, 0) && row == RowPairs(i, i + 1, |rooms|)
    ensures r.Err? ==> r.error != RoomOutsideGrid && r.error != OutOfCandidates
    ensures r.Err? && EdgePerAdjacency(g) ==> !r.error.SearchFailed?
  {
    var n := |rooms|;
    var s, b := s0, b0;
    connected := connected0;
    row := [];
    var j := 0;
    while j < n
      invariant 0 <= j <= n
      invariant WellFormed(g, s) && Evolves(board, b)
      invariant ConnectedUpTo(connected, n, i, j)
      invariant row == RowPairs(i, i + 1, j)
    {
      if i != j && j !in connected[i] {
        var res;
        res, connected := ConnectOne(g, dist, s, board, b, rooms, connected, i, j);
        if res.Err? {
          r := Err(res.error);
          return;
        }
        s, b := res.value.0, res.value.1;
        row := row + [(i, j)];
      } else {
        ConnectedSkip(connected, n, i, j);
      }
      j := j + 1;
    }
    ConnectedNextRow(connected, n, i);
    r := Ok((s, b));
  }

  /** Finishing row `i` is starting row `i + 1`. */
  lemma ConnectedNextRow(connected: map<nat, seq<nat>>, n: nat, i: nat)
    requires i < n && ConnectedUpTo(connected, n, i, n)
    ensures ConnectedUpTo(connected, n, i + 1, 0)
  {
  }

  /** After the last row every room lists every other room, and only
      those. */
  lemma ConnectedAll(connected: map<nat, seq<nat>>, n: nat)
    requires ConnectedUpTo(connected, n, n, 0)
    ensures forall a: nat :: a in connected <==> a < n
    ensures forall a: nat, b: nat :: a < n && b < n ==> (b in connected[a] <==> a != b)
    ensures forall a: nat, b: nat :: a < n && b < n ==> (b in connected[a] <==> a in connected[b])
  {
  }

  /** `_connectRooms`: for every room and every other room not yet
      connected to it, a search from the first center to the second and the
      carving of its chain; both rooms then list each other. It returns the
      carved board, the pairs it searched, in order, and the `connected`
      lists. */
  method ConnectRooms(g: Graph, dist: (Point, Point) -> real, board: Board, rooms: seq<Room>)
    returns (r: Result<Board, BuildError>, searched: seq<(nat, nat)>, connected: map<nat, seq<nat>>)
    requires Closed(g) && NonNegative(dist) && PositiveEdges(g) && g.adj.Keys <= board.Keys
    ensures r.Ok? ==> Evolves(board, r.value)
    ensures r.Err? ==> r.error != RoomOutsideGrid && r.error != OutOfCandidates
    ensures r.Err? && EdgePerAdjacency(g) ==> !r.error.SearchFailed?
    ensures r.Ok? ==> searched == PairsBelow(|rooms|, |rooms|)
    ensures r.Ok? ==> forall a: nat :: a in connected <==> a < |rooms|
    ensures r.Ok? ==> forall a: nat, b: nat :: a < |rooms| && b < |rooms| ==> (b in connected[a] <==> a != b)
    ensures r.Ok? ==> forall a: nat, b: nat :: a < |rooms| && b < |rooms| ==> (b in connected[a] <==> a in connected[b])
  {
    var n := |rooms|;
    var s := NewSearch(g);
    var b := board;
    connected := NoneConnected(n);
    searched := [];
    var i := 0;
    while i < n
      invariant 0 <= i <= n
      invariant WellFormed(g, s) && Evolves(board, b)
      invariant ConnectedUpTo(connected, n, i, 0)
      invariant searched == PairsBelow(i, n)
    {
      var res, row;
      res, row, connected := ConnectRow(g, dist, s, board, b, rooms, connected, i);
      if res.Err? {
        r := Err(res.error);
        return;
      }
      s, b := res.value.0, res.value.1;
      searched := searched + row;
      i := i + 1;
    }
    ConnectedAll(connected, n);
    r := Ok(b);
  }
  // ------------------------------------------------------------ the maze

  /** The built maze: the carved map, the rooms and the search graph. */
  datatype Built = Built(grid: Grid, rooms: seq<Room>, graph: Graph)

  /** `_initGraph`: one node per cell and the orthogonal edges, ready for
      the search. */
  method InitGraph(height: nat, width: nat) returns (graph: Graph)
    ensures graph.adj.Keys == GridPoints(height, width)
    ensures Closed(graph) && PositiveEdges(graph)
    ensures forall p, q :: IsNeighbour(graph, p, q) ==> Orthogonal(p, q) && EdgeBy(graph.edges, p, q).Some?
  {
    graph := InitEdges(height, width);
    EdgesClosed(height, width, graph);
    EdgesForAdjacency(graph);
  }

  /** `_initRooms` seen from the constructor: the rooms it accepted and the
      facts about them, with the wall border kept on a map whose sides
      differ by at most two. */
  method PlaceAllRooms(g1: Grid, count: int, draws: seq<Draw>) returns (r: Result<(Grid, seq<Room>), BuildError>)
    requires Consistent(g1)
    requires forall p :: p in g1.board && OnBorder(g1, p) ==> g1.board[p].kind == Wall
    ensures r.Ok? ==> r.value.0.height == g1.height && r.value.0.width == g1.width
    ensures r.Ok? ==> r.value.0.board.Keys == g1.board.Keys
    ensures r.Ok? ==> |r.value.1| == Count(count) && Separate(r.value.1)
    ensures r.Ok? ==> forall i :: 0 <= i < |r.value.1| ==> !RoomSizeIllegal(g1, r.value.1[i])
    ensures r.Ok? ==> r.value.0.board == RoomsMarked(g1.board, r.value.1)
    ensures r.Ok? && g1.width <= g1.height + 2 && g1.height <= g1.width + 2 ==>
      forall p :: p in r.value.0.board && OnBorder(g1, p) ==> r.value.0.board[p].kind == Wall
    ensures g1.width <= g1.height + 2 && g1.height <= g1.width + 2 ==> r != Err(RoomOutsideGrid)
    ensures r.Err? ==> r.error == RoomOutsideGrid || r.error == OutOfCandidates
  {
    if g1.width <= g1.height + 2 && g1.height <= g1.width + 2 {
      PlaceRoomsFits(g1, Count(count), draws, []);
    }
    r := InitRooms(g1, count, draws);
    if r.Ok? {
      InitRoomsFacts(g1, count, draws);
      assert r.value.0.board == RoomsMarked(g1.board, r.value.1);
      if g1.width <= g1.height + 2 && g1.height <= g1.width + 2 {
        forall p | p in r.value.0.board && OnBorder(g1, p)
          ensures r.value.0.board[p].kind == Wall
        {
          RoomsKeepBorder(g1, count, draws, p);
        }
      }
    } else {
      PlaceRoomsErrors(g1, Count(count), draws, []);
    }
  }

  /** The SPACE map of the given size with its border walled, before any room is placed. */
  function WalledMap(height: int, width: int): Grid
    requires height >= 1 && width >= 1
  {
    InitWalls(InitMap(height, width))
  }

  /** The board is the walled map with the room boxes marked FLOOR, then carved by the connections. */
  predicate CarvedFromRooms(height: int, width: int, rooms: seq<Room>, board: Board)
  {
    height >= 1 && width >= 1 && Evolves(RoomsMarked(WalledMap(height, width).board, rooms), board)
  }

  /** The constructor: map, walls, rooms, graph, connections. The
      draws stand for the random room generator, `dist` for the distance
      between cells that the search uses as its heuristic. Besides the maze
      it hands back what `_connectRooms` kept while connecting: the pairs
      of room indices it searched, in order, and the `connected` lists. */
  method BuildMaze(height: int, width: int, roomsCount: int, draws: seq<Draw>, dist: (Point, Point) -> real)
    returns (r: Result<Built, BuildError>, searched: seq<(nat, nat)>, connected: map<nat, seq<nat>>)
    requires height >= 1 && width >= 1 && NonNegative(dist)
    ensures r.Ok? ==> r.value.grid.height == height && r.value.grid.width == width
    ensures r.Ok? ==> r.value.grid.board.Keys == GridPoints(height, width)
    ensures r.Ok? ==> |r.value.rooms| == Count(roomsCount) && Separate(r.value.rooms)
    ensures r.Ok? ==> forall i :: 0 <= i < |r.value.rooms| ==> !RoomSizeIllegal(r.value.grid, r.value.rooms[i])
    ensures r.Ok? && width <= height + 2 && height <= width + 2 ==>
      forall p :: p in r.value.grid.board && OnBorder(r.value.grid, p) ==> r.value.grid.board[p].kind == Wall
    ensures width <= height + 2 && height <= width + 2 ==> r != Err(RoomOutsideGrid)
    ensures r.Err? ==> !r.error.SearchFailed?
    // the search graph
    ensures r.Ok? ==> r.value.graph.adj.Keys == GridPoints(height, width)
    ensures r.Ok? ==> Closed(r.value.graph) && PositiveEdges(r.value.graph)
    ensures r.Ok? ==> forall p, q :: IsNeighbour(r.value.graph, p, q) ==>
      Orthogonal(p, q) && EdgeBy(r.value.graph.edges, p, q).Some?
    // the connections
    ensures r.Ok? ==> searched == PairsBelow(|r.value.rooms|, |r.value.rooms|)
    ensures r.Ok? ==> forall a: nat :: a in connected <==> a < |r.value.rooms|
    ensures r.Ok? ==> forall a: nat, b: nat :: a < |r.value.rooms| && b < |r.value.rooms| ==> (b in connected[a] <==> a != b)
    ensures r.Ok? ==> forall a: nat, b: nat :: a < |r.value.rooms| && b < |r.value.rooms| ==>
      (b in connected[a] <==> a in connected[b])
    ensures r.Ok? ==> CarvedFromRooms(height, width, r.value.rooms, r.value.grid.board)
  {
    var g1 := WalledMap(height, width);
    searched, connected := [], map[];
    var placed := PlaceAllRooms(g1, roomsCount, draws);
    if placed.Err? {
      return Err(placed.error), searched, connected;
    }
    var (g2, rooms) := placed.value;
    ConsistentKeys(g1);
    var graph := InitGraph(g2.height, g2.width);
    var res;
    res, searched, connected := ConnectRooms(graph, dist, g2.board, rooms);
    if res.Err? {
      return Err(res.error), searched, connected;
    }
    r := Ok(Built(g2.(board := res.value), rooms, graph));
  }
}

=== FILE: room.dfy ===
/** A rectangular room: its size, its center and the list of its floor
    cells, identified by their coordinates. */
module Rooms {
  import opened Geometry

  datatype Room = Room(height: int, width: int, center: Point, floor: seq<Point>)

  /** A new room has the given size and center and no floor cells yet. */
  function NewRoom(height: int, width: int, center: Point): (r: Room)
    ensures r.height == height && r.width == width && r.center == center
    ensures |r.floor| == 0
  {
    Room(height, width, center, [])
  }

  function AppendCell(r: Room, p: Point): (r': Room)
    ensures r'.floor == r.floor + [p]
    ensures r'.height == r.height && r'.width == r.width && r'.center == r.center
  {
    r.(floor := r.floor + [p])
  }

  predicate PartOfRoom(r: Room, p: Point)
  {
    p in r.floor
  }

  /** After appending `p`, `p` belongs to the room and every other point
      belongs to it exactly when it did before. */
  lemma AppendThenPartOf(r: Room, p: Point, q: Point)
    ensures PartOfRoom(AppendCell(r, p), p)
    ensures q != p ==> (PartOfRoom(AppendCell(r, p), q) <==> PartOfRoom(r, q))
  {
  }
}

=== FILE: scans.dfy ===
/** Looking along the four axes for an enemy to shoot at or to throw a
    grenade at. Each of the eight loops in the soldier is one `Sight`: a
    start cell, a stepping direction and the loop condition on the counter.
    A scan walks while the condition holds and the cell belongs to the room,
    and stops at the first occupied cell. */
module Scans {
  import opened Base
  import opened Geometry
  import opened Items
  import opened Cells
  import opened Rooms
  import opened Soldiers

  /** `room.cellBy(x, y)` finds a cell: the point is on the room's floor and
      the map has a cell there. */
  predicate InRoom(board: Board, room: Room, p: Point)
  {
    p in room.floor && p in board
  }

  /** The condition of a scan loop on its counter: none (`while True`), or
      the counter below or above a bound. */
  datatype Guard = Unbounded | Below(bound: int) | Above(bound: int)

  /** The coordinate a loop along `d` counts with. */
  function Axis(p: Point, d: Dir): int
  {
    match d
    case PlusX => p.x
    case MinusX => p.x
    case PlusY => p.y
    case MinusY => p.y
  }

  /** The coordinate a loop along `d` keeps fixed. */
  function Lateral(p: Point, d: Dir): int
  {
    match d
    case PlusX => p.y
    case MinusX => p.y
    case PlusY => p.x
    case MinusY => p.x
  }

  predicate Admits(guard: Guard, p: Point, d: Dir)
  {
    match guard
    case Unbounded => true
    case Below(b) => Axis(p, d) < b
    case Above(b) => Axis(p, d) > b
  }

  /** The farthest a point of `floor` lies along `d` (0 for no points). */
  function Reach(floor: seq<Point>, d: Dir): (r: int)
    ensures forall q :: q in floor ==> Progress(q, d) <= r
  {
    if |floor| == 0 then 0
    else
      var rest := Reach(floor[1..], d);
      assert forall q :: q in floor ==> q == floor[0] || q in floor[1..];
      if Progress(floor[0], d) > rest then Progress(floor[0], d) else rest
  }

  /** The scan loop stops at `q`: admitted, in the room and occupied. */
  predicate Stops(board: Board, room: Room, q: Point, d: Dir, guard: Guard)
  {
    Admits(guard, q, d) && InRoom(board, room, q) && !IsEmpty(board[q])
  }

  /** The scan loop steps over `q`: admitted, in the room and empty. */
  predicate Passes(board: Board, room: Room, q: Point, d: Dir, guard: Guard)
  {
    Admits(guard, q, d) && InRoom(board, room, q) && IsEmpty(board[q])
  }

  /** One scan loop: the first occupied cell it reaches from `p`, if any. */
  function Scan(board: Board, room: Room, p: Point, d: Dir, guard: Guard): (r: Option<Point>)
    ensures r.Some? ==> Stops(board, room, r.value, d, guard)
    ensures r.Some? ==> Lateral(r.value, d) == Lateral(p, d) && Progress(r.value, d) >= Progress(p, d)
    decreases Reach(room.floor, d) - Progress(p, d)
  {
    if !Admits(guard, p, d) || !InRoom(board, room, p) then None
    else if !IsEmpty(board[p]) then Some(p)
    else Scan(board, room, Next(p, d), d, guard)
  }

  /** The `k` cells from `p` onwards along `d` are all stepped over. */
  ghost predicate ClearFor(board: Board, room: Room, p: Point, d: Dir, guard: Guard, k: nat)
  {
    forall m: nat :: m < k ==> Passes(board, room, Offset(p, d, m), d, guard)
  }

  /** The reference reading of a scan: it returns the cell `k` steps away
      exactly when the loop steps over the `k` cells before it and stops
      there. */
  lemma {:induction false} ScanFindsFirstOccupied(board: Board, room: Room, p: Point, d: Dir, guard: Guard, k: nat)
    ensures Scan(board, room, p, d, guard) == Some(Offset(p, d, k)) <==>
      ClearFor(board, room, p, d, guard, k) && Stops(board, room, Offset(p, d, k), d, guard)
    decreases k
  {
    var r := Scan(board, room, p, d, guard);
    if !Admits(guard, p, d) || !InRoom(board, room, p) {
      assert Offset(p, d, 0) == p;
      assert !ClearFor(board, room, p, d, guard, k) || (k == 0 && !Stops(board, room, p, d, guard));
    } else if !IsEmpty(board[p]) {
      assert Offset(p, d, 0) == p;
      assert !Passes(board, room, Offset(p, d, 0), d, guard);
      if k > 0 {
        assert Offset(p, d, k) != p;
      }
    } else if k == 0 {
      assert Offset(p, d, 0) == p;
      assert r == Scan(board, room, Next(p, d), d, guard);
      assert r.Some? ==> Progress(r.value, d) > Progress(p, d);
    } else {
      var n := Next(p, d);
      ScanFindsFirstOccupied(board, room, n, d, guard, k - 1);
      assert Offset(n, d, k - 1) == Offset(p, d, k);
      assert ClearFor(board, room, p, d, guard, k) <==> ClearFor(board, room, n, d, guard, k - 1) by {
        assert Offset(p, d, 0) == p;
        assert forall m: nat :: 0 < m ==> Offset(p, d, m) == Offset(n, d, m - 1);
        if ClearFor(board, room, n, d, guard, k - 1) {
          forall m: nat | m < k
            ensures Passes(board, room, Offset(p, d, m), d, guard)
          {
            if m > 0 {
              assert Offset(p, d, m) == Offset(n, d, m - 1);
            }
          }
        }
        if ClearFor(board, room, p, d, guard, k) {
          forall m: nat | m < k - 1
            ensures Passes(board, room, Offset(n, d, m), d, guard)
          {
            assert Offset(p, d, m + 1) == Offset(n, d, m);
          }
        }
      }
    }
  }

  /** A scan loop: where it starts, which way it steps, its condition. */
  datatype Sight = Sight(from: Point, dir: Dir, guard: Guard)

  /** The occupant of `c` is a soldier of another team. */
  predicate IsEnemy(c: Cell, team: nat)
  {
    c.obj.Some? && c.obj.value.SoldierHere? && c.obj.value.teamId != team
  }

  /** The enemy one scan loop finds: its first occupied cell holds a soldier
      of another team. Any other occupant ends the loop without a target. */
  function EnemyOn(board: Board, room: Room, team: nat, v: Sight): (r: Option<Point>)
    ensures r.Some? ==> r == Scan(board, room, v.from, v.dir, v.guard) && IsEnemy(board[r.value], team)
    ensures r.None? <==> (var f := Scan(board, room, v.from, v.dir, v.guard); f.None? || !IsEnemy(board[f.value], team))
  {
    var f := Scan(board, room, v.from, v.dir, v.guard);
    if f.Some? && IsEnemy(board[f.value], team) then f else None
  }

  /** The loops run one after the other; the first that finds an enemy acts. */
  function FirstEnemy(board: Board, room: Room, team: nat, sights: seq<Sight>): (r: Option<Point>)
    ensures r.Some? ==>
      exists i :: 0 <= i < |sights| && r == EnemyOn(board, room, team, sights[i])
        && forall j :: 0 <= j < i ==> EnemyOn(board, room, team, sights[j]).None?
    ensures r.None? <==> forall i :: 0 <= i < |sights| ==> EnemyOn(board, room, team, sights[i]).None?
  {
    if |sights| == 0 then None
    else
      var here := EnemyOn(board, room, team, sights[0]);
      if here.Some? then here
      else
        var rest := FirstEnemy(board, room, team, sights[1..]);
        assert forall i :: 1 <= i < |sights| ==> sights[i] == sights[1..][i - 1];
        rest
  }

  function Victim(c: Cell): nat
    requires c.obj.Some? && c.obj.value.SoldierHere?
  {
    c.obj.value.soldierId
  }

  /** An attack: the victim's id, where it stands and what hits it. */
  datatype Hit<T> = Hit(victim: nat, at: Point, ammo: T)

  // ---------------------------------------------------------------------
  // Shooting

  /** The four shooting loops of `_shootIfPossible` as written: +x, +y, -x,
      and a last loop that starts one below and then counts y upwards. */
  function ShootSightsAsWritten(at: Point): (r: seq<Sight>)
    ensures |r| == 4 && r[3] == Sight(Point(at.x, at.y - 1), PlusY, Unbounded)
  {
    [Sight(Next(at, PlusX), PlusX, Unbounded), Sight(Next(at, PlusY), PlusY, Unbounded),
     Sight(Next(at, MinusX), MinusX, Unbounded), Sight(Next(at, MinusY), PlusY, Unbounded)]
  }

  /** The four loops as evidently intended: each starts next to the shooter
      and walks away from it. */
  function ShootSights(at: Point): (r: seq<Sight>)
    ensures |r| == 4
    ensures forall i :: 0 <= i < 4 ==> r[i].from == Next(at, r[i].dir) && r[i].guard == Unbounded
    ensures r[0].dir == PlusX && r[1].dir == PlusY && r[2].dir == MinusX && r[3].dir == MinusY
  {
    [Sight(Next(at, PlusX), PlusX, Unbounded), Sight(Next(at, PlusY), PlusY, Unbounded),
     Sight(Next(at, MinusX), MinusX, Unbounded), Sight(Next(at, MinusY), MinusY, Unbounded)]
  }

  /** `_shootIfPossible` over the given loops, then `_shootAt`: the first
      enemy found is shot with the last bullet, which leaves the inventory. */
  function ShootIfPossible(s: Soldier, board: Board, room: Room, sights: seq<Sight>): (r: (Soldier, Option<Hit<Bullet>>))
    requires |s.bullets| > 0
    ensures r.1.Some? <==> exists i :: 0 <= i < |sights| && EnemyOn(board, room, s.teamId, sights[i]).Some?
    ensures r.1.Some? ==>
      r.1.value.at in board && IsEnemy(board[r.1.value.at], s.teamId)
      && r.1.value.victim == board[r.1.value.at].obj.value.soldierId
      && r.1.value.ammo == s.bullets[|s.bullets| - 1]
      && r.0 == s.(bullets := s.bullets[..|s.bullets| - 1])
    ensures r.1.Some? ==>
      exists i :: 0 <= i < |sights| && EnemyOn(board, room, s.teamId, sights[i]) == Some(r.1.value.at)
        && forall j :: 0 <= j < i ==> EnemyOn(board, room, s.teamId, sights[j]).None?
    ensures r.1.None? ==> r.0 == s
  {
    match FirstEnemy(board, room, s.teamId, sights)
    case None => (s, None)
    case Some(q) =>
      var n := |s.bullets|;
      (s.(bullets := s.bullets[..n - 1]), Some(Hit(Victim(board[q]), q, s.bullets[n - 1])))
  }

  /** The enemy first seen along direction `d`, looking from `at`. */
  function Seen(board: Board, room: Room, team: nat, at: Point, d: Dir): Option<Point>
  {
    EnemyOn(board, room, team, Sight(Next(at, d), d, Unbounded))
  }

  /** With the intended loops, a soldier shoots exactly when the first
      occupied room cell in one of the four directions holds an enemy. */
  lemma ShootsIffEnemyInSight(s: Soldier, board: Board, room: Room, at: Point)
    requires |s.bullets| > 0
    ensures ShootIfPossible(s, board, room, ShootSights(at)).1.Some? <==>
      exists d: Dir :: Seen(board, room, s.teamId, at, d).Some?
  {
    var v := ShootSights(at);
    if exists d: Dir :: Seen(board, room, s.teamId, at, d).Some? {
      var d: Dir :| Seen(board, room, s.teamId, at, d).Some?;
      var i := match d case PlusX => 0 case PlusY => 1 case MinusX => 2 case MinusY => 3;
      assert v[i] == Sight(Next(at, d), d, Unbounded);
    }
    if ShootIfPossible(s, board, room, v).1.Some? {
      var i :| 0 <= i < 4 && EnemyOn(board, room, s.teamId, v[i]).Some?;
      assert Seen(board, room, s.teamId, at, v[i].dir).Some?;
    }
  }

  /** The map of the counterexamples: a corridor of three room cells with
      the soldier of team 1 at (5, 5), nothing at (5, 4) and a soldier of
      team 2 at `enemy`. */
  function Corridor(enemy: Point): (b: Board)
    ensures Point(5, 5) in b && Point(5, 4) in b && Point(5, 3) in b && enemy in b
  {
    map[Point(5, 3) := NewCell(Floor, 5, 3),
        Point(5, 4) := NewCell(Floor, 5, 4),
        Point(5, 5) := Cell(Floor, 5, 5, Some(SoldierHere(1, 1)))][enemy := Cell(Floor, enemy.x, enemy.y, Some(SoldierHere(2, 2)))]
  }

  const CorridorRoom: Room := Room(3, 1, Point(5, 4), [Point(5, 3), Point(5, 4), Point(5, 5)])

  /** The shooter of the counterexamples. */
  function Shooter(): (s: Soldier)
    ensures s.teamId == 1 && |s.bullets| == 1 && |s.grenades| == 1 && s.at == Some(Point(5, 5))
  {
    Soldier(1, 1, Defensive, 100, 100, [Bullet(10)], [Grenade(20)], Some(Point(5, 5)), None, Discovering, None, None)
  }

  /** The last loop as written steps back onto the shooter's own cell, so an
      enemy two cells below behind an empty cell is never shot; the intended
      loop shoots it. */
  lemma ShootMissesEnemyBelow()
    ensures ShootIfPossible(Shooter(), Corridor(Point(5, 3)), CorridorRoom, ShootSightsAsWritten(Point(5, 5))).1.None?
    ensures ShootIfPossible(Shooter(), Corridor(Point(5, 3)), CorridorRoom, ShootSights(Point(5, 5))).1
      == Some(Hit(2, Point(5, 3), Bullet(10)))
  {
    var b := Corridor(Point(5, 3));
    var room := CorridorRoom;
    assert !InRoom(b, room, Point(6, 5)) && !InRoom(b, room, Point(5, 6)) && !InRoom(b, room, Point(4, 5));
    assert Scan(b, room, Point(5, 4), PlusY, Unbounded) == Some(Point(5, 5)) by {
      assert Passes(b, room, Point(5, 4), PlusY, Unbounded);
    }
    assert Scan(b, room, Point(5, 4), MinusY, Unbounded) == Some(Point(5, 3)) by {
      assert Passes(b, room, Point(5, 4), MinusY, Unbounded);
      assert Scan(b, room, Point(5, 3), MinusY, Unbounded) == Some(Point(5, 3));
    }
    var asWritten := ShootSightsAsWritten(Point(5, 5));
    assert forall i :: 0 <= i < 4 ==> EnemyOn(b, room, 1, asWritten[i]).None?;
    assert EnemyOn(b, room, 1, ShootSights(Point(5, 5))[3]) == Some(Point(5, 3));
  }

  /** `_lookAtCellsAndShoot`: no bullets, or not standing in a room, means
      no shot; otherwise the intended loops run in the current room. */
  function LookAtCellsAndShoot(s: Soldier, rooms: seq<Room>, board: Board): (r: (Soldier, Option<Hit<Bullet>>))
    ensures r.1.Some? ==>
      |s.bullets| > 0 && CurrentRoom(rooms, s.at).Some?
      && r.1.value.ammo == s.bullets[|s.bullets| - 1] && r.0 == s.(bullets := s.bullets[..|s.bullets| - 1])
    ensures r.1.None? ==> r.0 == s
    ensures |s.bullets| > 0 && CurrentRoom(rooms, s.at).Some? ==>
      r == ShootIfPossible(s, board, rooms[CurrentRoom(rooms, s.at).value], ShootSights(s.at.value))
  {
    if |s.bullets| == 0 then (s, None)
    else
      match CurrentRoom(rooms, s.at)
      case None => (s, None)
      case Some(i) => ShootIfPossible(s, board, rooms[i], ShootSights(s.at.value))
  }

  /** Picking up a package and then shooting fires the package's last bullet
      and leaves the rest of what was carried and picked up. */
  lemma PickupThenShoot(s: Soldier, board: Board, p: Point, rooms: seq<Room>)
    requires s.search.Some? && p in board && HoldsBullets(board[p])
    requires |board[p].obj.value.package.bullets| > 0
    ensures var units := board[p].obj.value.package.bullets;
      var picked := SpottedBulletPackageFlow(s, board, p);
      picked.Ok? &&
      var (s1, b1) := picked.value;
      var (s2, hit) := LookAtCellsAndShoot(s1, rooms, b1);
      (hit.Some? ==> hit.value.ammo == units[|units| - 1] && s2.bullets == s.bullets + units[..|units| - 1])
      && (hit.None? ==> s2.bullets == s.bullets + units)
  {
    var units := board[p].obj.value.package.bullets;
    var (s1, b1) := SpottedBulletPackageFlow(s, board, p).value;
    assert s1.bullets == s.bullets + units;
    assert (s.bullets + units)[..|s.bullets| + |units| - 1] == s.bullets + units[..|units| - 1];
  }

  // ---------------------------------------------------------------------
  // Grenades

  /** The four loops of `_throwGrenadeIfPossible` as written. The -x loop
      starts its counter at x - 1 and runs while it is below x - 3, which it
      never is, so it never runs. The -y loop alike; its counter would even
      step upwards (`decrement_y += 1`), hence `PlusY`. */
  function GrenadeSightsAsWritten(at: Point): (r: seq<Sight>)
    ensures |r| == 4 && r[..2] == GrenadeSights(at)[..2]
    ensures !Admits(r[2].guard, r[2].from, r[2].dir) && !Admits(r[3].guard, r[3].from, r[3].dir)
  {
    [Sight(Next(at, PlusX), PlusX, Below(at.x + 3)), Sight(Next(at, PlusY), PlusY, Below(at.y + 3)),
     Sight(Next(at, MinusX), MinusX, Below(at.x - 3)), Sight(Next(at, MinusY), PlusY, Below(at.y - 3))]
  }

  /** The loops as evidently intended: two cells in each direction. */
  function GrenadeSights(at: Point): (r: seq<Sight>)
    ensures |r| == 4
    ensures forall i :: 0 <= i < 4 ==> r[i].from == Next(at, r[i].dir)
    ensures r[0].dir == PlusX && r[1].dir == PlusY && r[2].dir == MinusX && r[3].dir == MinusY
  {
    [Sight(Next(at, PlusX), PlusX, Below(at.x + 3)), Sight(Next(at, PlusY), PlusY, Below(at.y + 3)),
     Sight(Next(at, MinusX), MinusX, Above(at.x - 3)), Sight(Next(at, MinusY), MinusY, Above(at.y - 3))]
  }

  /** `_throwGrenadeIfPossible` over the given loops, then `_throwGrenadeAt`:
      the last grenade leaves the inventory and hits the first enemy found. */
  function ThrowGrenadeIfPossible(s: Soldier, board: Board, room: Room, sights: seq<Sight>): (r: (Soldier, Option<Hit<Grenade>>))
    requires |s.grenades| > 0
    ensures r.1.Some? <==> exists i :: 0 <= i < |sights| && EnemyOn(board, room, s.teamId, sights[i]).Some?
    ensures r.1.Some? ==>
      r.1.value.at in board && IsEnemy(board[r.1.value.at], s.teamId)
      && r.1.value.victim == board[r.1.value.at].obj.value.soldierId
      && r.1.value.ammo == s.grenades[|s.grenades| - 1]
      && r.0 == s.(grenades := s.grenades[..|s.grenades| - 1])
    ensures r.1.Some? ==>
      exists i :: 0 <= i < |sights| && EnemyOn(board, room, s.teamId, sights[i]) == Some(r.1.value.at)
        && forall j :: 0 <= j < i ==> EnemyOn(board, room, s.teamId, sights[j]).None?
    ensures r.1.None? ==> r.0 == s
  {
    match FirstEnemy(board, room, s.teamId, sights)
    case None => (s, None)
    case Some(q) =>
      var n := |s.grenades|;
      (s.(grenades := s.grenades[..n - 1]), Some(Hit(Victim(board[q]), q, s.grenades[n - 1])))
  }

  /** As written, a grenade can only hit an enemy one or two cells away
      along +x or +y. */
  lemma GrenadeAsWrittenReach(s: Soldier, board: Board, room: Room, at: Point)
    requires |s.grenades| > 0
    ensures var hit := ThrowGrenadeIfPossible(s, board, room, GrenadeSightsAsWritten(at)).1;
      hit.Some? ==>
        hit.value.at in {Offset(at, PlusX, 1), Offset(at, PlusX, 2), Offset(at, PlusY, 1), Offset(at, PlusY, 2)}
  {
    var v := GrenadeSightsAsWritten(at);
    assert Scan(board, room, v[2].from, MinusX, v[2].guard).None?;
    assert Scan(board, room, v[3].from, PlusY, v[3].guard).None?;
  }

  /** Looking from `at` along `d`, the first room cell within two steps
      that holds anything holds an enemy: the next cell does, or it is an
      empty room cell and the one after does. */
  predicate EnemyWithinTwo(board: Board, room: Room, team: nat, at: Point, d: Dir)
  {
    var p1 := Next(at, d);
    var p2 := Next(p1, d);
    || (InRoom(board, room, p1) && IsEnemy(board[p1], team))
    || (InRoom(board, room, p1) && IsEmpty(board[p1]) && InRoom(board, room, p2) && IsEnemy(board[p2], team))
  }

  /** One intended grenade loop finds an enemy exactly when one is within
      two steps along its direction. */
  lemma GrenadeSightFindsWithinTwo(board: Board, room: Room, team: nat, at: Point, i: nat)
    requires i < 4
    ensures var v := GrenadeSights(at)[i];
      EnemyOn(board, room, team, v).Some? <==> EnemyWithinTwo(board, room, team, at, v.dir)
  {
    var v := GrenadeSights(at)[i];
    var d := v.dir;
    var p1 := Next(at, d);
    var p2 := Next(p1, d);
    GrenadeSightsSpanTwo(at, i, 0);
    GrenadeSightsSpanTwo(at, i, 1);
    GrenadeSightsSpanTwo(at, i, 2);
    assert Offset(v.from, d, 0) == p1 && Offset(v.from, d, 1) == p2 && Offset(v.from, d, 2) == Next(p2, d);
    assert v.from == p1;
    assert Scan(board, room, Next(p2, d), d, v.guard).None?;
    var f := Scan(board, room, p1, d, v.guard);
    if InRoom(board, room, p1) && IsEmpty(board[p1]) {
      assert f == Scan(board, room, p2, d, v.guard);
      if InRoom(board, room, p2) && !IsEmpty(board[p2]) {
        assert f == Some(p2);
      } else {
        assert f.None?;
      }
    } else if InRoom(board, room, p1) {
      assert f == Some(p1);
    } else {
      assert f.None?;
    }
  }

  /** With the intended loops, a grenade is thrown exactly when the first
      occupied cell within two steps in one of the four directions holds an
      enemy. */
  lemma GrenadeIffEnemyNearby(s: Soldier, board: Board, room: Room, at: Point)
    requires |s.grenades| > 0
    ensures ThrowGrenadeIfPossible(s, board, room, GrenadeSights(at)).1.Some? <==>
      exists d: Dir :: EnemyWithinTwo(board, room, s.teamId, at, d)
  {
    var v := GrenadeSights(at);
    forall i | 0 <= i < 4
      ensures EnemyOn(board, room, s.teamId, v[i]).Some? <==> EnemyWithinTwo(board, room, s.teamId, at, v[i].dir)
    {
      GrenadeSightFindsWithinTwo(board, room, s.teamId, at, i);
    }
    if exists d: Dir :: EnemyWithinTwo(board, room, s.teamId, at, d) {
      var d: Dir :| EnemyWithinTwo(board, room, s.teamId, at, d);
      var i := match d case PlusX => 0 case PlusY => 1 case MinusX => 2 case MinusY => 3;
      assert v[i].dir == d;
    }
  }

  /** Each intended grenade loop admits exactly the first two cells it
      steps onto. */
  lemma GrenadeSightsSpanTwo(at: Point, i: nat, k: nat)
    requires i < 4
    ensures var v := GrenadeSights(at)[i];
      Admits(v.guard, Offset(v.from, v.dir, k), v.dir) <==> k < 2
  {
  }

  /** An enemy right below the thrower: the loops as written miss it, the
      intended ones hit it. */
  lemma GrenadeMissesEnemyBelow()
    ensures ThrowGrenadeIfPossible(Shooter(), Corridor(Point(5, 4)), CorridorRoom, GrenadeSightsAsWritten(Point(5, 5))).1.None?
    ensures ThrowGrenadeIfPossible(Shooter(), Corridor(Point(5, 4)), CorridorRoom, GrenadeSights(Point(5, 5))).1
      == Some(Hit(2, Point(5, 4), Grenade(20)))
  {
    var b := Corridor(Point(5, 4));
    var room := CorridorRoom;
    assert !InRoom(b, room, Point(6, 5)) && !InRoom(b, room, Point(5, 6)) && !InRoom(b, room, Point(4, 5));
    var asWritten := GrenadeSightsAsWritten(Point(5, 5));
    assert forall i :: 0 <= i < 4 ==> EnemyOn(b, room, 1, asWritten[i]).None?;
    assert Scan(b, room, Point(5, 4), MinusY, Above(2)) == Some(Point(5, 4));
    assert EnemyOn(b, room, 1, GrenadeSights(Point(5, 5))[3]) == Some(Point(5, 4));
  }

  /** `_lookNearbyAndThrowGrenade`: no grenades, or not standing in a room,
      means no throw; otherwise the intended loops run in the current room. */
  function LookNearbyAndThrowGrenade(s: Soldier, rooms: seq<Room>, board: Board): (r: (Soldier, Option<Hit<Grenade>>))
    ensures r.1.Some? ==>
      |s.grenades| > 0 && CurrentRoom(rooms, s.at).Some?
      && r.1.value.ammo == s.grenades[|s.grenades| - 1] && r.0 == s.(grenades := s.grenades[..|s.grenades| - 1])
    ensures r.1.None? ==> r.0 == s
    ensures |s.grenades| > 0 && CurrentRoom(rooms, s.at).Some? ==>
      r == ThrowGrenadeIfPossible(s, board, rooms[CurrentRoom(rooms, s.at).value], GrenadeSights(s.at.value))
  {
    if |s.grenades| == 0 then (s, None)
    else
      match CurrentRoom(rooms, s.at)
      case None => (s, None)
      case Some(i) => ThrowGrenadeIfPossible(s, board, rooms[i], GrenadeSights(s.at.value))
  }
}

=== FILE: soldier.dfy ===
/** A soldier's own rules: taking damage, picking up packages, moving one
    cell, deciding what to look for next and choosing a search target. The
    two soldier classes share everything but the state policy, so the class
    becomes a `Role` field. */
module Soldiers {
  import opened Base
  import opened Geometry
  import opened Items
  import opened Cells
  import opened Rooms
  import opened Graph

  datatype SoldierState = Discovering | LookingForBullets | LookingForGrenades | LookingForHealth

  datatype VisualState = ShownShot | ShownBlown

  datatype Role = Offensive | Defensive

  /** The soldier's cell and previous cell are kept by coordinates; its
      search engine is absent until `InitAstar`. */
  datatype Soldier = Soldier(
    id: nat,
    teamId: nat,
    role: Role,
    health: int,
    maxHealth: int,
    bullets: seq<Bullet>,
    grenades: seq<Grenade>,
    at: Option<Point>,
    cameFrom: Option<Point>,
    state: SoldierState,
    visual: Option<VisualState>,
    search: Option<Search>)

  /** The constructor: full health, nothing carried, not yet placed; the id is
      the class-wide counter, which then moves on by one. */
  function NewSoldier(counter: nat, role: Role, maxHealth: int, teamId: nat): (r: (Soldier, nat))
    ensures r.0.id == counter && r.1 == counter + 1
    ensures r.0.role == role && r.0.teamId == teamId
    ensures r.0.health == maxHealth && r.0.maxHealth == maxHealth
    ensures |r.0.bullets| == 0 && |r.0.grenades| == 0
    ensures r.0.at.None? && r.0.cameFrom.None? && r.0.search.None?
    ensures r.0.state == Discovering && r.0.visual.None?
  {
    (Soldier(counter, teamId, role, maxHealth, maxHealth, [], [], None, None, Discovering, None, None), counter + 1)
  }

  /** `initAstar`: the soldier gets a fresh search over the map's graph. */
  function InitAstar(s: Soldier, g: Graph): (r: Soldier)
    ensures r.search.Some? && r.search.value.nodes.Keys == g.adj.Keys
    ensures r.search.value.start.None? && r.search.value.target.None?
    ensures r == s.(search := r.search)
  {
    s.(search := Some(NewSearch(g)))
  }

  // ---------------------------------------------------------------------
  // Damage

  /** Health after a hit of `damage`: lowered by the damage, clamped at 0. */
  function AfterDamage(health: int, damage: int): (r: int)
    ensures r >= 0
    ensures r == 0 <==> health <= damage
    ensures r > 0 ==> r == health - damage
  {
    if health - damage < 0 then 0 else health - damage
  }

  /** `shotWith`: only the health and the visual state change. */
  function ShotWith(s: Soldier, b: Bullet): (r: Soldier)
    ensures r.health >= 0
    ensures r.health == 0 <==> s.health <= b.damage
    ensures r.health > 0 ==> r.health == s.health - b.damage
    ensures r.visual == Some(ShownShot)
    ensures r == s.(health := r.health, visual := r.visual)
  {
    s.(health := AfterDamage(s.health, b.damage), visual := Some(ShownShot))
  }

  /** `blownWithGrenade`: the same clamped subtraction, another visual state. */
  function BlownWithGrenade(s: Soldier, g: Grenade): (r: Soldier)
    ensures r.health >= 0
    ensures r.health == 0 <==> s.health <= g.damage
    ensures r.health > 0 ==> r.health == s.health - g.damage
    ensures r.visual == Some(ShownBlown)
    ensures r == s.(health := r.health, visual := r.visual)
  {
    s.(health := AfterDamage(s.health, g.damage), visual := Some(ShownBlown))
  }

  function Sum(ds: seq<int>): int
  {
    if |ds| == 0 then 0 else Sum(ds[..|ds| - 1]) + ds[|ds| - 1]
  }

  /** The soldier after being shot with each bullet of `bs` in turn. */
  function ShotWithAll(s: Soldier, bs: seq<Bullet>): Soldier
  {
    if |bs| == 0 then s else ShotWith(ShotWithAll(s, bs[..|bs| - 1]), bs[|bs| - 1])
  }

  function Damages(bs: seq<Bullet>): (r: seq<int>)
    ensures |r| == |bs| && forall i :: 0 <= i < |bs| ==> r[i] == bs[i].damage
  {
    if |bs| == 0 then [] else Damages(bs[..|bs| - 1]) + [bs[|bs| - 1].damage]
  }

  /** Clamping loses nothing as long as damage is non-negative: a series of
      hits leaves the health one hit with the summed damage would leave. */
  lemma {:induction false} ShotsAccumulate(s: Soldier, bs: seq<Bullet>)
    requires s.health >= 0
    requires forall i :: 0 <= i < |bs| ==> bs[i].damage >= 0
    ensures ShotWithAll(s, bs).health == AfterDamage(s.health, Sum(Damages(bs)))
  {
    if |bs| > 0 {
      var init := bs[..|bs| - 1];
      assert Damages(bs)[..|bs| - 1] == Damages(init);
      ShotsAccumulate(s, init);
    }
  }

  // ---------------------------------------------------------------------
  // Packages

  /** The board with the occupant of `p` removed (`removeObj`). */
  function Vacate(board: Board, p: Point): (r: Board)
    requires p in board
    ensures r.Keys == board.Keys
    ensures r[p].obj.None? && r[p].kind == board[p].kind && r[p].Pos() == board[p].Pos()
    ensures forall q :: q in board && q != p ==> r[q] == board[q]
  {
    board[p := board[p].(obj := None)]
  }

  predicate HoldsHealth(c: Cell)
  {
    c.obj.Some? && c.obj.value.PackageHere? && c.obj.value.package.HealthPackage?
  }

  predicate HoldsBullets(c: Cell)
  {
    c.obj.Some? && c.obj.value.PackageHere? && c.obj.value.package.BulletPackage?
  }

  predicate HoldsGrenades(c: Cell)
  {
    c.obj.Some? && c.obj.value.PackageHere? && c.obj.value.package.GrenadePackage?
  }

  /** `_spottedHealthPackageFlow`: health rises by the package's restore
      value but not above the maximum; the package leaves the board, the
      state returns to discovering and the search is reset. */
  function SpottedHealthPackageFlow(s: Soldier, board: Board, p: Point): (r: (Soldier, Board))
    requires s.search.Some?
    requires p in board && HoldsHealth(board[p])
    ensures var restore := board[p].obj.value.package.restore;
      r.0.health <= s.maxHealth && r.0.health <= s.health + restore &&
      (r.0.health == s.maxHealth || r.0.health == s.health + restore)
    ensures r.1 == Vacate(board, p)
    ensures r.0.state == Discovering && r.0.search == Some(ResetAlgorithm(s.search.value))
    ensures r.0 == s.(health := r.0.health, state := Discovering, search := r.0.search)
  {
    var restored := s.health + board[p].obj.value.package.restore;
    var health := if restored > s.maxHealth then s.maxHealth else restored;
    (s.(health := health, state := Discovering, search := Some(ResetAlgorithm(s.search.value))), Vacate(board, p))
  }

  /** A health package never takes a soldier above the maximum, and a soldier
      at the maximum stays there whatever the (non-negative) restore value. */
  lemma HealthPackageCaps(s: Soldier, board: Board, p: Point)
    requires s.search.Some?
    requires p in board && HoldsHealth(board[p])
    requires board[p].obj.value.package.restore >= 0
    requires s.health <= s.maxHealth
    ensures s.health <= SpottedHealthPackageFlow(s, board, p).0.health <= s.maxHealth
    ensures s.health == s.maxHealth ==> SpottedHealthPackageFlow(s, board, p).0.health == s.maxHealth
  {
  }

  datatype FlowError = NoBulletsAfterPickup | NoGrenadesAfterPickup

  /** `_spottedBulletPackageFlow`: every bullet of the package is appended;
      the program exits when the soldier still has none; otherwise the
      package leaves the board, the search is reset and the state returns to
      discovering. */
  function SpottedBulletPackageFlow(s: Soldier, board: Board, p: Point): (r: Result<(Soldier, Board), FlowError>)
    requires s.search.Some?
    requires p in board && HoldsBullets(board[p])
    ensures var units := board[p].obj.value.package.bullets;
      (r.Ok? <==> |s.bullets| + |units| > 0) &&
      (r.Err? ==> r.error == NoBulletsAfterPickup) &&
      (r.Ok? ==> |r.value.0.bullets| == |s.bullets| + |units| && r.value.0.bullets[..|s.bullets|] == s.bullets && r.value.0.bullets[|s.bullets|..] == units)
    ensures r.Ok? ==> r.value.1 == Vacate(board, p)
    ensures r.Ok? ==> r.value.0 == s.(bullets := r.value.0.bullets, state := Discovering, search := Some(ResetAlgorithm(s.search.value)))
  {
    var bullets := s.bullets + board[p].obj.value.package.bullets;
    if |bullets| == 0 then Err(NoBulletsAfterPickup)
    else Ok((s.(bullets := bullets, state := Discovering, search := Some(ResetAlgorithm(s.search.value))), Vacate(board, p)))
  }

  /** `_spottedGrenadePackageFlow`, the grenade counterpart. */
  function SpottedGrenadePackageFlow(s: Soldier, board: Board, p: Point): (r: Result<(Soldier, Board), FlowError>)
    requires s.search.Some?
    requires p in board && HoldsGrenades(board[p])
    ensures var units := board[p].obj.value.package.grenades;
      (r.Ok? <==> |s.grenades| + |units| > 0) &&
      (r.Err? ==> r.error == NoGrenadesAfterPickup) &&
      (r.Ok? ==> |r.value.0.grenades| == |s.grenades| + |units| && r.value.0.grenades[..|s.grenades|] == s.grenades && r.value.0.grenades[|s.grenades|..] == units)
    ensures r.Ok? ==> r.value.1 == Vacate(board, p)
    ensures r.Ok? ==> r.value.0 == s.(grenades := r.value.0.grenades, state := Discovering, search := Some(ResetAlgorithm(s.search.value)))
  {
    var grenades := s.grenades + board[p].obj.value.package.grenades;
    if |grenades| == 0 then Err(NoGrenadesAfterPickup)
    else Ok((s.(grenades := grenades, state := Discovering, search := Some(ResetAlgorithm(s.search.value))), Vacate(board, p)))
  }

  // ---------------------------------------------------------------------
  // Moving

  /** Either node lists the other as a neighbour. */
  predicate Adjacent(g: Graph, a: Point, b: Point)
  {
    IsNeighbour(g, a, b) || IsNeighbour(g, b, a)
  }

  /** `mapTo`: the move happens when the destination is adjacent (in either
      direction) and traversable; the old cell is emptied, the new one holds
      the soldier. `traversable` stands for `Cell.isTraversable`. */
  function MapTo(g: Graph, board: Board, s: Soldier, to: Point, traversable: Cell -> bool): (r: (Soldier, Board, bool))
    requires s.at.Some? && s.at.value in g.adj && s.at.value in board && to in board
    ensures r.2 <==> Adjacent(g, s.at.value, to) && traversable(board[to])
    ensures r.2 ==> r.0 == s.(at := Some(to))
    ensures r.2 ==>
      r.1.Keys == board.Keys
      && r.1[to] == board[to].(obj := Some(SoldierHere(s.id, s.teamId)))
      && (to != s.at.value ==> r.1[s.at.value] == board[s.at.value].(obj := None))
      && (forall q :: q in board && q != to && q != s.at.value ==> r.1[q] == board[q])
    ensures !r.2 ==> r.0 == s && r.1 == board
  {
    var at := s.at.value;
    if Adjacent(g, at, to) && traversable(board[to]) then
      var vacated := Vacate(board, at);
      (s.(at := Some(to)), vacated[to := vacated[to].(obj := Some(SoldierHere(s.id, s.teamId)))], true)
    else
      (s, board, false)
  }

  /** A move can be undone: when the soldier stood on its own cell and moved
      to an empty one, moving back (its old cell now being traversable)
      succeeds and restores the board and the position. */
  lemma MapToAndBack(g: Graph, board: Board, s: Soldier, to: Point, traversable: Cell -> bool)
    requires s.at.Some? && s.at.value in g.adj && s.at.value in board && to in board && to in g.adj
    requires board[s.at.value].obj == Some(SoldierHere(s.id, s.teamId)) && board[to].obj.None?
    requires MapTo(g, board, s, to, traversable).2
    requires traversable(board[s.at.value].(obj := None))
    ensures var (s1, b1, _) := MapTo(g, board, s, to, traversable);
      var (s2, b2, back) := MapTo(g, b1, s1, s.at.value, traversable);
      back && s2 == s && b2 == board
  {
    var at := s.at.value;
    var (s1, b1, _) := MapTo(g, board, s, to, traversable);
    if to != at {
      assert b1[at] == board[at].(obj := None);
    }
    var (s2, b2, back) := MapTo(g, b1, s1, at, traversable);
    assert back;
    assert b2.Keys == board.Keys;
    forall q | q in board
      ensures b2[q] == board[q]
    {
      if q == at {
        assert b2[at] == b1[at].(obj := Some(SoldierHere(s.id, s.teamId)));
      } else if q == to {
        assert b2[to] == b1[to].(obj := None);
      }
    }
  }

  // ---------------------------------------------------------------------
  // Choosing what to look for

  /** `_isLowHealth` compares `(max_health / 100) * k` with the health, k
      being 50 for a defensive and 10 for an offensive soldier; stated here
      as an exact integer comparison. */
  predicate IsLowHealth(s: Soldier)
  {
    match s.role
    case Defensive => s.maxHealth * 50 > s.health * 100
    case Offensive => s.maxHealth * 10 > s.health * 100
  }

  /** The integer comparison is the source's ratio read as exact rationals. */
  lemma LowHealthIsRatio(s: Soldier)
    ensures IsLowHealth(s) <==>
      (s.maxHealth as real / 100.0) * (if s.role == Defensive then 50.0 else 10.0) > s.health as real
  {
  }

  /** `_decideOnState` of the two soldier classes. The offensive class tests
      "no bullets and no grenades" twice, so its second branch is dead. */
  function DecideOnState(s: Soldier): (r: SoldierState)
    ensures s.role == Offensive ==> r != LookingForBullets
    ensures r == LookingForHealth ==> IsLowHealth(s)
    ensures r == Discovering ==> !IsLowHealth(s)
  {
    match s.role
    case Defensive =>
      if IsLowHealth(s) then LookingForHealth
      else if |s.bullets| < 3 then LookingForBullets
      else if |s.grenades| < 2 then LookingForGrenades
      else Discovering
    case Offensive =>
      if |s.bullets| == 0 && |s.grenades| == 0 then LookingForGrenades
      else if |s.grenades| == 0 && |s.bullets| == 0 then LookingForBullets
      else if IsLowHealth(s) then LookingForHealth
      else Discovering
  }

  /** The defensive policy as four exclusive conditions: health below half
      the maximum first, then fewer than three bullets, then fewer than two
      grenades. */
  lemma DefensivePolicy(s: Soldier)
    requires s.role == Defensive
    ensures DecideOnState(s) == LookingForHealth <==> s.health * 2 < s.maxHealth
    ensures DecideOnState(s) == LookingForBullets <==> s.health * 2 >= s.maxHealth && |s.bullets| < 3
    ensures DecideOnState(s) == LookingForGrenades <==> s.health * 2 >= s.maxHealth && |s.bullets| >= 3 && |s.grenades| < 2
    ensures DecideOnState(s) == Discovering <==> s.health * 2 >= s.maxHealth && |s.bullets| >= 3 && |s.grenades| >= 2
  {
  }

  /** The offensive policy: out of all ammunition it looks for grenades, never
      for bullets; otherwise health below a tenth of the maximum sends it for
      health. */
  lemma OffensivePolicy(s: Soldier)
    requires s.role == Offensive
    ensures DecideOnState(s) == LookingForGrenades <==> |s.bullets| == 0 && |s.grenades| == 0
    ensures DecideOnState(s) != LookingForBullets
    ensures DecideOnState(s) == LookingForHealth <==> (|s.bullets| > 0 || |s.grenades| > 0) && s.health * 10 < s.maxHealth
    ensures DecideOnState(s) == Discovering <==> (|s.bullets| > 0 || |s.grenades| > 0) && s.health * 10 >= s.maxHealth
  {
  }

  /** Losing health never talks a soldier out of looking for health. */
  lemma LookingForHealthPersists(s: Soldier, health: int)
    requires DecideOnState(s) == LookingForHealth && health <= s.health
    ensures DecideOnState(s.(health := health)) == LookingForHealth
  {
  }

  // ---------------------------------------------------------------------
  // Picking a target

  /** `_currentRoom`: the index of the first room whose floor holds the
      soldier's cell. */
  function CurrentRoom(rooms: seq<Room>, at: Option<Point>): (r: Option<nat>)
    ensures r.Some? ==> r.value < |rooms| && at.Some? && PartOfRoom(rooms[r.value], at.value)
    ensures r.Some? ==> forall j :: 0 <= j < r.value ==> !PartOfRoom(rooms[j], at.value)
    ensures r.None? <==> at.None? || forall j :: 0 <= j < |rooms| ==> !PartOfRoom(rooms[j], at.value)
  {
    if at.None? then None else FirstRoomWith(rooms, at.value, 0)
  }

  function FirstRoomWith(rooms: seq<Room>, p: Point, from: nat): (r: Option<nat>)
    requires from <= |rooms|
    requires forall j :: 0 <= j < from ==> !PartOfRoom(rooms[j], p)
    ensures r.Some? ==> from <= r.value < |rooms| && PartOfRoom(rooms[r.value], p)
    ensures r.Some? ==> forall j :: 0 <= j < r.value ==> !PartOfRoom(rooms[j], p)
    ensures r.None? <==> forall j :: 0 <= j < |rooms| ==> !PartOfRoom(rooms[j], p)
    decreases |rooms| - from
  {
    if from == |rooms| then None
    else if PartOfRoom(rooms[from], p) then Some(from)
    else FirstRoomWith(rooms, p, from + 1)
  }

  datatype Supply = BulletSupply | GrenadeSupply | HealthSupply

  /** The cell at `q` holds a package of the wanted kind. */
  predicate Supplies(board: Board, q: Point, want: Supply)
  {
    q in board &&
    match want
    case BulletSupply => HoldsBullets(board[q])
    case GrenadeSupply => HoldsGrenades(board[q])
    case HealthSupply => HoldsHealth(board[q])
  }

  /** Cell `i` is the first cell of `floor` holding the wanted package. */
  predicate FirstOnFloor(floor: seq<Point>, board: Board, want: Supply, i: int)
  {
    0 <= i < |floor| && Supplies(board, floor[i], want) && forall j :: 0 <= j < i ==> !Supplies(board, floor[j], want)
  }

  /** The first floor cell holding the wanted package. */
  function FindOnFloor(floor: seq<Point>, board: Board, want: Supply): (r: Option<Point>)
    ensures r.Some? ==> Supplies(board, r.value, want)
    ensures r.Some? ==>
      exists i :: 0 <= i < |floor| && floor[i] == r.value && forall j :: 0 <= j < i ==> !Supplies(board, floor[j], want)
    ensures r.None? <==> forall i :: 0 <= i < |floor| ==> !Supplies(board, floor[i], want)
  {
    if |floor| == 0 then None
    else if Supplies(board, floor[0], want) then Some(floor[0])
    else
      var rest := FindOnFloor(floor[1..], board, want);
      assert forall i :: 1 <= i < |floor| ==> floor[i] == floor[1..][i - 1];
      rest
  }

  /** `_bulletPackage` / `_grenadePackage`: searched only in the current room. */
  function SupplyInCurrentRoom(rooms: seq<Room>, board: Board, at: Option<Point>, want: Supply): (r: Option<Point>)
    ensures r.Some? ==>
      Supplies(board, r.value, want)
      && CurrentRoom(rooms, at).Some? && r.value in rooms[CurrentRoom(rooms, at).value].floor
    ensures r.None? <==>
      CurrentRoom(rooms, at).None?
      || forall q :: q in rooms[CurrentRoom(rooms, at).value].floor ==> !Supplies(board, q, want)
    ensures r.Some? ==>
      exists i :: FirstOnFloor(rooms[CurrentRoom(rooms, at).value].floor, board, want, i)
        && r.value == rooms[CurrentRoom(rooms, at).value].floor[i]
  {
    match CurrentRoom(rooms, at)
    case None => None
    case Some(i) => FindOnFloor(rooms[i].floor, board, want)
  }

  /** `_healthPackage`: the first health package in any room, rooms in order. */
  function FindInRooms(rooms: seq<Room>, board: Board, want: Supply): (r: Option<Point>)
    ensures r.Some? ==>
      Supplies(board, r.value, want)
      && exists k :: 0 <= k < |rooms| && r.value in rooms[k].floor
    ensures r.None? <==> forall k, q :: 0 <= k < |rooms| && q in rooms[k].floor ==> !Supplies(board, q, want)
    ensures r.Some? ==>
      exists k, i :: 0 <= k < |rooms| && FirstOnFloor(rooms[k].floor, board, want, i) && r.value == rooms[k].floor[i]
        && forall j, q :: 0 <= j < k && q in rooms[j].floor ==> !Supplies(board, q, want)
  {
    if |rooms| == 0 then None
    else
      match FindOnFloor(rooms[0].floor, board, want)
      case Some(q) => Some(q)
      case None =>
        var rest := FindInRooms(rooms[1..], board, want);
        assert forall k :: 1 <= k < |rooms| ==> rooms[k] == rooms[1..][k - 1];
        rest
  }

  /** A room the soldier may head for: any room when it has no previous
      cell, otherwise one that does not contain it. */
  predicate Unvisited(room: Room, cameFrom: Option<Point>)
  {
    cameFrom.None? || !PartOfRoom(room, cameFrom.value)
  }

  /** `_randomRoomCenter`: `draws` are the room indices `randint` yields in
      turn; the first acceptable room gives its center. `None` means the
      draws ran out, where the source would keep drawing. */
  function RandomRoomCenter(rooms: seq<Room>, cameFrom: Option<Point>, draws: seq<int>): (r: Option<Point>)
    requires forall k :: 0 <= k < |draws| ==> 0 <= draws[k] < |rooms|
    ensures r.Some? ==> exists i :: 0 <= i < |rooms| && r.value == rooms[i].center && Unvisited(rooms[i], cameFrom)
    ensures r.None? <==> forall k :: 0 <= k < |draws| ==> !Unvisited(rooms[draws[k]], cameFrom)
    ensures cameFrom.None? && |draws| > 0 ==> r == Some(rooms[draws[0]].center)
    ensures r.Some? ==>
      exists k :: 0 <= k < |draws| && Unvisited(rooms[draws[k]], cameFrom) && r.value == rooms[draws[k]].center
        && forall j :: 0 <= j < k ==> !Unvisited(rooms[draws[j]], cameFrom)
  {
    if |draws| == 0 then None
    else if Unvisited(rooms[draws[0]], cameFrom) then Some(rooms[draws[0]].center)
    else
      var rest := RandomRoomCenter(rooms, cameFrom, draws[1..]);
      assert forall k :: 1 <= k < |draws| ==> draws[k] == draws[1..][k - 1];
      rest
  }

  /** The state `_pickTarget` settles on and the target it aims for. Each
      wanted supply that cannot be found turns the state to discovering. */
  function ChooseTarget(s: Soldier, rooms: seq<Room>, board: Board, draws: seq<int>): (r: (SoldierState, Option<Point>))
    requires forall k :: 0 <= k < |draws| ==> 0 <= draws[k] < |rooms|
    ensures r.0 == LookingForHealth ==>
      DecideOnState(s) == LookingForHealth && r.1 == FindInRooms(rooms, board, HealthSupply) && r.1.Some?
    ensures r.0 == LookingForBullets ==>
      DecideOnState(s) == LookingForBullets && r.1 == SupplyInCurrentRoom(rooms, board, s.at, BulletSupply) && r.1.Some?
    ensures r.0 == LookingForGrenades ==>
      DecideOnState(s) == LookingForGrenades && r.1 == SupplyInCurrentRoom(rooms, board, s.at, GrenadeSupply) && r.1.Some?
    ensures r.0 == Discovering ==> r.1 == RandomRoomCenter(rooms, s.cameFrom, draws)
    ensures r.0 == Discovering <==>
      (DecideOnState(s) == Discovering
      || (DecideOnState(s) == LookingForHealth && FindInRooms(rooms, board, HealthSupply).None?)
      || (DecideOnState(s) == LookingForBullets && SupplyInCurrentRoom(rooms, board, s.at, BulletSupply).None?)
      || (DecideOnState(s) == LookingForGrenades && SupplyInCurrentRoom(rooms, board, s.at, GrenadeSupply).None?))
  {
    var st0 := DecideOnState(s);
    var health := if st0 == LookingForHealth then FindInRooms(rooms, board, HealthSupply) else None;
    var st1 := if st0 == LookingForHealth && health.None? then Discovering else st0;
    var bullets := if st1 == LookingForBullets then SupplyInCurrentRoom(rooms, board, s.at, BulletSupply) else None;
    var st2 := if st1 == LookingForBullets && bullets.None? then Discovering else st1;
    var grenades := if st2 == LookingForGrenades then SupplyInCurrentRoom(rooms, board, s.at, GrenadeSupply) else None;
    var st3 := if st2 == LookingForGrenades && grenades.None? then Discovering else st2;
    match st3
    case LookingForHealth => (st3, health)
    case LookingForBullets => (st3, bullets)
    case LookingForGrenades => (st3, grenades)
    case Discovering => (st3, RandomRoomCenter(rooms, s.cameFrom, draws))
  }

  /** Why `_pickTarget` cannot finish: the room draws ran out, or a cell is
      not a node of the soldier's search (the source dereferences `None`). */
  datatype PickError = NoRoomDrawn | NotANode | NoSearch

  /** `_pickTarget`: settle on a state and a target, remember the current
      cell as the previous one, and mark the current cell START and the
      target TARGET in the search. */
  function PickTarget(s: Soldier, rooms: seq<Room>, board: Board, draws: seq<int>): (r: Result<Soldier, PickError>)
    requires forall k :: 0 <= k < |draws| ==> 0 <= draws[k] < |rooms|
    ensures r.Ok? ==> r.value.state == ChooseTarget(s, rooms, board, draws).0
    ensures r.Ok? ==> r.value.cameFrom == s.at && r.value.at == s.at
    ensures r.Ok? ==>
      r.value.search.Some? && s.search.Some?
      && r.value.search.value.start == s.at
      && r.value.search.value.target == ChooseTarget(s, rooms, board, draws).1
      && r.value.search.value.target.Some?
      && r.value.search.value.target.value in r.value.search.value.nodes
      && r.value.search.value.nodes.Keys == s.search.value.nodes.Keys
      && r.value.search.value.nodes[r.value.search.value.target.value].state == Target
    ensures r.Ok? ==> r.value == s.(state := r.value.state, cameFrom := s.at, search := r.value.search)
    ensures r.Err? ==> (r.error == NoRoomDrawn <==> ChooseTarget(s, rooms, board, draws).1.None?)
    ensures r.Ok? <==>
      && ChooseTarget(s, rooms, board, draws).1.Some?
      && s.search.Some? && s.at.Some? && s.at.value in s.search.value.nodes
      && ChooseTarget(s, rooms, board, draws).1.value in s.search.value.nodes
    ensures r.Err? ==> (r.error == NoSearch <==> ChooseTarget(s, rooms, board, draws).1.Some? && s.search.None?)
  {
    var (state, target) := ChooseTarget(s, rooms, board, draws);
    if target.None? then Err(NoRoomDrawn)
    else if s.search.None? then Err(NoSearch)
    else if s.at.None? || s.at.value !in s.search.value.nodes || target.value !in s.search.value.nodes then Err(NotANode)
    else
      var search := SetTarget(SetStart(s.search.value, s.at.value), target.value);
      Ok(s.(state := state, cameFrom := s.at, search := Some(search)))
  }

  /** When the soldier needs bullets or grenades and its room has none, it
      falls back to discovering and heads for the center of a room it did
      not come from. */
  lemma PickTargetFallsBack(s: Soldier, rooms: seq<Room>, board: Board, draws: seq<int>, want: Supply)
    requires forall k :: 0 <= k < |draws| ==> 0 <= draws[k] < |rooms|
    requires want != HealthSupply
    requires DecideOnState(s) == (if want == BulletSupply then LookingForBullets else LookingForGrenades)
    requires SupplyInCurrentRoom(rooms, board, s.at, want).None?
    ensures ChooseTarget(s, rooms, board, draws).0 == Discovering
    ensures PickTarget(s, rooms, board, draws).Ok? ==>
      exists i :: 0 <= i < |rooms| && Unvisited(rooms[i], s.cameFrom)
        && PickTarget(s, rooms, board, draws).value.search.value.target == Some(rooms[i].center)
  {
  }
}

=== FILE: team.dfy ===
/** A team: an id drawn from a class-wide counter and its list of soldiers. */
module Teams {
  import opened Soldiers

  datatype Team = Team(id: nat, soldiers: seq<Soldier>)

  /** The constructor: the id is the counter, which then moves on by one;
      the team starts without soldiers. */
  function NewTeam(counter: nat): (r: (Team, nat))
    ensures r.0.id == counter && r.1 == counter + 1
    ensures |r.0.soldiers| == 0
  {
    (Team(counter, []), counter + 1)
  }

  /** `addSoldier` appends one soldier and keeps the id. */
  function AddSoldier(t: Team, s: Soldier): (r: Team)
    ensures r.id == t.id
    ensures |r.soldiers| == |t.soldiers| + 1 && r.soldiers[..|t.soldiers|] == t.soldiers
    ensures r.soldiers[|t.soldiers|] == s
  {
    t.(soldiers := t.soldiers + [s])
  }

  /** `n` teams built one after another from `counter`. */
  function NewTeams(counter: nat, n: nat): (r: (seq<Team>, nat))
    decreases n
  {
    if n == 0 then ([], counter)
    else
      var (first, next) := NewTeam(counter);
      var (rest, last) := NewTeams(next, n - 1);
      ([first] + rest, last)
  }

  /** Teams built in a row take consecutive ids, so their ids increase and
      are distinct, and the counter ends past the last one. */
  lemma {:induction false} NewTeamsIds(counter: nat, n: nat)
    ensures |NewTeams(counter, n).0| == n && NewTeams(counter, n).1 == counter + n
    ensures forall i :: 0 <= i < n ==> NewTeams(counter, n).0[i].id == counter + i
    ensures forall i, j :: 0 <= i < j < n ==> NewTeams(counter, n).0[i].id < NewTeams(counter, n).0[j].id
    decreases n
  {
    if n > 0 {
      NewTeamsIds(counter + 1, n - 1);
      var rest := NewTeams(counter + 1, n - 1).0;
      assert NewTeams(counter, n).0 == [Team(counter, [])] + rest;
    }
  }
}
